=== FILE: README.md ===
# nmstate provider reconciliation, modelled in Dafny

This project models the reconciliation core of the nmstate network-configuration
provider of os-net-config (`os_net_config/impl_nmstate.py`). The provider turns
configuration units into desired-state fragments, compares them with the
running state that the nmstate library reports, and applies what differs.
The model covers five parts:

- **The subset comparator** `is_dict_subset` (module `Subset`). It works over a
  JSON-like value (module `PyJson`) that has Python's truthiness, `in`
  operator and `set(...)`. It returns `Holds`, `Fails` or `Raises`; the last
  one stands for the `TypeError`/`AttributeError` paths. A ghost reference
  predicate `Satisfies` says what "the observed value already carries every
  desired fact" means, and the comparator is proved sound and complete
  against it.
- **The desired-state builder** `_add_common` (module `Builder`). It runs as a
  chain of stages:
  1. base fields;
  2. VLAN detection;
  3. OVS port;
  4. the per-kind branch: OVS bridge, OVS bond, Linux bond, Linux team and the
     rejected kinds;
  5. MTU, addresses and default route.

  A build returns the side registries (`member_names`, `bond_primary_ifaces`)
  together with a fragment or an error, because the registries are written
  even when the build later raises. It relies on:
  - the regular expressions `\w+\.\d+$` and `(.+?)=(.+?)($|\s)`, and
    `str.strip('vlan')` and `int(...)` (module `Patterns`);
  - the configuration units (module `Units`);
  - insertion-ordered dictionaries (module `OrderedMaps`).
- **The route normaliser** `_add_routes` (module `Routes`).
- **The `add_*` calls and `child_members`** (module `Provider`). Each `add_*`
  call fills the per-kind buckets, the route table and the rename table.
  `child_members` is the transitive closure of the member registry.
- **`apply`** (modules `Planner` and `ApplyFacts`). It is a pure function of:
  - the provider state;
  - an `Oracles` value standing for the outside world: running interfaces and
    routes, route-file paths, whether each file differs, the cleanup glob, and
    which library calls fail.

  It returns the plan, the ordered trace of external effects and the result
  (`update_files` or the raised error).

Three places where the code does something other than what it evidently
intends are listed under Findings. There the model is parameterised by
`Reading`:
- `AsWritten` follows the code.
- `Intended` is the corrected behaviour. The properties about the corrected
  model are stated for that reading.

## Model

| member | source | states |
|---|---|---|
| Subset.SelfHolds | osp17_ref/os_net_config/impl_nmstate.py:62-63 | Every value is a subset of itself, and matches itself as a leaf value. |
| Subset.Rejections | osp17_ref/os_net_config/impl_nmstate.py:62-67 | If either side is falsy, the result holds exactly when the sides are equal, and it never raises. So `{}` desired holds only against `{}`. Two mappings where the desired one names a key the observed one lacks give `False`. |
| Subset.ExtraObservedKeysIgnored | osp17_ref/os_net_config/impl_nmstate.py:64-67 | For a non-empty desired mapping, adding keys that it does not name to the observed mapping never changes the verdict. (The empty desired mapping holds only against an empty observed one.) |
| Subset.DictByItems | osp17_ref/os_net_config/impl_nmstate.py:64-88 | For a non-empty desired mapping and an observed mapping, only the per-item loop decides. |
| Subset.ListLeaf | osp17_ref/os_net_config/impl_nmstate.py:74-81 | A list leaf holds exactly when every desired item is in the observed list, whatever the order and duplicates, whether or not the items are hashable. It never raises. |
| Subset.MembersOfList | osp17_ref/os_net_config/impl_nmstate.py:78-81 | The per-item fallback holds exactly when every desired item is a member of the observed list. |
| Subset.LeafSatisfiesSound | osp17_ref/os_net_config/impl_nmstate.py:68-87 | The leaf rules imply the reference reading: nested mappings recurse, strings match by substring, lists by membership, sets by inclusion, and other values by equality. |
| Subset.LeafSatisfiesComplete | osp17_ref/os_net_config/impl_nmstate.py:68-87 | Conversely, a leaf that holds, against an observed leaf of the same shape, satisfies the reference reading. |
| Subset.SatisfiesSound | osp17_ref/os_net_config/impl_nmstate.py:59-89 | An observed value that satisfies the reference reading makes `is_dict_subset` return `True`. |
| Subset.SatisfiesComplete | osp17_ref/os_net_config/impl_nmstate.py:59-89 | A `True` verdict against an observed value of matching shape means the reference reading is satisfied. |
| Subset.SubsetMatchesReference | osp17_ref/os_net_config/impl_nmstate.py:59-89 | When the shapes agree (the observed value is a mapping wherever the desired one is, and a leaf of the same type elsewhere), `is_dict_subset` holds if and only if the observed value satisfies the desired one. |
| Subset.ListSatisfiesDict | osp17_ref/os_net_config/impl_nmstate.py:59-89 | An observed list satisfies a desired mapping if and only if every desired value is `[]` and every desired key is an item of the list: `superset[key]` raises inside the `try`, and the fallback loop has nothing to look up. So a list never satisfies a mapping with some value other than `[]`. |
| Subset.IsDictSubset | osp17_ref/os_net_config/impl_nmstate.py:59-89 | Equal values always hold. A `True` between different values needs a non-empty desired mapping whose every key the observed value contains. An observed mapping has it as a key. An observed list, string or set has it as an item, and the desired value is `[]`. |
| Patterns.VlanNameFrom | osp17_ref/os_net_config/impl_nmstate.py:222-245 | `<word chars>.<digits>` (with at most one trailing newline) matches `\w+\.\d+$`. Its base is the word and its id is the value of the digits. |
| Patterns.VlanNameParts | osp17_ref/os_net_config/impl_nmstate.py:222-223 | Every name that matches is its base, a dot and its digits, with at most one final newline. |
| Patterns.FindAllTokensNonEmpty | osp17_ref/os_net_config/impl_nmstate.py:361-362 | Every `(key, value)` that `re.findall` returns for the bonding-options pattern has a non-empty key and value. |
| Patterns.BondOptionTokensRoundTrip | osp17_ref/os_net_config/impl_nmstate.py:361-362 | Tokens `k=v` joined by single spaces are found again, all of them and in order. This holds when no key contains `=` or a newline and no value contains whitespace. |
| Builder.Build | osp17_ref/os_net_config/impl_nmstate.py:183-463 | The registries stay well formed. A successful build names the unit. Bridges and bonds with members record their members, teams only when they have no primary, and OVS bonds with a primary record it; these entries are written whether or not the build raises later. |
| Builder.BuildState | osp17_ref/os_net_config/impl_nmstate.py:202-206 | The state is `up` or `down`. It is `up` exactly when the unit starts on boot, or is an OVS interface, a port on an OVS bridge or a Linux bond (the forced cases at :221, :265, :338). |
| Builder.BuildMtu | osp17_ref/os_net_config/impl_nmstate.py:415-416 | `mtu` is present exactly when the unit has a non-zero MTU, and then has that value. |
| Builder.NonBridgeL3 | osp17_ref/os_net_config/impl_nmstate.py:415-452 | For every kind but a bridge, the address stage never raises. IPv4 ends as stage 1 set it, then the addresses, then the gateway flag. IPv6 ends as stage 1 set it, then the addresses. |
| Builder.Ipv4Settings | osp17_ref/os_net_config/impl_nmstate.py:189-452 | IPv4, for every kind but a bridge. `dhcp` equals `use_dhcp`. It is enabled exactly when DHCP is on or there is an IPv4 address. There is one `{ip, prefix-length}` entry per IPv4 address, in order. `auto-dns` is False exactly when DNS servers are given without DHCP. `auto-gateway` is False exactly when the unit is not the default route. |
| Builder.Ipv6Settings | osp17_ref/os_net_config/impl_nmstate.py:197-438 | IPv6, for every kind but a bridge. `dhcp` equals `use_dhcpv6`. It is enabled exactly when DHCPv6 is on or there is an IPv6 address. There is one entry per IPv6 address, in order. `autoconf` is False exactly when there is one. |
| Builder.BuildType | osp17_ref/os_net_config/impl_nmstate.py:213-371 | The `type` follows the code's precedence: the kind's own type for bridges, bonds and teams; then the port type on an OVS bridge; then `vlan` for a VLAN-shaped unit not on OVS; then `ethernet` or `ovs-interface`; otherwise no type. |
| Builder.BuildVlanSubtree | osp17_ref/os_net_config/impl_nmstate.py:222-245 | The `vlan` subtree is present exactly for VLAN-shaped units that are not OVS ports, whatever their kind. It holds the explicit id and parent (`device`, else `linux_bond_name`) for VLAN objects, and otherwise the values parsed from the name. |
| Builder.VlanFromName | osp17_ref/os_net_config/impl_nmstate.py:241-245 | A non-VLAN unit named `w.d` gets `vlan = {id: value of d, base-iface: w}`. |
| Builder.UnsupportedKinds | osp17_ref/os_net_config/impl_nmstate.py:246-413 | OVS user bridges, Linux bridges, tunnels, patch ports and DPDK ports and bonds always fail with `NotImplemented` and leave the registries alone. IVS, NFVSwitch and Infiniband units fail that way exactly when their name is not VLAN-shaped. |
| Builder.BridgePortShape | osp17_ref/os_net_config/impl_nmstate.py:294-307 | A bridge port is named after its member. It is an access port exactly when the member's name starts with `vlan`. |
| Builder.VlanMemberTag | osp17_ref/os_net_config/impl_nmstate.py:295-304 | Member `vlan<digits>` becomes an access port tagged with the value of the digits. This goes through `str.strip('vlan')`, a character-set strip. |
| Builder.VlanMemberWithoutNumber | osp17_ref/os_net_config/impl_nmstate.py:295-296 | A `vlan...` member whose stripped remainder is not an integer fails the whole bridge (`int()` raises). |
| Builder.BridgeFragment | osp17_ref/os_net_config/impl_nmstate.py:274-316 | A built bridge has no `ipv4`/`ipv6`. Its options are the fail mode with STP, RSTP and multicast snooping off. Its ports are the members' ports in order followed by `<name>-p`, or none without members. It carries a MAC exactly when it names a primary interface. |
| Builder.BridgeL3AsWritten | osp17_ref/os_net_config/impl_nmstate.py:417-452 | As written, a bridge builds exactly when it has no address and is the default route. Otherwise it fails with a `KeyError` on `ipv4`, or on `ipv6` when it has only IPv6 addresses. |
| Builder.BridgeL3Intended | osp17_ref/os_net_config/impl_nmstate.py:278-280 | Read as intended, a bridge that passes its branch always builds and carries no address family. |
| Builder.LinuxBondFragment | osp17_ref/os_net_config/impl_nmstate.py:336-368 | A Linux bond always builds, as an `up` bond that carries its `link-aggregation` subtree. |
| Builder.LinuxBondSubtreeSpec | osp17_ref/os_net_config/impl_nmstate.py:340-368 | The mode is the last `mode`/`MODE` option, else `active-backup`. `port` is the member names in order unless an option overrides it. `options` is always present and is `{}` unless an option overrides it. Every other option's last value is written under its own key, and the subtree has no key besides `mode`, `port`, `options` and the option keys. |
| Builder.ApplyBondTokensLast | osp17_ref/os_net_config/impl_nmstate.py:363-368 | After the option loop, a key holds the value of the last option that writes it, or its earlier value when no option does. |
| Builder.LinuxBondModeFromOptions | osp17_ref/os_net_config/impl_nmstate.py:357-368 | For an options string made of well-formed tokens, the bond mode is the last `mode`/`MODE` token's value, else `active-backup`. |
| Units.AddressesOf | osp17_ref/os_net_config/impl_nmstate.py:418-428 | The addresses of one family are the unit's addresses of that family, each as often as in the unit, and no others. |
| Units.AddressesOfAppend | osp17_ref/os_net_config/impl_nmstate.py:418-428 | Selecting a family commutes with concatenation, so the selection keeps the unit's order. |
| Units.AddressesSplit | osp17_ref/os_net_config/impl_nmstate.py:418-428 | The IPv4 and IPv6 selections together are exactly the unit's addresses, with multiplicity. |
| Routes.RouteEntry | osp17_ref/os_net_config/impl_nmstate.py:475-491 | `metric` and `table-id` are present exactly when set. The next-hop address and interface are present exactly when there is a next hop, and the interface is the unit. A destination is present exactly when the effective destination is non-empty. No other key appears. |
| Routes.RouteEntryRoundTrip | osp17_ref/os_net_config/impl_nmstate.py:475-491 | Reading an entry back gives the route, with the default flag folded into its destination. |
| Routes.DefaultRouteDestination | osp17_ref/os_net_config/impl_nmstate.py:484-488 | A default route through a next hop gets `::/0` or `0.0.0.0/0` by the next hop's family, whatever netmask it had. |
| Routes.AddRoutes | osp17_ref/os_net_config/impl_nmstate.py:495 | The unit's entries replace what was recorded for it, and a new unit is appended in order. |
| Routes.AddRoutesTwice | osp17_ref/os_net_config/impl_nmstate.py:495 | Recording routes twice for one unit keeps only the second list. |
| Provider.Fresh | osp17_ref/os_net_config/impl_nmstate.py:95-109 | A new provider has every bucket and table empty, and both registries (`member_names`, `bond_primary_ifaces`) empty. |
| Provider.RecordStores | osp17_ref/os_net_config/impl_nmstate.py:504-508 | A successful build stores exactly its fragment under the unit's name in its own bucket, and replaces the unit's routes when it has any. A failed one stores nothing. Either way the registries the build left are kept and no other bucket changes. |
| Provider.AddInterface | osp17_ref/os_net_config/impl_nmstate.py:498-513 | `add_interface` stores the built fragment under the name in the interface bucket, replaces the unit's routes when it has any, and changes no other bucket; a failed build stores nothing and raises. A rename from hardware name to configured name is recorded exactly when the interface is added and renamed. |
| Provider.AddVlan | osp17_ref/os_net_config/impl_nmstate.py:521-525 | `add_vlan` raises exactly when the build fails. On success the fragment is stored under the unit's name in the VLAN bucket and the unit's routes replace its route entry when it has any; no other bucket, and no rename, changes. A failure stores nothing. |
| Provider.AddBond | osp17_ref/os_net_config/impl_nmstate.py:575-579 | `add_bond` raises exactly when the build fails. On success the fragment is stored under the unit's name in the interface bucket and the unit's routes replace its route entry when it has any; no other bucket, and no rename, changes. A failure stores nothing. An OVS bond goes to the interface bucket, as in the code. |
| Provider.AddLinuxBond | osp17_ref/os_net_config/impl_nmstate.py:587-591 | `add_linux_bond` raises exactly when the build fails. On success the fragment is stored under the unit's name in the Linux bond bucket and the unit's routes replace its route entry when it has any; no other bucket, and no rename, changes. A failure stores nothing. |
| Provider.AddLinuxTeam | osp17_ref/os_net_config/impl_nmstate.py:599-603 | `add_linux_team` raises exactly when the build fails. On success the fragment is stored under the unit's name in the Linux team bucket and the unit's routes replace its route entry when it has any; no other bucket, and no rename, changes. A failure stores nothing. |
| Provider.AddLinuxBridge | osp17_ref/os_net_config/impl_nmstate.py:557-567 | `add_linux_bridge` always raises `NotImplemented` and changes nothing. |
| Provider.InternalPortFragment | osp17_ref/os_net_config/impl_nmstate.py:532-547 | The internal port always builds, as an `up` `ovs-interface` with its own name, and leaves the registries alone. |
| Provider.InternalPortAddressing | osp17_ref/os_net_config/impl_nmstate.py:527-547 | The built `<name>-p` fragment carries the bridge's settings: IPv4 `dhcp` is `use_dhcp` and IPv6 `dhcp` is `use_dhcpv6`; each family has an address list exactly when the bridge has addresses of it, namely those addresses in order; `auto-gateway` is False exactly when the bridge is not the default route; `mtu` is present exactly when the bridge has a non-zero MTU, with that value. |
| Provider.AddBridge | osp17_ref/os_net_config/impl_nmstate.py:527-555 | The `<name>-p` port always builds, keeps the registries and is stored under its name with its fragment. The bridge is then built on the same registries and recorded like any unit: its fragment is stored under its name iff it builds, `add_bridge` raises exactly when the bridge's build fails, with that error, and the bridge's routes are recorded under its name. No other bucket changes and no rename is recorded. |
| Provider.AddsKeepNamed | osp17_ref/os_net_config/impl_nmstate.py:498-603 | `add_interface`, `add_vlan`, `add_bond`, `add_linux_bond` and `add_linux_team` keep every stored fragment carrying its unit's `name`. A new provider stores nothing (Provider.Fresh). |
| Provider.BridgeAddsKeepNamed | osp17_ref/os_net_config/impl_nmstate.py:527-567 | `add_bridge` and `add_linux_bridge` keep every stored fragment carrying its unit's `name`. |
| Provider.AddBridgeOrder | osp17_ref/os_net_config/impl_nmstate.py:545-555 | For a new bridge whose build succeeds, `add_bridge` returns normally and appends the port and then the bridge to the bridge bucket, each with its own fragment. When the bridge's build fails, it raises that build's error and only the port is appended. No other bucket (interfaces, VLANs, Linux bonds, Linux teams) changes. The bridge's routes are recorded under the bridge's name exactly when it builds and has routes; otherwise the route table is unchanged. |
| Provider.ChildMembers | osp17_ref/os_net_config/impl_nmstate.py:173-181 | When `child_members` returns, its result contains every direct member of the name. |
| Provider.ChildMembersIsClosure | osp17_ref/os_net_config/impl_nmstate.py:173-181 | When `child_members` returns, its result contains the name's members, is closed under the member registry, and is the least such set. |
| Provider.ChildMembersReturns | osp17_ref/os_net_config/impl_nmstate.py:173-181 | On an acyclic member registry (every member ranks below its parent), `child_members` returns once the depth allowed exceeds the name's rank. |
| Provider.SelfMemberNeverReturns | osp17_ref/os_net_config/impl_nmstate.py:176-178 | A name listed among its own members never returns, whatever depth is allowed. |
| Provider.ChildrenOfAllFails | osp17_ref/os_net_config/impl_nmstate.py:176-178 | One member whose recursion does not return stops the whole call. |
| ApplyFacts.CompareLoopEnqueues | osp17_ref/os_net_config/impl_nmstate.py:633-648 | When the interface or bridge loop completes, no comparison raised. It enqueued exactly the units whose comparison fails, in their original order (the reference filter `Failing`). |
| ApplyFacts.KeptLoopEnqueues | osp17_ref/os_net_config/impl_nmstate.py:666-741 | The same holds for the team, bond and VLAN loops: exactly the failing units, in order. |
| Planner.MakePlan | osp17_ref/os_net_config/impl_nmstate.py:633-741 | A completed plan applies, for each of the interface, bridge, Linux team, Linux bond and VLAN buckets, exactly the stored units whose comparison fails, in storage order; its `update_files` is a well-formed ordered map. |
| ApplyFacts.KeptOneFacts | osp17_ref/os_net_config/impl_nmstate.py:666-689 | One pass enqueues the unit when its comparison fails, and queues a DHCP stop when enqueued and not kept by `dhcp`. It records both route-file paths, queues each file write whose content differs, and for each such file hands on the unit's name with that content as a route item. |
| ApplyFacts.KeptLoopStops | osp17_ref/os_net_config/impl_nmstate.py:674-680 | A name is on the DHCP-stop list exactly when some unit of that name was enqueued and its `ipv4.dhcp` is missing or prints as `False`. |
| ApplyFacts.StopsDhclientByFlag | osp17_ref/os_net_config/impl_nmstate.py:676-678 | With `dhcp` among the IPv4 settings, the stop is decided by `str(dhcp) == 'False'` alone. |
| ApplyFacts.BuiltStopsDhclient | osp17_ref/os_net_config/impl_nmstate.py:676-680 | For a built fragment of any kind but a bridge, the DHCP client is stopped exactly when the unit does not use DHCP. |
| ApplyFacts.KeptLoopFiles | osp17_ref/os_net_config/impl_nmstate.py:672-673 | The recorded file names are both route-file paths of every unit, two per unit, in unit order. |
| ApplyFacts.KeptLoopWrites | osp17_ref/os_net_config/impl_nmstate.py:684-689 | A file write is queued exactly when it is some unit's IPv4 route file with its routes, or its IPv6 route file with `''`, and the content differs. |
| ApplyFacts.PlanParts | osp17_ref/os_net_config/impl_nmstate.py:633-741 | A plan is the five loops put together. Its route items are those of interfaces, bridges, teams, bonds and VLANs in that order. The stops and recorded files come from teams, then bonds, then VLANs. The files to update are the team, bond and VLAN writes applied in that order, a later write to a path replacing an earlier one. |
| ApplyFacts.PlanStops | osp17_ref/os_net_config/impl_nmstate.py:666-741 | The plan's DHCP-stop list names exactly the enqueued teams, bonds and VLANs whose `dhcp` does not keep the client. Plain interfaces and bridges never appear. |
| ApplyFacts.PutAllLast | osp17_ref/os_net_config/impl_nmstate.py:685-741 | `update_files` holds, for each path, the content of the last write queued for it. |
| ApplyFacts.AsWrittenVerdict | osp17_ref/os_net_config/impl_nmstate.py:637 | As written, a unit's comparison is `True` only when every desired value is `[]` and every desired key is an item of the running list, so never for a fragment that names its unit. It raises exactly when every desired key is an item of the list and some desired value is not `[]`. A list of running interfaces that are all mappings always gives `False`. |
| ApplyFacts.AsWrittenNamedFails | osp17_ref/os_net_config/impl_nmstate.py:637 | As written, the comparison of a fragment carrying its `name` is never `True`. |
| ApplyFacts.AsWrittenComparesAll | osp17_ref/os_net_config/impl_nmstate.py:637-638 | As written, the interface and bridge loops enqueue every unit whose fragment carries its `name`, satisfied or not. |
| ApplyFacts.AsWrittenKeepsAll | osp17_ref/os_net_config/impl_nmstate.py:674-675 | As written, the team, bond and VLAN loops enqueue every such unit too. |
| ApplyFacts.AsWrittenRoutesAll | osp17_ref/os_net_config/impl_nmstate.py:643-645 | As written, every route entry that is a mapping with some value other than `[]` is handed to `set_routes`, present or not. |
| ApplyFacts.RouteEntriesNotOnlyEmptyLists | osp17_ref/os_net_config/impl_nmstate.py:475-491 | Every entry `_add_routes` records is a mapping with no value `[]`, so it meets the hypothesis of AsWrittenRoutesAll. |
| Routes.RouteEntryScalars | osp17_ref/os_net_config/impl_nmstate.py:475-491 | Every value of a route entry is a string or an integer. |
| ApplyFacts.AsWrittenPlansEverything | osp17_ref/os_net_config/impl_nmstate.py:633-741 | As written, every completed plan of a provider whose stored fragments carry their names applies every stored unit of every bucket. By Provider.AddsKeepNamed and Provider.BridgeAddsKeepNamed, that covers every provider the `add_*` calls fill. |
| ApplyFacts.IntendedVerdict | osp17_ref/os_net_config/impl_nmstate.py:637 | Comparing against the running interface, a unit is satisfied when the running one satisfies it. When the shapes agree, that is the only way. An interface that is not running is never satisfied. |
| ApplyFacts.IntendedSkipsSatisfied | osp17_ref/os_net_config/impl_nmstate.py:637-641 | Read as intended, a unit whose running state already satisfies it is not enqueued. One that is not running always is. |
| ApplyFacts.PendingRoutesFrom | osp17_ref/os_net_config/impl_nmstate.py:643-645 | Every route handed on is one of the unit's own entries. |
| ApplyFacts.CompareLoopRoutesFrom | osp17_ref/os_net_config/impl_nmstate.py:643-661 | Every route a comparison loop hands on is an entry that its route source gives some unit of the loop. |
| ApplyFacts.AsWrittenBridgesUnbound | osp17_ref/os_net_config/impl_nmstate.py:659 | As written, with bridges but no interfaces, `apply` raises on the unbound `routes_data`, unless comparing the first bridge already raised; with running interfaces that are mappings it always raises on `routes_data`. |
| ApplyFacts.AsWrittenBridgeRoutesStale | osp17_ref/os_net_config/impl_nmstate.py:659-661 | As written, every route the bridge loop hands on is one of the last interface's routes. |
| ApplyFacts.IntendedBridgeRoutesOwn | osp17_ref/os_net_config/impl_nmstate.py:651-661 | Read as intended, no unbound variable is read, and the bridge loop hands on, bridge by bridge and in order, exactly each bridge's own pending route entries. |
| ApplyFacts.OwnRoutesPerUnit | osp17_ref/os_net_config/impl_nmstate.py:633-661 | A loop fed from the stored route data hands on each unit's own pending entries, unit after unit; no unit's routes are attributed to another. |
| ApplyFacts.IntendedPlanBound | osp17_ref/os_net_config/impl_nmstate.py:650-661 | Read as intended, planning never fails on an unbound variable. |
| ApplyFacts.CleanupSafe | osp17_ref/os_net_config/impl_nmstate.py:743-751 | The cleanup takes down and removes exactly the found files that this run did not record, and never touches `lo`. |
| ApplyFacts.ActCleanup | osp17_ref/os_net_config/impl_nmstate.py:743-751 | In a whole run, interfaces are taken down and files removed only with `cleanup`, never for `lo`, and never for a recorded file. |
| ApplyFacts.CleanupSparesRouteFiles | osp17_ref/os_net_config/impl_nmstate.py:743-751 | The cleanup never removes a route file of a stored team, Linux bond or VLAN. |
| ApplyFacts.VlanCallsSpec | osp17_ref/os_net_config/impl_nmstate.py:780-789 | There is one per-VLAN library call per enqueued VLAN, in order, up to and including the first one refused. A refusal ends the loop with that VLAN's error. |
| ApplyFacts.ActivateBatch | osp17_ref/os_net_config/impl_nmstate.py:754-830 | When no VLAN call is refused, the single batch is sent, in the order bridges, interfaces, VLANs, Linux bonds, teams. The routes are sent exactly when the batch is accepted. |
| ApplyFacts.ActSendsBatch | osp17_ref/os_net_config/impl_nmstate.py:754-830 | The same for a whole active, non-no-op run. |
| ApplyFacts.ActActivation | osp17_ref/os_net_config/impl_nmstate.py:753-887 | The library calls and renames of a run are exactly those of its activation block. DHCP stops and slave settings occur only when activating outside no-op mode. |
| ApplyFacts.ActQuietUnlessActive | osp17_ref/os_net_config/impl_nmstate.py:753-887 | Without activation, or in no-op mode, the state library is not called, no DHCP client is stopped and no active slave is set. |
| ApplyFacts.ActStopsOnRefusal | osp17_ref/os_net_config/impl_nmstate.py:783-830 | A refused library call ends the run before any rename or file write. |
| ApplyFacts.ActWrites | osp17_ref/os_net_config/impl_nmstate.py:864-865 | A run that reaches the writes writes exactly the entries of `update_files`. A run that returns, returns `update_files`. |
| ApplyFacts.ActPriorErrorsLast | osp17_ref/os_net_config/impl_nmstate.py:864-901 | Errors recorded earlier raise only at the end, after every file write and every DHCP stop. |
| ApplyFacts.ActOrdered | osp17_ref/os_net_config/impl_nmstate.py:743-887 | The effects of a run follow the code's order: cleanup, VLAN calls, batch, routes, renames, file writes, DHCP stops, active slaves. |
| Planner.Act | osp17_ref/os_net_config/impl_nmstate.py:743-903 | A run that returns, returns `update_files`. Without activation it always returns. With activation, errors recorded earlier always make it raise. |
| Planner.Apply | osp17_ref/os_net_config/impl_nmstate.py:605-903 | A comparison phase that raises ends `apply` with that error and no effect at all. A run that returns, returns the plan's `update_files`. Without activation, a completed comparison phase always returns. |
| ApplyFacts.TraceOrdered | osp17_ref/os_net_config/impl_nmstate.py:605-903 | The same order holds for every `apply` run. |

## Findings

| source | as written | input that shows it | evidently intended | confidence | as-written member | corrected member |
|---|---|---|---|---|---|---|
| osp17_ref/os_net_config/impl_nmstate.py:637 | The list returned by `iface_state(name)` is passed as the superset, and so are the route lists at :644 and :660. | Any stored interface whose running state already matches. `is_dict_subset([running], fragment)` is never `True`, so it is re-applied on every run. | Compare against the running interface record itself. | not executed | ApplyFacts.AsWrittenComparesAll | ApplyFacts.IntendedSkipsSatisfied |
| osp17_ref/os_net_config/impl_nmstate.py:659 | The bridge loop iterates `routes_data`, the interface loop's variable. | A configuration with one OVS bridge and no interfaces: `routes_data` is unbound and `apply` raises. With interfaces, the bridge loop sends the last interface's routes instead of its own. | Iterate the bridge's own `route_data`. | not executed | ApplyFacts.AsWrittenBridgesUnbound | ApplyFacts.IntendedBridgeRoutesOwn |
| osp17_ref/os_net_config/impl_nmstate.py:452 | The bridge branch deletes `ipv4` and `ipv6` (:279-280), then the address and default-route code writes into them (:424, :430, :452). | An OVS bridge with `defroute: false`, or with any static address: `KeyError: 'ipv4'` (`'ipv6'` for IPv6-only). | A bridge carries no address settings; they belong to its `<name>-p` internal port. | not executed | Builder.BridgeL3AsWritten | Builder.BridgeL3Intended |

## Left out

- I/O and the outside world are not modelled; they are parameters instead. The `macs` map stands for `utils.interface_mac`. `Oracles` stands for:
  - `iface_state` and `route_state`;
  - `utils.diff`;
  - the route-file paths;
  - the cleanup glob and pattern;
  - refusals by `set_ifaces` and `set_routes`;
  - `self.errors`.
- The effects of `ifdown`, `remove_config`, `set_ifaces`, `set_routes`, `ifrename`, `write_config`, `stop_dhclient_process` and `ovs_appctl` are recorded in a trace, not performed. Only `set_ifaces` and `set_routes` may be refused (by an oracle); `ifdown`, `remove_config`, `ifrename`, `write_config`, `ovs_appctl` and `stop_dhclient_process` are assumed never to raise.
- `route_config_path`, `route6_config_path`, `cleanup_pattern` and `stop_dhclient_process` are not defined or imported in `impl_nmstate.py`. As written they would raise `NameError`; the model treats them as the functions of those names the code evidently means, supplied by `Oracles`.
- `restart_interfaces` is always empty and `ovs_needs_restart` is never set, so the `ifdown`/`ifup` restart loops and the OpenvSwitch restart are left out.
- The no-op handling inside the base class's `ifrename`, `ifdown`, `remove_config` and `write_config` is not part of this model. These effects are recorded whatever the no-op flag is.
- The `nmcli_commands` and `ovs_commands` lists and the hwaddr command template are left out: they are never executed. Logging is left out. `json.dumps` only builds log text: in `set_ifaces` and `set_routes` (:157, :169) it runs on every call, and a `TypeError` it raised there counts as one of the refusals the `rejectsIfaces`/`rejectsRoutes` oracles stand for. At :389 it runs only on the team path, which the model ends in an exception for any `bonding_options`.
- Netmask parsing through `netaddr` is left out: each address carries its prefix length.
- The defaults of the configuration objects (`objects.py`) are not part of this model. Units are records whose absent values are `""`, `0` or `[]`.
- Route tables are integers; named tables are not modelled.
- The Linux team branch is modelled only as far as it gets:
  - it raises on a primary (`link-aggregation` `KeyError`);
  - it raises on members (`slaves` `KeyError`, after recording the members);
  - it raises on any `bonding_options` (`TeamOptions`: the `%` at :390 is applied to `None`);
  - otherwise it is a `team`.

  The JSON parsing of team options is left out.
- Subset.ItemsVerdict: when one desired key fails and another raises, Python's answer depends on dictionary insertion order. The model's mapping has no order, so it answers `Fails`.
- PyJson.Json: Python's cross-type equality (`True == 1`, `1 == 1.0`) and floating-point values are not modelled.
- Patterns.IsWordChar and Patterns.IsDigit are ASCII only. Python's `\w`, `\d` and `int()` also accept other Unicode letters and digits, and `int()` accepts `_` between digits.
- Provider.ChildMembers: the recursion depth is bounded by a `fuel` argument. `None` stands for reaching Python's recursion limit, which any cycle does because the code keeps no visited set. The exact depth of that limit is not modelled.
- The per-VLAN `set_ifaces(vlan[0], vlan[1])` call passes the VLAN's name where the state is expected, and its `data` as the verify flag. It is recorded as a call with the name; the library's reaction to it is an oracle.
- `logger.debug("%s options: %s") % (...)` at :390 is a `TypeError`. It is covered by the team's `TeamOptions` error above.
- Several expectations in the repository's test file disagree with the code, and the model follows the code:
  - stage 1 always writes `dhcp: false`;
  - route entries are mappings, not text;
  - plain interfaces never go on the DHCP-stop list.

=== FILE: apply_facts.dfy ===
/**
  What `apply` guarantees: which units and routes it enqueues, who gets a
  DHCP-client stop, what the cleanup may touch, which files it writes, and in
  what order it acts.
 */
module ApplyFacts {
  import opened Wrappers
  import opened PyJson
  import opened OrderedMaps
  import opened Subset
  import opened Units
  import opened Builder
  import opened Provider
  import opened Planner
  import opened Routes

  // ---------------------------------------------------------------------------
  // The comparison loops
  // ---------------------------------------------------------------------------

  /**
    The interface and bridge loops enqueue exactly the units whose comparison
    comes out `False`, in their original order, and complete only when no
    comparison raised.
   */
  lemma {:induction false} CompareLoopEnqueues(o: Oracles, reading: Reading, src: RouteSource, items: seq<(string, Frag)>)
    requires CompareLoop(o, reading, src, items).Ok?
    ensures var r := CompareLoop(o, reading, src, items).value;
            && (forall x | x in items :: UnitVerdict(o, reading, x.0, x.1) != Raises)
            && (forall x :: x in r.apply <==> x in items && UnitVerdict(o, reading, x.0, x.1) == Fails)
            && r.apply == Failing(o, reading, items)
            && |r.apply| <= |items|
    decreases |items|
  {
    if items != [] {
      CompareLoopEnqueues(o, reading, src, items[1..]);
      assert forall x | x in items :: x == items[0] || x in items[1..];
    }
  }

  /** What one pass of the team, bond and VLAN loops contributes. */
  lemma KeptOneFacts(o: Oracles, reading: Reading, rd: OMap<string, seq<Json>>, name: string, f: Frag)
    requires KeptOne(o, reading, rd, name, f).Ok?
    ensures var r := KeptOne(o, reading, rd, name, f).value;
            var v := UnitVerdict(o, reading, name, f);
            var data := RoutesData(rd, name);
            var p4, p6 := o.routePath(name), o.route6Path(name);
            && v != Raises
            && r.apply == (if v == Fails then [(name, f)] else [])
            && (v == Fails ==> StopsDhclient(name, f).Ok?)
            && r.stops == (if v == Fails && StopsDhclient(name, f) == Ok(true) then [name] else [])
            && r.fileNames == [p4, p6]
            && r.writes == (if o.differs(p4, data) then [(p4, data)] else []) + (if o.differs(p6, Str("")) then [(p6, Str(""))] else [])
            && r.routes == (if o.differs(p4, data) then [Keyed(name, data)] else []) + (if o.differs(p6, Str("")) then [Keyed(name, Str(""))] else [])
  {
  }

  /** A loop that completes has completed every pass, the first one included. */
  lemma KeptLoopCons(o: Oracles, reading: Reading, rd: OMap<string, seq<Json>>, items: seq<(string, Frag)>)
    requires items != [] && KeptLoop(o, reading, rd, items).Ok?
    ensures KeptOne(o, reading, rd, items[0].0, items[0].1).Ok? && KeptLoop(o, reading, rd, items[1..]).Ok?
    ensures var r := KeptLoop(o, reading, rd, items).value;
            var one := KeptOne(o, reading, rd, items[0].0, items[0].1).value;
            var rest := KeptLoop(o, reading, rd, items[1..]).value;
            && r.apply == one.apply + rest.apply && r.stops == one.stops + rest.stops
            && r.fileNames == one.fileNames + rest.fileNames && r.writes == one.writes + rest.writes
  {
  }

  /** The same for the team, bond and VLAN loops. */
  lemma {:induction false} KeptLoopEnqueues(o: Oracles, reading: Reading, rd: OMap<string, seq<Json>>, items: seq<(string, Frag)>)
    requires KeptLoop(o, reading, rd, items).Ok?
    ensures var r := KeptLoop(o, reading, rd, items).value;
            && (forall x | x in items :: UnitVerdict(o, reading, x.0, x.1) != Raises)
            && (forall x :: x in r.apply <==> x in items && UnitVerdict(o, reading, x.0, x.1) == Fails)
            && r.apply == Failing(o, reading, items)
            && |r.apply| <= |items|
    decreases |items|
  {
    if items != [] {
      KeptLoopCons(o, reading, rd, items);
      KeptOneFacts(o, reading, rd, items[0].0, items[0].1);
      KeptLoopEnqueues(o, reading, rd, items[1..]);
      assert forall x | x in items :: x == items[0] || x in items[1..];
    }
  }

  /**
    A name is queued for a DHCP-client stop exactly when a unit of that name
    is enqueued and its `ipv4` does not keep DHCP on.
   */
  lemma {:induction false} KeptLoopStops(o: Oracles, reading: Reading, rd: OMap<string, seq<Json>>, items: seq<(string, Frag)>, n: string)
    requires KeptLoop(o, reading, rd, items).Ok?
    ensures n in KeptLoop(o, reading, rd, items).value.stops <==>
              exists x | x in items && x.0 == n ::
                UnitVerdict(o, reading, x.0, x.1) == Fails && StopsDhclient(x.0, x.1) == Ok(true)
    decreases |items|
  {
    if items != [] {
      KeptLoopCons(o, reading, rd, items);
      KeptOneFacts(o, reading, rd, items[0].0, items[0].1);
      KeptLoopStops(o, reading, rd, items[1..], n);
      assert forall x | x in items :: x == items[0] || x in items[1..];
    }
  }

  /**
    Both route-file paths of every team, bond and VLAN are recorded, two per
    unit in unit order, whether the unit is enqueued or not.
   */
  lemma {:induction false} KeptLoopFiles(o: Oracles, reading: Reading, rd: OMap<string, seq<Json>>, items: seq<(string, Frag)>)
    requires KeptLoop(o, reading, rd, items).Ok?
    ensures KeptLoop(o, reading, rd, items).value.fileNames == RouteFiles(o, items)
    decreases |items|
  {
    if items != [] {
      KeptLoopCons(o, reading, rd, items);
      KeptOneFacts(o, reading, rd, items[0].0, items[0].1);
      KeptLoopFiles(o, reading, rd, items[1..]);
    }
  }

  /** Both route-file paths of each unit, two per unit in unit order. */
  function RouteFiles(o: Oracles, items: seq<(string, Frag)>): (r: seq<string>)
    ensures |r| == 2 * |items|
    decreases |items|
  {
    if items == [] then [] else [o.routePath(items[0].0), o.route6Path(items[0].0)] + RouteFiles(o, items[1..])
  }

  lemma {:induction false} RouteFilesHas(o: Oracles, items: seq<(string, Frag)>, x: (string, Frag))
    requires x in items
    ensures o.routePath(x.0) in RouteFiles(o, items) && o.route6Path(x.0) in RouteFiles(o, items)
    decreases |items|
  {
    if items[0] != x {
      RouteFilesHas(o, items[1..], x);
    }
  }

  /**
    A route file is queued for writing exactly when its content differs from
    what is on disk: the IPv4 file with the unit's route entries (`''` when it
    has none), the IPv6 file with `''`.
   */
  lemma {:induction false} KeptLoopWrites(o: Oracles, reading: Reading, rd: OMap<string, seq<Json>>, items: seq<(string, Frag)>, w: (string, Json))
    requires KeptLoop(o, reading, rd, items).Ok?
    ensures w in KeptLoop(o, reading, rd, items).value.writes <==>
              exists x | x in items ::
                || (w == (o.routePath(x.0), RoutesData(rd, x.0)) && o.differs(w.0, w.1))
                || (w == (o.route6Path(x.0), Str("")) && o.differs(w.0, w.1))
    decreases |items|
  {
    if items != [] {
      KeptLoopCons(o, reading, rd, items);
      KeptOneFacts(o, reading, rd, items[0].0, items[0].1);
      KeptLoopWrites(o, reading, rd, items[1..], w);
      assert forall x | x in items :: x == items[0] || x in items[1..];
    }
  }

  // ---------------------------------------------------------------------------
  // As written: a list is never a superset of a mapping
  // ---------------------------------------------------------------------------

  /**
    As written, the running list is compared with the desired mapping.  That
    is `True` only when every desired value is `[]` and every desired key is
    itself an item of the list, so never for a fragment that names its unit.
    It raises exactly when every desired key is an item of the list but some
    desired value is not `[]` (`superset[key]` then indexes a list with a
    string), so a list of running interfaces, each a mapping, gives `False`.
   */
  lemma AsWrittenVerdict(o: Oracles, name: string, f: Frag)
    ensures var l := o.ifaceState(name);
            UnitVerdict(o, AsWritten, name, f) == Holds <==> OnlyEmptyLists(f) && forall k | k in f :: Str(k) in l
    ensures Named(f) ==> UnitVerdict(o, AsWritten, name, f) != Holds
    ensures var l := o.ifaceState(name);
            UnitVerdict(o, AsWritten, name, f) == Raises <==>
              (forall k | k in f :: Str(k) in l) && exists k | k in f :: f[k] != List([])
    ensures (forall x | x in o.ifaceState(name) :: x.Dict?) ==> UnitVerdict(o, AsWritten, name, f) == Fails
  {
    var l := o.ifaceState(name);
    ListSatisfiesDict(l, f);
    if Named(f) {
      assert f["name"] != List([]);
    }
    if (forall k | k in f :: Str(k) in l) && exists k | k in f :: f[k] != List([]) {
      var k :| k in f && f[k] != List([]);
      assert Str(k) in l;
      assert KeyVerdict(List(l), k, f[k]) == Raises;
      assert forall k | k in f :: KeyVerdict(List(l), k, f[k]) != Fails;
    } else if |f| > 0 && |l| > 0 && exists k | k in f :: Str(k) !in l {
      var k :| k in f && Str(k) !in l;
      assert KeyVerdict(List(l), k, f[k]) == Fails;
    }
  }

  /** As written, a fragment that names its unit is never satisfied by the running list. */
  lemma AsWrittenNamedFails(o: Oracles, name: string, f: Frag)
    requires Named(f)
    ensures UnitVerdict(o, AsWritten, name, f) != Holds
  {
    ListSatisfiesDict(o.ifaceState(name), f);
    assert f["name"] != List([]);
  }

  /** As written, the interface and bridge loops enqueue every unit that names itself, satisfied or not. */
  lemma {:induction false} AsWrittenComparesAll(o: Oracles, src: RouteSource, items: seq<(string, Frag)>)
    requires forall x | x in items :: Named(x.1)
    requires CompareLoop(o, AsWritten, src, items).Ok?
    ensures CompareLoop(o, AsWritten, src, items).value.apply == items
    decreases |items|
  {
    if items != [] {
      assert items[0] in items;
      AsWrittenNamedFails(o, items[0].0, items[0].1);
      AsWrittenComparesAll(o, src, items[1..]);
    }
  }

  /** As written, the team, bond and VLAN loops enqueue every such unit too. */
  lemma {:induction false} AsWrittenKeepsAll(o: Oracles, rd: OMap<string, seq<Json>>, items: seq<(string, Frag)>)
    requires forall x | x in items :: Named(x.1)
    requires KeptLoop(o, AsWritten, rd, items).Ok?
    ensures KeptLoop(o, AsWritten, rd, items).value.apply == items
    decreases |items|
  {
    if items != [] {
      assert items[0] in items;
      AsWrittenNamedFails(o, items[0].0, items[0].1);
      AsWrittenKeepsAll(o, rd, items[1..]);
    }
  }

  /**
    As written, every route entry that is a mapping with some value other
    than `[]` (as every entry `_add_routes` records is) is handed to
    `set_routes`, present or not.
   */
  lemma {:induction false} AsWrittenRoutesAll(o: Oracles, name: string, rs: seq<Json>)
    requires forall r | r in rs :: r.Dict? && !OnlyEmptyLists(r.fields)
    requires PendingRoutes(o, AsWritten, name, rs).Ok?
    ensures var p := PendingRoutes(o, AsWritten, name, rs).value;
            |p| == |rs| && forall i | 0 <= i < |rs| :: p[i] == Entry(rs[i])
    decreases |rs|
  {
    if rs != [] {
      assert rs[0] in rs;
      ListSatisfiesDict(o.routeState(name), rs[0].fields);
      AsWrittenRoutesAll(o, name, rs[1..]);
    }
  }

  /** Every recorded route entry is a mapping holding only strings and integers, so never only `[]`. */
  lemma RouteEntriesNotOnlyEmptyLists(iface: string, routes: seq<Route>)
    ensures forall r | r in RouteEntries(iface, routes) :: r.Dict? && !OnlyEmptyLists(r.fields)
  {
    forall r | r in RouteEntries(iface, routes)
      ensures r.Dict? && !OnlyEmptyLists(r.fields)
    {
      var i :| 0 <= i < |routes| && RouteEntries(iface, routes)[i] == r;
      var e := RouteEntry(iface, routes[i]);
      RouteEntryScalars(iface, routes[i]);
      if |e| > 0 {
        var k :| k in e;
        assert e[k] != List([]);
      }
    }
  }

  /**
    As written, a successful plan asks for every stored unit to be applied:
    all bridges, interfaces, VLANs, Linux bonds and teams, in storage order.
   */
  lemma AsWrittenPlansEverything(s: Session, o: Oracles)
    requires s.Valid() && StoresNamed(s) && MakePlan(s, o, AsWritten).Ok?
    ensures var p := MakePlan(s, o, AsWritten).value;
            && p.bridges == s.bridgeData.Items() && p.interfaces == s.interfaceData.Items()
            && p.vlans == s.vlanData.Items() && p.bonds == s.linuxbondData.Items()
            && p.teams == s.linuxteamData.Items()
  {
    StoredNamed(s);
    AsWrittenComparesAll(o, Own(s.routeData), s.interfaceData.Items());
    AsWrittenComparesAll(o, BridgeRouteSource(s, AsWritten), s.bridgeData.Items());
    AsWrittenKeepsAll(o, s.routeData, s.linuxteamData.Items());
    AsWrittenKeepsAll(o, s.routeData, s.linuxbondData.Items());
    AsWrittenKeepsAll(o, s.routeData, s.vlanData.Items());
  }

  // ---------------------------------------------------------------------------
  // As intended: compare with the running interface itself
  // ---------------------------------------------------------------------------

  /**
    Compared with the running interface, a unit is left alone when the running
    interface satisfies its fragment, and enqueued when nothing of its name
    runs; when the running leaves have the desired types, "left alone" means
    exactly "satisfied".
   */
  lemma IntendedVerdict(o: Oracles, name: string, f: Frag)
    ensures var run := o.ifaceState(name);
            && (|run| > 0 && Satisfies(run[0], Dict(f)) ==> UnitVerdict(o, Intended, name, f) == Holds)
            && (|run| > 0 && ShapesAgree(run[0], Dict(f)) ==>
                  (UnitVerdict(o, Intended, name, f) == Holds <==> Satisfies(run[0], Dict(f))))
            && (|run| == 0 ==> UnitVerdict(o, Intended, name, f) == Fails)
  {
    var run := o.ifaceState(name);
    if |run| > 0 {
      if Satisfies(run[0], Dict(f)) {
        SatisfiesSound(run[0], Dict(f));
      }
      if ShapesAgree(run[0], Dict(f)) {
        SubsetMatchesReference(run[0], Dict(f));
      }
    }
  }

  /**
    Read as intended, the interface and bridge loops skip every unit whose
    running interface already satisfies it, and enqueue every unit with no
    running interface.
   */
  lemma IntendedSkipsSatisfied(o: Oracles, src: RouteSource, items: seq<(string, Frag)>, x: (string, Frag))
    requires CompareLoop(o, Intended, src, items).Ok? && x in items
    ensures var run := o.ifaceState(x.0);
            && (|run| > 0 && Satisfies(run[0], Dict(x.1)) ==> x !in CompareLoop(o, Intended, src, items).value.apply)
            && (|run| == 0 ==> x in CompareLoop(o, Intended, src, items).value.apply)
  {
    CompareLoopEnqueues(o, Intended, src, items);
    IntendedVerdict(o, x.0, x.1);
  }

  // ---------------------------------------------------------------------------
  // The routes the bridge loop compares
  // ---------------------------------------------------------------------------

  /** Every route handed on by a comparison loop is one of the entries its source gives some unit. */
  lemma {:induction false} PendingRoutesFrom(o: Oracles, reading: Reading, name: string, rs: seq<Json>)
    requires PendingRoutes(o, reading, name, rs).Ok?
    ensures forall it | it in PendingRoutes(o, reading, name, rs).value :: it.Entry? && it.route in rs
    decreases |rs|
  {
    if rs != [] {
      PendingRoutesFrom(o, reading, name, rs[1..]);
    }
  }

  lemma {:induction false} CompareLoopRoutesFrom(o: Oracles, reading: Reading, src: RouteSource, items: seq<(string, Frag)>)
    requires CompareLoop(o, reading, src, items).Ok?
    ensures forall it | it in CompareLoop(o, reading, src, items).value.routes ::
              it.Entry? && exists x | x in items ::
                RoutesFor(src, x.0).Some? && it.route in RouteEntriesOf(RoutesFor(src, x.0).value)
    decreases |items|
  {
    if items != [] {
      var d := RoutesFor(src, items[0].0).value;
      PendingRoutesFrom(o, reading, items[0].0, RouteEntriesOf(d));
      CompareLoopRoutesFrom(o, reading, src, items[1..]);
      assert forall x | x in items[1..] :: x in items;
    }
  }

  /**
    As written, a configuration with bridges but no plain interfaces cannot be
    planned: the bridge loop reads `routes_data` before anything assigned it,
    unless comparing the first bridge already raised; it does not when the
    running interfaces of that name are mappings.
   */
  lemma AsWrittenBridgesUnbound(s: Session, o: Oracles)
    requires s.Valid() && |s.interfaceData.keys| == 0 && |s.bridgeData.keys| > 0
    ensures var b := s.bridgeData.keys[0];
            MakePlan(s, o, AsWritten) ==
              if UnitVerdict(o, AsWritten, b, s.bridgeData.vals[b]) == Raises then Err(ComparisonRaised(b))
              else Err(RoutesUnbound)
    ensures (forall x | x in o.ifaceState(s.bridgeData.keys[0]) :: x.Dict?) ==> MakePlan(s, o, AsWritten) == Err(RoutesUnbound)
  {
    var b := s.bridgeData.keys[0];
    assert s.bridgeData.Items()[0] == (b, s.bridgeData.vals[b]);
    AsWrittenVerdict(o, b, s.bridgeData.vals[b]);
  }

  /**
    As written, with at least one plain interface, every route the bridge loop
    hands on is an entry of the last interface's routes, whichever bridge it
    was compared for.
   */
  lemma AsWrittenBridgeRoutesStale(s: Session, o: Oracles)
    requires s.Valid() && |s.interfaceData.keys| > 0
    requires CompareLoop(o, AsWritten, BridgeRouteSource(s, AsWritten), s.bridgeData.Items()).Ok?
    ensures var last := s.interfaceData.keys[|s.interfaceData.keys| - 1];
            forall it | it in CompareLoop(o, AsWritten, BridgeRouteSource(s, AsWritten), s.bridgeData.Items()).value.routes ::
              it.Entry? && it.route in RouteEntriesOf(RoutesData(s.routeData, last))
  {
    CompareLoopRoutesFrom(o, AsWritten, BridgeRouteSource(s, AsWritten), s.bridgeData.Items());
  }

  /** Each unit's pending entries, taken from its own route data, one unit after another. */
  ghost function OwnPending(o: Oracles, reading: Reading, rd: OMap<string, seq<Json>>, items: seq<(string, Frag)>): seq<RouteItem>
    requires forall x | x in items :: PendingRoutes(o, reading, x.0, RouteEntriesOf(RoutesData(rd, x.0))).Ok?
    decreases |items|
  {
    if items == [] then []
    else
      assert items[0] in items;
      PendingRoutes(o, reading, items[0].0, RouteEntriesOf(RoutesData(rd, items[0].0))).value
        + OwnPending(o, reading, rd, items[1..])
  }

  /**
    A loop fed from the stored route data hands on, unit by unit and in unit
    order, exactly each unit's own pending entries: nothing of one unit's
    routes is attributed to another.
   */
  lemma {:induction false} OwnRoutesPerUnit(o: Oracles, reading: Reading, rd: OMap<string, seq<Json>>, items: seq<(string, Frag)>)
    requires CompareLoop(o, reading, Own(rd), items).Ok?
    ensures forall x | x in items :: PendingRoutes(o, reading, x.0, RouteEntriesOf(RoutesData(rd, x.0))).Ok?
    ensures CompareLoop(o, reading, Own(rd), items).value.routes == OwnPending(o, reading, rd, items)
    decreases |items|
  {
    if items != [] {
      OwnRoutesPerUnit(o, reading, rd, items[1..]);
      assert forall x | x in items :: x == items[0] || x in items[1..];
    }
  }

  /**
    Read as intended, planning never meets an unbound variable, and the bridge
    loop hands on each bridge's own pending entries, bridge by bridge.
   */
  lemma IntendedBridgeRoutesOwn(s: Session, o: Oracles)
    requires s.Valid()
    ensures MakePlan(s, o, Intended) != Err(RoutesUnbound)
    ensures CompareLoop(o, Intended, Own(s.routeData), s.bridgeData.Items()).Ok? ==>
              && (forall x | x in s.bridgeData.Items() ::
                    PendingRoutes(o, Intended, x.0, RouteEntriesOf(RoutesData(s.routeData, x.0))).Ok?)
              && CompareLoop(o, Intended, Own(s.routeData), s.bridgeData.Items()).value.routes
                 == OwnPending(o, Intended, s.routeData, s.bridgeData.Items())
              && forall it | it in CompareLoop(o, Intended, Own(s.routeData), s.bridgeData.Items()).value.routes ::
                   it.Entry? && exists x | x in s.bridgeData.Items() :: it.route in RouteEntriesOf(RoutesData(s.routeData, x.0))
  {
    IntendedPlanBound(s, o);
    if CompareLoop(o, Intended, Own(s.routeData), s.bridgeData.Items()).Ok? {
      OwnRoutesPerUnit(o, Intended, s.routeData, s.bridgeData.Items());
      CompareLoopRoutesFrom(o, Intended, Own(s.routeData), s.bridgeData.Items());
    }
  }

  lemma IntendedPlanBound(s: Session, o: Oracles)
    requires s.Valid()
    ensures MakePlan(s, o, Intended) != Err(RoutesUnbound)
  {
    assert BridgeRouteSource(s, Intended) == Own(s.routeData);
    OwnNeverUnbound(o, Intended, s.routeData, s.interfaceData.Items());
    OwnNeverUnbound(o, Intended, s.routeData, s.bridgeData.Items());
    KeptNeverUnbound(o, Intended, s.routeData, s.linuxteamData.Items());
    KeptNeverUnbound(o, Intended, s.routeData, s.linuxbondData.Items());
    KeptNeverUnbound(o, Intended, s.routeData, s.vlanData.Items());
  }

  lemma {:induction false} PendingNeverUnbound(o: Oracles, reading: Reading, name: string, rs: seq<Json>)
    ensures PendingRoutes(o, reading, name, rs) != Err(RoutesUnbound)
    decreases |rs|
  {
    if rs != [] {
      PendingNeverUnbound(o, reading, name, rs[1..]);
    }
  }

  lemma {:induction false} OwnNeverUnbound(o: Oracles, reading: Reading, rd: OMap<string, seq<Json>>, items: seq<(string, Frag)>)
    ensures CompareLoop(o, reading, Own(rd), items) != Err(RoutesUnbound)
    decreases |items|
  {
    if items != [] {
      PendingNeverUnbound(o, reading, items[0].0, RouteEntriesOf(RoutesData(rd, items[0].0)));
      OwnNeverUnbound(o, reading, rd, items[1..]);
    }
  }

  lemma {:induction false} KeptNeverUnbound(o: Oracles, reading: Reading, rd: OMap<string, seq<Json>>, items: seq<(string, Frag)>)
    ensures KeptLoop(o, reading, rd, items) != Err(RoutesUnbound)
    decreases |items|
  {
    if items != [] {
      KeptNeverUnbound(o, reading, rd, items[1..]);
    }
  }

  // ---------------------------------------------------------------------------
  // DHCP-client stops for built fragments
  // ---------------------------------------------------------------------------

  /**
    For a fragment the builder made from a unit other than a bridge, the stop
    rule reduces to the unit's own flag: a DHCP-client stop exactly when
    IPv4 DHCP is off.
   */
  lemma BuiltStopsDhclient(u: Unit, reg: Registries, macs: map<string, string>, reading: Reading)
    requires reg.Valid() && u.kind != OvsBridge && PreL3(u, reg, macs).out.Ok?
    ensures Build(u, reg, macs, reading).out.Ok?
    ensures StopsDhclient(u.name, Build(u, reg, macs, reading).out.value) == Ok(!u.useDhcp)
  {
    Ipv4Settings(u, reg, macs, reading);
    var f := Build(u, reg, macs, reading).out.value;
    StopsDhclientByFlag(u.name, f);
  }

  /** With `dhcp` among the IPv4 settings, the stop is decided by that flag alone. */
  lemma StopsDhclientByFlag(name: string, f: Frag)
    requires "dhcp" in Settings(f, "ipv4")
    ensures StopsDhclient(name, f) == Ok(PyStrIsFalse(Settings(f, "ipv4")["dhcp"]))
  {
    assert "ipv4" in f && f["ipv4"].Dict?;
  }

  // ---------------------------------------------------------------------------
  // update_files
  // ---------------------------------------------------------------------------

  /** The content of the last write to `path`, scanning from the end. */
  function LastWrite(ws: seq<(string, Json)>, path: string): Option<Json>
    decreases |ws|
  {
    if ws == [] then None
    else if ws[|ws| - 1].0 == path then Some(ws[|ws| - 1].1)
    else LastWrite(ws[..|ws| - 1], path)
  }

  lemma {:induction false} PutAllSnoc(m: OMap<string, Json>, ws: seq<(string, Json)>, w: (string, Json))
    requires m.Valid()
    ensures PutAll(m, ws + [w]) == PutAll(m, ws).Put(w.0, w.1)
    decreases |ws|
  {
    if ws == [] {
      assert [w][1..] == [];
    } else {
      assert (ws + [w])[1..] == ws[1..] + [w];
      PutAllSnoc(m.Put(ws[0].0, ws[0].1), ws[1..], w);
    }
  }

  /**
    `update_files` maps a path exactly when some write went to it, and to the
    content of the last such write.
   */
  lemma {:induction false} PutAllLast(ws: seq<(string, Json)>, path: string)
    ensures var r := PutAll(Empty(), ws);
            && (path in r.vals <==> LastWrite(ws, path).Some?)
            && (path in r.vals ==> r.vals[path] == LastWrite(ws, path).value)
    decreases |ws|
  {
    if ws != [] {
      var init, w := ws[..|ws| - 1], ws[|ws| - 1];
      assert ws == init + [w];
      PutAllSnoc(Empty(), init, w);
      PutAllLast(init, path);
    }
  }

  // ---------------------------------------------------------------------------
  // Cleanup
  // ---------------------------------------------------------------------------

  /**
    The cleanup never takes down `lo` and removes only files the glob found
    that this run did not record; every other file the glob found is taken
    down and removed.
   */
  lemma {:induction false} CleanupSafe(o: Oracles, keep: seq<string>, files: seq<string>)
    ensures forall e | e in CleanupEffects(o, keep, files) ::
              && (e.IfDown? ==> e.iface != "lo")
              && (e.RemoveConfig? ==> e.path in files && e.path !in keep)
              && (e.IfDown? || e.RemoveConfig?)
    ensures forall f | f in files && f !in keep && CleanupName(o, f) != "lo" ::
              RemoveConfig(f) in CleanupEffects(o, keep, files) && IfDown(CleanupName(o, f)) in CleanupEffects(o, keep, files)
    decreases |files|
  {
    if files != [] {
      CleanupSafe(o, keep, files[1..]);
      assert forall f | f in files :: f == files[0] || f in files[1..];
    }
  }

  // ---------------------------------------------------------------------------
  // The order of the effects
  // ---------------------------------------------------------------------------

  /** The position of each kind of effect in the sequence `apply` follows. */
  function Phase(e: Effect): nat
  {
    match e
    case IfDown(_) => 0
    case RemoveConfig(_) => 0
    case SetIfaces(st) => if st.Str? then 1 else 2
    case SetRoutes(_) => 3
    case Rename(_, _) => 4
    case WriteConfig(_, _) => 5
    case StopDhclient(_) => 6
    case SetActiveSlave(_, _) => 7
  }

  ghost predicate Ordered(t: seq<Effect>)
  {
    forall i, j | 0 <= i < j < |t| :: Phase(t[i]) <= Phase(t[j])
  }

  ghost predicate InPhases(t: seq<Effect>, lo: nat, hi: nat)
  {
    forall e | e in t :: lo <= Phase(e) <= hi
  }

  lemma OrderedConcat(a: seq<Effect>, b: seq<Effect>, k: nat)
    requires Ordered(a) && Ordered(b) && InPhases(a, 0, k) && InPhases(b, k, 7)
    ensures Ordered(a + b)
  {
    forall i, j | 0 <= i < j < |a + b|
      ensures Phase((a + b)[i]) <= Phase((a + b)[j])
    {
      if j < |a| {
        assert (a + b)[i] == a[i] && (a + b)[j] == a[j];
      } else if i >= |a| {
        assert (a + b)[i] == b[i - |a|] && (a + b)[j] == b[j - |a|];
      } else {
        assert (a + b)[i] == a[i] && a[i] in a;
        assert (a + b)[j] == b[j - |a|] && b[j - |a|] in b;
      }
    }
  }

  lemma OnePhase(t: seq<Effect>, k: nat)
    requires InPhases(t, k, k)
    ensures Ordered(t)
  {
    forall i, j | 0 <= i < j < |t|
      ensures Phase(t[i]) <= Phase(t[j])
    {
      assert t[i] in t && t[j] in t;
    }
  }

  lemma {:induction false} CleanupPhase(o: Oracles, keep: seq<string>, files: seq<string>)
    ensures InPhases(CleanupEffects(o, keep, files), 0, 0) && Ordered(CleanupEffects(o, keep, files))
  {
    CleanupSafe(o, keep, files);
    OnePhase(CleanupEffects(o, keep, files), 0);
  }

  lemma {:induction false} VlanCallsSpec(o: Oracles, vlans: seq<(string, Frag)>)
    ensures var r := VlanCalls(o, vlans);
            && |r.0| <= |vlans|
            && (forall i | 0 <= i < |r.0| :: r.0[i] == SetIfaces(Str(vlans[i].0)))
            && (r.1.None? ==> |r.0| == |vlans| && forall i | 0 <= i < |vlans| :: !o.rejectsIfaces(Str(vlans[i].0)))
            && (r.1.Some? ==> 0 < |r.0| && r.1.value == vlans[|r.0| - 1].0 && o.rejectsIfaces(Str(r.1.value))
                              && forall i | 0 <= i < |r.0| - 1 :: !o.rejectsIfaces(Str(vlans[i].0)))
    decreases |vlans|
  {
    if vlans != [] && !o.rejectsIfaces(Str(vlans[0].0)) {
      VlanCallsSpec(o, vlans[1..]);
    }
  }

  lemma VlanCallsPhase(o: Oracles, vlans: seq<(string, Frag)>)
    ensures InPhases(VlanCalls(o, vlans).0, 1, 1) && Ordered(VlanCalls(o, vlans).0)
  {
    VlanCallsSpec(o, vlans);
    var t := VlanCalls(o, vlans).0;
    forall e | e in t
      ensures Phase(e) == 1
    {
      var i :| 0 <= i < |t| && t[i] == e;
    }
    OnePhase(t, 1);
  }

  lemma SegmentPhases(rs: seq<(string, string)>, ws: seq<(string, Json)>, ns: seq<string>, bs: seq<(string, string)>)
    ensures InPhases(Renames(rs), 4, 4) && Ordered(Renames(rs))
    ensures InPhases(Writes(ws), 5, 5) && Ordered(Writes(ws))
    ensures InPhases(Stops(ns), 6, 6) && Ordered(Stops(ns))
    ensures InPhases(ActiveSlaves(bs), 7, 7) && Ordered(ActiveSlaves(bs))
  {
    OnePhase(Renames(rs), 4);
    OnePhase(Writes(ws), 5);
    OnePhase(Stops(ns), 6);
    OnePhase(ActiveSlaves(bs), 7);
  }

  lemma ActivatePhases(s: Session, o: Oracles, p: Plan, noop: bool)
    requires s.Valid()
    ensures InPhases(Activate(s, o, p, noop).trace, 1, 4) && Ordered(Activate(s, o, p, noop).trace)
  {
    var rn := Renames(s.renamed.Items());
    SegmentPhases(s.renamed.Items(), [], [], []);
    if !noop {
      var vc := VlanCalls(o, p.vlans);
      VlanCallsPhase(o, p.vlans);
      var t1 := vc.0 + [SetIfaces(List(Batch(p)))];
      OnePhase([SetIfaces(List(Batch(p)))], 2);
      OrderedConcat(vc.0, [SetIfaces(List(Batch(p)))], 1);
      var t2 := t1 + [SetRoutes(p.routes)];
      OnePhase([SetRoutes(p.routes)], 3);
      OrderedConcat(t1, [SetRoutes(p.routes)], 2);
      OrderedConcat(t2, rn, 3);
    }
  }

  lemma ActOrdered(s: Session, o: Oracles, p: Plan, cleanup: bool, activate: bool, noop: bool)
    requires s.Valid() && p.updateFiles.Valid()
    ensures Ordered(Act(s, o, p, cleanup, activate, noop).trace)
  {
    var t0 := if cleanup then CleanupEffects(o, p.fileNames, o.ifcfgFiles) else [];
    CleanupPhase(o, p.fileNames, o.ifcfgFiles);
    var a := if activate then Activate(s, o, p, noop) else Step([], None);
    ActivatePhases(s, o, p, noop);
    OrderedConcat(t0, a.trace, 0);
    var w := Writes(p.updateFiles.Items());
    var st := Stops(p.stops);
    var sl := ActiveSlaves(s.reg.bondPrimary.Items());
    SegmentPhases([], p.updateFiles.Items(), p.stops, s.reg.bondPrimary.Items());
    OrderedConcat(t0 + a.trace, w, 4);
    OrderedConcat(st, sl, 6);
    var t2 := if activate && !noop then st + sl else [];
    OrderedConcat(t0 + a.trace + w, t2, 5);
  }

  /**
    Every run acts in one fixed order: cleanup, the per-VLAN calls, the single
    batch, the routes, the renames, the file writes, the DHCP-client stops and
    the active-slave settings, whatever it skips and wherever it stops.
   */
  lemma TraceOrdered(s: Session, o: Oracles, reading: Reading, cleanup: bool, activate: bool, noop: bool)
    requires s.Valid()
    ensures Ordered(Apply(s, o, reading, cleanup, activate, noop).trace)
  {
    if MakePlan(s, o, reading).Ok? {
      ActOrdered(s, o, MakePlan(s, o, reading).value, cleanup, activate, noop);
    }
  }

  // ---------------------------------------------------------------------------
  // What a run does, once the plan stands
  // ---------------------------------------------------------------------------

  /** The state library is not called, and no DHCP client stopped, unless activating outside no-op mode. */
  lemma ActQuietUnlessActive(s: Session, o: Oracles, p: Plan, cleanup: bool, activate: bool, noop: bool)
    requires s.Valid() && p.updateFiles.Valid() && (!activate || noop)
    ensures forall e | e in Act(s, o, p, cleanup, activate, noop).trace ::
              !e.SetIfaces? && !e.SetRoutes? && !e.StopDhclient? && !e.SetActiveSlave?
  {
    ActShape(s, o, p, cleanup, activate, noop);
    CleanupPhase(o, p.fileNames, o.ifcfgFiles);
    SegmentPhases(s.renamed.Items(), p.updateFiles.Items(), [], []);
    var t0 := if cleanup then CleanupEffects(o, p.fileNames, o.ifcfgFiles) else [];
    var w := Writes(p.updateFiles.Items());
    if activate {
      assert Activate(s, o, p, noop) == Step(Renames(s.renamed.Items()), None);
      QuietSegments(t0, Renames(s.renamed.Items()), w);
    } else {
      QuietSegments(t0, [], w);
    }
  }

  lemma QuietSegments(t0: seq<Effect>, rn: seq<Effect>, w: seq<Effect>)
    requires InPhases(t0, 0, 0) && InPhases(rn, 4, 4) && InPhases(w, 5, 5)
    ensures forall e | e in t0 + rn + w :: !e.SetIfaces? && !e.SetRoutes? && !e.StopDhclient? && !e.SetActiveSlave?
  {
    forall e | e in t0 + rn + w
      ensures Phase(e) == 0 || Phase(e) == 4 || Phase(e) == 5
    {
    }
  }

  /**
    When the state library refuses a VLAN, the batch or the routes, the run
    stops there: nothing is renamed, no file is written, no DHCP client is
    stopped.
   */
  lemma ActStopsOnRefusal(s: Session, o: Oracles, p: Plan, cleanup: bool, activate: bool, noop: bool)
    requires s.Valid() && p.updateFiles.Valid()
    requires Act(s, o, p, cleanup, activate, noop).out.Err?
    requires Act(s, o, p, cleanup, activate, noop).out.error != PriorFailures
    ensures forall e | e in Act(s, o, p, cleanup, activate, noop).trace :: Phase(e) <= 3
    ensures forall e | e in Act(s, o, p, cleanup, activate, noop).trace :: !e.WriteConfig? && !e.Rename?
  {
    CleanupPhase(o, p.fileNames, o.ifcfgFiles);
    RefusedActivationPhases(s, o, p, noop);
  }

  /** A refused activation stops before any rename. */
  lemma RefusedActivationPhases(s: Session, o: Oracles, p: Plan, noop: bool)
    requires s.Valid() && Activate(s, o, p, noop).err.Some?
    ensures forall e | e in Activate(s, o, p, noop).trace :: 1 <= Phase(e) <= 3
  {
    var vc := VlanCalls(o, p.vlans);
    VlanCallsPhase(o, p.vlans);
    assert forall e | e in vc.0 :: Phase(e) == 1;
  }

  /**
    A run that gets past activation writes exactly the `update_files` it
    returns: each path once, with its final content.
   */
  lemma ActWrites(s: Session, o: Oracles, p: Plan, cleanup: bool, activate: bool, noop: bool, path: string, data: Json)
    requires s.Valid() && p.updateFiles.Valid()
    requires Act(s, o, p, cleanup, activate, noop).out.Ok? || Act(s, o, p, cleanup, activate, noop).out == Err(PriorFailures)
    ensures WriteConfig(path, data) in Act(s, o, p, cleanup, activate, noop).trace <==>
              path in p.updateFiles.vals && p.updateFiles.vals[path] == data
    ensures Act(s, o, p, cleanup, activate, noop).out.Ok? ==> Act(s, o, p, cleanup, activate, noop).out.value == p.updateFiles
  {
    ActShape(s, o, p, cleanup, activate, noop);
    CleanupPhase(o, p.fileNames, o.ifcfgFiles);
    ActivatePhases(s, o, p, noop);
    SegmentPhases([], p.updateFiles.Items(), p.stops, s.reg.bondPrimary.Items());
    var a := if activate then Activate(s, o, p, noop) else Step([], None);
    assert a.err.None?;
    var e := WriteConfig(path, data);
    assert Phase(e) == 5;
    ItemsHas(p.updateFiles, path, data);
    WritesHas(p.updateFiles.Items(), path, data);
  }

  lemma WritesHas(ws: seq<(string, Json)>, path: string, data: Json)
    ensures WriteConfig(path, data) in Writes(ws) <==> (path, data) in ws
  {
    if WriteConfig(path, data) in Writes(ws) {
      var i :| 0 <= i < |ws| && Writes(ws)[i] == WriteConfig(path, data);
      assert ws[i] == (path, data);
    }
    if (path, data) in ws {
      var i :| 0 <= i < |ws| && ws[i] == (path, data);
      assert Writes(ws)[i] == WriteConfig(path, data);
    }
  }

  /**
    Activating outside no-op mode, once every VLAN call is accepted, hands the
    state library one batch holding the bridges, interfaces, VLANs, Linux
    bonds and teams to change, in that order, and then the routes unless the
    batch is refused.
   */
  lemma ActSendsBatch(s: Session, o: Oracles, p: Plan, cleanup: bool)
    requires s.Valid() && p.updateFiles.Valid()
    requires VlanCalls(o, p.vlans).1.None?
    ensures var t := Act(s, o, p, cleanup, true, false).trace;
            var batch := Frags(p.bridges) + Frags(p.interfaces) + Frags(p.vlans) + Frags(p.bonds) + Frags(p.teams);
            && SetIfaces(List(batch)) in t
            && (SetRoutes(p.routes) in t <==> !o.rejectsIfaces(List(batch)))
            && (forall v | v in p.vlans :: SetIfaces(Str(v.0)) in t)
  {
    ActActivation(s, o, p, cleanup, true, false);
    ActivateBatch(s, o, p);
    assert Phase(SetRoutes(p.routes)) == 3;
  }

  /** The library calls of a run are exactly those of its activation step. */
  lemma ActActivation(s: Session, o: Oracles, p: Plan, cleanup: bool, activate: bool, noop: bool)
    requires s.Valid() && p.updateFiles.Valid()
    ensures var t := Act(s, o, p, cleanup, activate, noop).trace;
            var a := if activate then Activate(s, o, p, noop) else Step([], None);
            && (forall e | e in a.trace :: e in t)
            && (forall e | e in t && 1 <= Phase(e) <= 4 :: e in a.trace)
            && (forall e | e in t && Phase(e) >= 6 :: activate && !noop)
  {
    ActShape(s, o, p, cleanup, activate, noop);
    CleanupPhase(o, p.fileNames, o.ifcfgFiles);
    SegmentPhases([], p.updateFiles.Items(), p.stops, s.reg.bondPrimary.Items());
    ActivatePhases(s, o, p, noop);
  }

  /** A run's trace: the cleanup, the activation step, and unless that failed the writes and then the stops and slave settings. */
  lemma ActShape(s: Session, o: Oracles, p: Plan, cleanup: bool, activate: bool, noop: bool)
    requires s.Valid() && p.updateFiles.Valid()
    ensures var t0 := if cleanup then CleanupEffects(o, p.fileNames, o.ifcfgFiles) else [];
            var a := if activate then Activate(s, o, p, noop) else Step([], None);
            var t2 := if activate && !noop then Stops(p.stops) + ActiveSlaves(s.reg.bondPrimary.Items()) else [];
            Act(s, o, p, cleanup, activate, noop).trace ==
              t0 + a.trace + (if a.err.Some? then [] else Writes(p.updateFiles.Items()) + t2)
  {
  }

  lemma ActivateBatch(s: Session, o: Oracles, p: Plan)
    requires s.Valid() && VlanCalls(o, p.vlans).1.None?
    ensures var t := Activate(s, o, p, false).trace;
            && SetIfaces(List(Batch(p))) in t
            && (SetRoutes(p.routes) in t <==> !o.rejectsIfaces(List(Batch(p))))
            && (forall v | v in p.vlans :: SetIfaces(Str(v.0)) in t)
  {
    VlanCallsSpec(o, p.vlans);
    VlanCallsPhase(o, p.vlans);
    SegmentPhases(s.renamed.Items(), [], [], []);
    var vc := VlanCalls(o, p.vlans);
    forall v | v in p.vlans
      ensures SetIfaces(Str(v.0)) in vc.0
    {
      var i :| 0 <= i < |p.vlans| && p.vlans[i] == v;
      assert vc.0[i] == SetIfaces(Str(v.0));
    }
  }

  /**
    Errors collected before `apply` surface only after everything else was
    done: the files are written and the stops and slave settings issued, then
    the run raises.
   */
  lemma ActPriorErrorsLast(s: Session, o: Oracles, p: Plan, cleanup: bool, noop: bool)
    requires s.Valid() && p.updateFiles.Valid() && o.priorErrors
    requires Activate(s, o, p, noop).err.None?
    ensures Act(s, o, p, cleanup, true, noop).out == Err(PriorFailures)
    ensures forall k | k in p.updateFiles.vals :: WriteConfig(k, p.updateFiles.vals[k]) in Act(s, o, p, cleanup, true, noop).trace
    ensures !noop ==> forall n | n in p.stops :: StopDhclient(n) in Act(s, o, p, cleanup, true, noop).trace
  {
    forall k | k in p.updateFiles.vals
      ensures WriteConfig(k, p.updateFiles.vals[k]) in Act(s, o, p, cleanup, true, noop).trace
    {
      ActWrites(s, o, p, cleanup, true, noop, k, p.updateFiles.vals[k]);
    }
    if !noop {
      forall n | n in p.stops
        ensures StopDhclient(n) in Act(s, o, p, cleanup, true, noop).trace
      {
        var i :| 0 <= i < |p.stops| && p.stops[i] == n;
        assert Stops(p.stops)[i] == StopDhclient(n);
      }
    }
  }

  /** The cleanup part of a run: only unrecorded files, never `lo`, and nothing without `cleanup`. */
  lemma ActCleanup(s: Session, o: Oracles, p: Plan, cleanup: bool, activate: bool, noop: bool)
    requires s.Valid() && p.updateFiles.Valid()
    ensures forall e | e in Act(s, o, p, cleanup, activate, noop).trace && (e.IfDown? || e.RemoveConfig?) ::
              && cleanup
              && (e.IfDown? ==> e.iface != "lo")
              && (e.RemoveConfig? ==> e.path in o.ifcfgFiles && e.path !in p.fileNames)
  {
    var t0 := if cleanup then CleanupEffects(o, p.fileNames, o.ifcfgFiles) else [];
    CleanupSafe(o, p.fileNames, o.ifcfgFiles);
    ActivatePhases(s, o, p, noop);
    SegmentPhases([], p.updateFiles.Items(), p.stops, s.reg.bondPrimary.Items());
    var t := Act(s, o, p, cleanup, activate, noop).trace;
    forall e | e in t && (e.IfDown? || e.RemoveConfig?)
      ensures e in t0
    {
      assert Phase(e) == 0;
    }
  }

  // ---------------------------------------------------------------------------
  // The plan as a whole
  // ---------------------------------------------------------------------------

  /**
    A plan is the five loops' results put together: the route entries of all
    five in loop order, and the files to update are the team, bond and VLAN
    writes applied in order, a later write to a path replacing an earlier one.
   */
  lemma PlanParts(s: Session, o: Oracles, reading: Reading)
    requires s.Valid() && MakePlan(s, o, reading).Ok?
    ensures CompareLoop(o, reading, Own(s.routeData), s.interfaceData.Items()).Ok?
    ensures CompareLoop(o, reading, BridgeRouteSource(s, reading), s.bridgeData.Items()).Ok?
    ensures KeptLoop(o, reading, s.routeData, s.linuxteamData.Items()).Ok?
    ensures KeptLoop(o, reading, s.routeData, s.linuxbondData.Items()).Ok?
    ensures KeptLoop(o, reading, s.routeData, s.vlanData.Items()).Ok?
    ensures var p := MakePlan(s, o, reading).value;
            var i := CompareLoop(o, reading, Own(s.routeData), s.interfaceData.Items()).value;
            var br := CompareLoop(o, reading, BridgeRouteSource(s, reading), s.bridgeData.Items()).value;
            var t := KeptLoop(o, reading, s.routeData, s.linuxteamData.Items()).value;
            var b := KeptLoop(o, reading, s.routeData, s.linuxbondData.Items()).value;
            var v := KeptLoop(o, reading, s.routeData, s.vlanData.Items()).value;
            && p.interfaces == i.apply && p.bridges == br.apply
            && p.teams == t.apply && p.bonds == b.apply && p.vlans == v.apply
            && p.routes == i.routes + br.routes + t.routes + b.routes + v.routes
            && p.stops == t.stops + b.stops + v.stops
            && p.fileNames == t.fileNames + b.fileNames + v.fileNames
            && p.updateFiles == PutAll(Empty(), t.writes + b.writes + v.writes)
  {
  }

  /**
    Only teams, Linux bonds and VLANs are ever queued for a DHCP-client stop:
    a name is queued exactly when a unit of that name in one of those buckets
    is enqueued and does not keep IPv4 DHCP on.
   */
  lemma PlanStops(s: Session, o: Oracles, reading: Reading, n: string)
    requires s.Valid() && MakePlan(s, o, reading).Ok?
    ensures n in MakePlan(s, o, reading).value.stops <==>
              exists x | x in s.linuxteamData.Items() + s.linuxbondData.Items() + s.vlanData.Items() && x.0 == n ::
                UnitVerdict(o, reading, x.0, x.1) == Fails && StopsDhclient(x.0, x.1) == Ok(true)
  {
    PlanParts(s, o, reading);
    KeptLoopStops(o, reading, s.routeData, s.linuxteamData.Items(), n);
    KeptLoopStops(o, reading, s.routeData, s.linuxbondData.Items(), n);
    KeptLoopStops(o, reading, s.routeData, s.vlanData.Items(), n);
  }

  /** The cleanup spares both route files of every stored team, Linux bond and VLAN. */
  lemma CleanupSparesRouteFiles(s: Session, o: Oracles, reading: Reading, cleanup: bool, activate: bool, noop: bool, n: string)
    requires s.Valid() && MakePlan(s, o, reading).Ok?
    requires s.linuxteamData.Has(n) || s.linuxbondData.Has(n) || s.vlanData.Has(n)
    ensures RemoveConfig(o.routePath(n)) !in Apply(s, o, reading, cleanup, activate, noop).trace
    ensures RemoveConfig(o.route6Path(n)) !in Apply(s, o, reading, cleanup, activate, noop).trace
  {
    var p := MakePlan(s, o, reading).value;
    PlanParts(s, o, reading);
    ActCleanup(s, o, p, cleanup, activate, noop);
    var items := if s.linuxteamData.Has(n) then s.linuxteamData.Items()
                 else if s.linuxbondData.Has(n) then s.linuxbondData.Items()
                 else s.vlanData.Items();
    var m := if s.linuxteamData.Has(n) then s.linuxteamData
             else if s.linuxbondData.Has(n) then s.linuxbondData
             else s.vlanData;
    assert items == m.Items();
    ItemsHas(m, n, m.vals[n]);
    RouteFilesHas(o, items, (n, m.vals[n]));
    KeptLoopFiles(o, reading, s.routeData, items);
    assert o.routePath(n) in p.fileNames && o.route6Path(n) in p.fileNames;
  }
}

=== FILE: builder.dfy ===
/**
  The desired-state builder `_add_common`: one configuration unit becomes one
  state fragment (a mapping in the state library's schema), in five stages
  that run in the order the code runs them:

    1. base fields: per-family enablement and DHCP, name, state, DNS, and the
       type of plain and OVS internal interfaces;
    2. VLAN detection, and the `NotImplemented` rejections that share its
       `elif` chain;
    3. the OVS-port override for units attached to a bridge;
    4. the per-kind chain (OVS bridge, OVS bond, Linux bond, Linux team and
       the unsupported kinds), which also fills the side registries;
    5. MTU, static addresses and the default-route flag.

  A stage that raises ends the build; registry writes made before the raise
  are kept, as they are on the Python object.
 */
module Builder {
  import opened Wrappers
  import opened PyJson
  import opened Patterns
  import opened OrderedMaps
  import opened Units

  /**
    `AsWritten` follows the code as it stands; `Intended` applies the evident
    correction where the code contradicts its own comments (here: an OVS bridge
    carries no address settings, so the address stage leaves it alone).
   */
  datatype Reading = AsWritten | Intended

  datatype BuildError =
    | NotImplemented(what: string)
    | BadVlanTag(member: string)      // `int(member.strip('vlan'))` fails
    | MacUnavailable(iface: string)   // the MAC of the bridge's primary interface cannot be read
    | MissingKey(key: string)         // a `KeyError` on the fragment
    | TeamOptions                     // any team `bonding_options` ends in an exception

  /** A state fragment: the top level of one interface's desired state. */
  type Frag = map<string, Json>

  /** The fragment names its interface, as every fragment a build returns does. */
  predicate Named(f: Frag)
  {
    "name" in f && f["name"].Str?
  }

  /** The side registries the builder writes: `member_names` and `bond_primary_ifaces`. */
  datatype Registries = Registries(
    memberNames: OMap<string, seq<string>>,
    bondPrimary: OMap<string, string>)
  {
    ghost predicate Valid()
    {
      memberNames.Valid() && bondPrimary.Valid()
    }
  }

  datatype Built = Built(reg: Registries, out: Result<Frag, BuildError>)

  const Up := Str("up")
  const Down := Str("down")

  /** The fields of a nested mapping (empty when `v` is not one). */
  function Fields(v: Json): map<string, Json>
  {
    if v.Dict? then v.fields else map[]
  }

  /** `data[outer][k] = v` for every `k: v` of `upd`; a missing `outer` is a `KeyError`. */
  function SetIn(f: Frag, outer: string, upd: map<string, Json>): (r: Result<Frag, BuildError>)
    ensures outer !in f <==> r == Err(MissingKey(outer))
    ensures r.Ok? ==> r.value == f[outer := Dict(Fields(f[outer]) + upd)]
  {
    if outer in f then Ok(f[outer := Dict(Fields(f[outer]) + upd)]) else Err(MissingKey(outer))
  }

  // ---------------------------------------------------------------------------
  // Stage 1: base fields
  // ---------------------------------------------------------------------------

  function Ipv4Base(u: Unit): map<string, Json>
  {
    var v4 := map["enabled" := Bool(u.useDhcp), "dhcp" := Bool(u.useDhcp)];
    if |u.dnsServers| > 0 && !u.useDhcp then v4["auto-dns" := Bool(false)] else v4
  }

  function Ipv6Base(u: Unit): map<string, Json>
  {
    map["enabled" := Bool(u.useDhcpv6), "dhcp" := Bool(u.useDhcpv6)]
  }

  function BaseFields(u: Unit): Frag
  {
    var f := map[
      "ipv4" := Dict(Ipv4Base(u)),
      "ipv6" := Dict(Ipv6Base(u)),
      "name" := Str(u.name),
      "state" := if u.onboot then Up else Down];
    if u.kind == Interface then f["type" := Str("ethernet")]
    else if u.kind == OvsInterface then f["type" := Str("ovs-interface")]["state" := Up]
    else f
  }

  // ---------------------------------------------------------------------------
  // Stage 2: VLAN detection
  // ---------------------------------------------------------------------------

  /** The unit is a VLAN object, or its whole name reads `<word>.<digits>`. */
  predicate VlanShaped(u: Unit)
  {
    u.kind == Vlan || IsVlanName(u.name)
  }

  /** The `vlan` subtree: explicit id and parent for VLAN objects, parsed from the name otherwise. */
  function VlanSubtree(u: Unit): map<string, Json>
    requires VlanShaped(u)
  {
    if u.kind == Vlan then
      if u.device != "" then map["id" := Int(u.vlanId), "base-iface" := Str(u.device)]
      else if u.linuxBondName != "" then map["id" := Int(u.vlanId), "base-iface" := Str(u.linuxBondName)]
      else map["id" := Int(u.vlanId)]
    else map["id" := Int(VlanId(u.name)), "base-iface" := Str(VlanBase(u.name))]
  }

  function VlanStage(u: Unit, f: Frag): Result<Frag, BuildError>
  {
    if VlanShaped(u) then
      if u.ovsPort then Ok(f)   // a VLAN on an OVS bridge is an internal port
      else Ok(f["type" := Str("vlan")]["vlan" := Dict(VlanSubtree(u))])
    else if u.kind == IvsInterface then Err(NotImplemented("IVS interfaces"))
    else if u.kind == NfvswitchInternal then Err(NotImplemented("NFVSwitch"))
    else if u.kind == IbInterface then Err(NotImplemented("Infiniband"))
    else Ok(f)
  }

  // ---------------------------------------------------------------------------
  // Stage 3: a port on an OVS bridge
  // ---------------------------------------------------------------------------

  predicate OnOvsBridge(u: Unit)
  {
    u.ovsPort && u.bridgeName != ""
  }

  function PortStage(u: Unit, f: Frag): Frag
  {
    if OnOvsBridge(u) then
      f["state" := Up]["type" := Str(if u.kind == Vlan || u.kind == OvsInterface then "ovs-interface" else "ethernet")]
    else f
  }

  // ---------------------------------------------------------------------------
  // Stage 4: the per-kind chain
  // ---------------------------------------------------------------------------

  /** `c in 'vlan'`: the character set `str.strip('vlan')` removes. */
  predicate VlanLetter(c: char)
  {
    c == 'v' || c == 'l' || c == 'a' || c == 'n'
  }

  /** One bridge port: members named `vlan...` become access ports tagged with the stripped number. */
  function BridgePort(m: string): Result<Json, BuildError>
  {
    if "vlan" <= m then
      match PyInt(Strip(m, VlanLetter))
      case Ok(tag) =>
        Ok(Dict(map["name" := Str(m), "vlan" := Dict(map["mode" := Str("access"), "tag" := Int(tag)])]))
      case Err(_) => Err(BadVlanTag(m))
    else Ok(Dict(map["name" := Str(m)]))
  }

  function BridgePorts(ms: seq<string>): (r: Result<seq<Json>, BuildError>)
    ensures r.Ok? ==> |r.value| == |ms|
    decreases |ms|
  {
    if ms == [] then Ok([])
    else
      var p :- BridgePort(ms[0]);
      var rest :- BridgePorts(ms[1..]);
      Ok([p] + rest)
  }

  function BridgeOptions(u: Unit): map<string, Json>
  {
    map[
      "fail-mode" := u.failMode,
      "mcast-snooping-enable" := Bool(false),
      "rstp" := Bool(false),
      "stp" := Bool(false)]
  }

  /** The internal port `<bridge>-p` that carries the bridge's addresses. */
  function InternalPortName(bridge: string): string
  {
    bridge + "-p"
  }

  function BridgeStage(u: Unit, f: Frag, reg: Registries, macs: map<string, string>): (b: Built)
    requires reg.Valid()
    ensures b.reg.Valid()
  {
    var f1 := (f - {"ipv4", "ipv6"})["type" := Str("ovs-bridge")]
                ["bridge" := Dict(map["options" := Dict(BridgeOptions(u)), "port" := List([])])];
    var reg1 := PutMembers(reg, u);
    var ports := if |u.members| > 0 then BridgePorts(u.members) else Ok([]);
    if ports.Err? then Built(reg1, Err(ports.error))
    else
      var all := if |u.members| > 0 then ports.value + [Dict(map["name" := Str(InternalPortName(u.name))])] else [];
      var f2 := f1["bridge" := Dict(map["options" := Dict(BridgeOptions(u)), "port" := List(all)])];
      if u.primary == "" then Built(reg1, Ok(f2))
      else if u.primary in macs then Built(reg1, Ok(f2["mac-address" := Str(macs[u.primary])]))
      else Built(reg1, Err(MacUnavailable(u.primary)))
  }

  function StrList(ms: seq<string>): (r: seq<Json>)
    ensures |r| == |ms| && forall i | 0 <= i < |ms| :: r[i] == Str(ms[i])
  {
    seq(|ms|, i requires 0 <= i < |ms| => Str(ms[i]))
  }

  /** A `mode` or `MODE` option sets the bonding mode; any other key is written as it is. */
  function BondKey(k: string): string
  {
    if k == "mode" || k == "MODE" then "mode" else k
  }

  /** The `for option in options` loop over the tokens of `bonding_options`. */
  function ApplyBondTokens(la: map<string, Json>, ts: seq<(string, string)>): map<string, Json>
    decreases |ts|
  {
    if ts == [] then la
    else ApplyBondTokens(la[BondKey(ts[0].0) := Str(ts[0].1)], ts[1..])
  }

  function LinuxBondSubtree(u: Unit): map<string, Json>
  {
    var la0 := map["mode" := Str("active-backup"), "port" := List([]), "options" := Dict(map[])];
    var la1 := if |u.members| > 0 then la0["port" := List(StrList(u.members))] else la0;
    if u.bondingOptions != "" then ApplyBondTokens(la1["options" := Dict(map[])], BondOptionTokens(u.bondingOptions))
    else la1
  }

  function PutMembers(reg: Registries, u: Unit): (r: Registries)
    requires reg.Valid()
    ensures r.Valid() && r.bondPrimary == reg.bondPrimary
    ensures r.memberNames == if |u.members| > 0 then reg.memberNames.Put(u.name, u.members) else reg.memberNames
  {
    if |u.members| > 0 then reg.(memberNames := reg.memberNames.Put(u.name, u.members)) else reg
  }

  function KindStage(u: Unit, f: Frag, reg: Registries, macs: map<string, string>): (b: Built)
    requires reg.Valid()
    ensures b.reg.Valid()
  {
    if u.kind == OvsBridge then BridgeStage(u, f, reg, macs)
    else if u.kind in {OvsBond, LinuxBond, LinuxTeam} then AggregateStage(u, f, reg)
    else if RejectedKind(u.kind) then Built(reg, Err(NotImplemented(KindLabel(u.kind))))
    else Built(reg, Ok(f))
  }

  /** The kinds the per-kind chain rejects with `NotImplemented`, whatever their name. */
  predicate RejectedKind(k: Kind)
  {
    k in {OvsUserBridge, LinuxBridge, OvsTunnel, OvsPatchPort, OvsDpdkPort, OvsDpdkBond}
  }

  function KindLabel(k: Kind): string
  {
    match k
    case OvsUserBridge => "OVS user bridges"
    case LinuxBridge => "Linux bridges"
    case OvsTunnel => "OVS tunnels"
    case OvsPatchPort => "OVS patch ports"
    case OvsDpdkPort => "OVS DPDK ports"
    case OvsDpdkBond => "OVS DPDK bonds"
    case _ => ""
  }

  /** OVS bonds, Linux bonds and Linux teams. */
  function AggregateStage(u: Unit, f: Frag, reg: Registries): (b: Built)
    requires reg.Valid() && u.kind in {OvsBond, LinuxBond, LinuxTeam}
    ensures b.reg.Valid()
  {
    if u.kind == OvsBond then
      var reg1 := if u.primary != "" then reg.(bondPrimary := reg.bondPrimary.Put(u.name, u.primary)) else reg;
      Built(PutMembers(reg1, u), Ok(f["type" := Str("ovs-bond")]))
    else if u.kind == LinuxBond then
      Built(PutMembers(reg, u), Ok(f["type" := Str("bond")]["state" := Up]["link-aggregation" := Dict(LinuxBondSubtree(u))]))
    else
      // with DHCP on, the team branch re-sets `ipv4.dhcp` to the value it already has
      if u.primary != "" then Built(reg, Err(MissingKey("link-aggregation")))
      else if |u.members| > 0 then Built(PutMembers(reg, u), Err(MissingKey("slaves")))
      else if u.bondingOptions != "" then Built(reg, Err(TeamOptions))
      else Built(reg, Ok(f["type" := Str("team")]))
  }

  // ---------------------------------------------------------------------------
  // Stage 5: MTU, addresses, default route
  // ---------------------------------------------------------------------------

  /** One `{ip, prefix-length}` entry per address, in order. */
  function AddressEntries(addrs: seq<Address>): (r: seq<Json>)
    ensures |r| == |addrs|
  {
    seq(|addrs|, i requires 0 <= i < |addrs| =>
      Dict(map["ip" := Str(addrs[i].ip), "prefix-length" := Int(addrs[i].prefixLength)]))
  }

  function V4Settings(u: Unit): map<string, Json>
  {
    var v4s := AddressesOf(u.addresses, V4);
    if |v4s| > 0 then map["address" := List(AddressEntries(v4s)), "enabled" := Bool(true)] else map[]
  }

  function V6Settings(u: Unit): map<string, Json>
  {
    var v6s := AddressesOf(u.addresses, V6);
    if |v6s| > 0 then map["autoconf" := Bool(false), "address" := List(AddressEntries(v6s)), "enabled" := Bool(true)]
    else map[]
  }

  function GatewaySettings(u: Unit): map<string, Json>
  {
    if !u.defroute then map["auto-gateway" := Bool(false)] else map[]
  }

  /** Writes `upd` into `data[outer]` when there is anything to write. */
  function Merge(f: Frag, outer: string, upd: map<string, Json>): Result<Frag, BuildError>
  {
    if |upd| > 0 then SetIn(f, outer, upd) else Ok(f)
  }

  function L3Mtu(u: Unit, f: Frag): Frag
  {
    if u.mtu != 0 then f["mtu" := Int(u.mtu)] else f
  }

  /** The static addresses of both families, then the default-route flag. */
  function L3Addresses(u: Unit, f: Frag): Result<Frag, BuildError>
  {
    var f2 :- Merge(f, "ipv4", V4Settings(u));
    var f3 :- Merge(f2, "ipv6", V6Settings(u));
    Merge(f3, "ipv4", GatewaySettings(u))
  }

  function L3Stage(u: Unit, f: Frag, reading: Reading): Result<Frag, BuildError>
  {
    var f1 := L3Mtu(u, f);
    if u.kind == OvsBridge && reading == Intended then Ok(f1) else L3Addresses(u, f1)
  }

  // ---------------------------------------------------------------------------
  // The whole builder
  // ---------------------------------------------------------------------------

  /** Stages 1 to 4. */
  function PreL3(u: Unit, reg: Registries, macs: map<string, string>): (b: Built)
    requires reg.Valid()
    ensures b.reg.Valid()
  {
    match VlanStage(u, BaseFields(u))
    case Err(e) => Built(reg, Err(e))
    case Ok(f) => KindStage(u, PortStage(u, f), reg, macs)
  }

  /**
    `_add_common(unit)`, with `macs` standing for `utils.interface_mac`.

    Every fragment it builds carries the unit's name.  The registries it
    leaves hold the member list of every bridge and bond with members, and of
    every team with members but no primary (a team with a primary raises
    before recording it), and the primary of every OVS bond that names one;
    this holds whether or not the build then raises.
   */
  function Build(u: Unit, reg: Registries, macs: map<string, string>, reading: Reading): (b: Built)
    requires reg.Valid()
    ensures b.reg.Valid()
    ensures b.out.Ok? ==> "name" in b.out.value && b.out.value["name"] == Str(u.name)
    ensures b.out.Ok? ==> Named(b.out.value)
    ensures b.reg.bondPrimary == (if u.kind == OvsBond && u.primary != "" then reg.bondPrimary.Put(u.name, u.primary)
                                  else reg.bondPrimary)
    ensures b.reg.memberNames == (if RegistersMembers(u) then reg.memberNames.Put(u.name, u.members)
                                  else reg.memberNames)
  {
    PreL3Registries(u, reg, macs);
    var p := PreL3(u, reg, macs);
    match p.out
    case Err(e) => p
    case Ok(f) =>
      PreL3Keeps(u, reg, macs, "name");
      L3StageKeeps(u, f, reading, "name");
      Built(p.reg, L3Stage(u, f, reading))
  }

  /** The registries stages 1 to 4 leave. */
  lemma PreL3Registries(u: Unit, reg: Registries, macs: map<string, string>)
    requires reg.Valid()
    ensures var r := PreL3(u, reg, macs).reg;
            && r.bondPrimary == (if u.kind == OvsBond && u.primary != "" then reg.bondPrimary.Put(u.name, u.primary)
                                 else reg.bondPrimary)
            && r.memberNames == (if RegistersMembers(u) then reg.memberNames.Put(u.name, u.members)
                                 else reg.memberNames)
  {
    var v := VlanStage(u, BaseFields(u));
    if v.Ok? {
      var f := PortStage(u, v.value);
      assert PreL3(u, reg, macs) == KindStage(u, f, reg, macs);
      KindStageRegistries(u, f, reg, macs);
    }
  }

  lemma KindStageRegistries(u: Unit, f: Frag, reg: Registries, macs: map<string, string>)
    requires reg.Valid()
    ensures var r := KindStage(u, f, reg, macs).reg;
            && r.bondPrimary == (if u.kind == OvsBond && u.primary != "" then reg.bondPrimary.Put(u.name, u.primary)
                                 else reg.bondPrimary)
            && r.memberNames == (if RegistersMembers(u) then reg.memberNames.Put(u.name, u.members)
                                 else reg.memberNames)
  {
    if u.kind == OvsBridge {
      assert KindStage(u, f, reg, macs).reg == BridgeStage(u, f, reg, macs).reg == PutMembers(reg, u);
    } else if u.kind in {OvsBond, LinuxBond, LinuxTeam} {
      assert KindStage(u, f, reg, macs) == AggregateStage(u, f, reg);
    }
  }

  /** Once stages 1 to 4 succeed, the build is the address stage on their result. */
  lemma BuildFromPreL3(u: Unit, reg: Registries, macs: map<string, string>, reading: Reading)
    requires reg.Valid()
    ensures PreL3(u, reg, macs).out.Err? ==> Build(u, reg, macs, reading) == PreL3(u, reg, macs)
    ensures PreL3(u, reg, macs).out.Ok? ==>
              Build(u, reg, macs, reading) == Built(PreL3(u, reg, macs).reg, L3Stage(u, PreL3(u, reg, macs).out.value, reading))
  {
  }

  /**
    The units whose member list is recorded: bridges and bonds with members,
    and teams with members but no primary (a team with a primary raises first).
   */
  predicate RegistersMembers(u: Unit)
  {
    && |u.members| > 0
    && (|| u.kind == OvsBridge || u.kind == OvsBond || u.kind == LinuxBond
        || (u.kind == LinuxTeam && u.primary == ""))
  }

  // ---------------------------------------------------------------------------
  // Facts about the built fragment
  // ---------------------------------------------------------------------------

  /** `f` and `g` agree on key `k`: both lack it, or both map it to the same value. */
  predicate Same(f: Frag, g: Frag, k: string)
  {
    (k in f <==> k in g) && (k in f ==> f[k] == g[k])
  }

  lemma VlanStageKeeps(u: Unit, f: Frag, k: string)
    requires VlanStage(u, f).Ok? && k != "type" && k != "vlan"
    ensures Same(f, VlanStage(u, f).value, k)
  {
  }

  lemma PortStageKeeps(u: Unit, f: Frag, k: string)
    requires k != "state" && k != "type"
    ensures Same(f, PortStage(u, f), k)
  {
  }

  /** The keys the per-kind chain may write for a unit of kind `kind`. */
  predicate KindWrites(kind: Kind, k: string)
  {
    if kind == OvsBridge then k in {"type", "bridge", "mac-address", "ipv4", "ipv6"}
    else if kind == LinuxBond then k in {"type", "state", "link-aggregation"}
    else k == "type"
  }

  lemma KindStageKeeps(u: Unit, f: Frag, reg: Registries, macs: map<string, string>, k: string)
    requires reg.Valid() && KindStage(u, f, reg, macs).out.Ok? && !KindWrites(u.kind, k)
    ensures Same(f, KindStage(u, f, reg, macs).out.value, k)
  {
    if u.kind == OvsBridge {
      assert KindStage(u, f, reg, macs) == BridgeStage(u, f, reg, macs);
    }
  }

  lemma L3StageKeeps(u: Unit, f: Frag, reading: Reading, k: string)
    requires k != "mtu" && k != "ipv4" && k != "ipv6"
    ensures L3Stage(u, f, reading).Ok? ==> Same(f, L3Stage(u, f, reading).value, k)
  {
    var f1 := L3Mtu(u, f);
    assert Same(f, f1, k);
    if !(u.kind == OvsBridge && reading == Intended) && L3Addresses(u, f1).Ok? {
      L3AddressesKeeps(u, f1, k);
    }
  }

  /** Keys no stage writes keep the value stage 1 gave them. */
  lemma BuildKeeps(u: Unit, reg: Registries, macs: map<string, string>, reading: Reading, k: string)
    requires reg.Valid() && Build(u, reg, macs, reading).out.Ok?
    requires k != "type" && k != "vlan" && k != "state" && k != "mtu" && k != "ipv4" && k != "ipv6"
    requires k != "bridge" && k != "mac-address" && k != "link-aggregation"
    ensures Same(BaseFields(u), Build(u, reg, macs, reading).out.value, k)
  {
    BuildOk(u, reg, macs, reading);
    PreL3Keeps(u, reg, macs, k);
    L3StageKeeps(u, PreL3(u, reg, macs).out.value, reading, k);
  }

  /** Keys stages 2 to 4 never write keep the value stage 1 gave them. */
  lemma PreL3Keeps(u: Unit, reg: Registries, macs: map<string, string>, k: string)
    requires reg.Valid() && PreL3(u, reg, macs).out.Ok?
    requires k != "type" && k != "vlan" && k != "state" && k != "ipv4" && k != "ipv6"
    requires k != "bridge" && k != "mac-address" && k != "link-aggregation"
    ensures Same(BaseFields(u), PreL3(u, reg, macs).out.value, k)
  {
    var f0 := BaseFields(u);
    var f1 := VlanStage(u, f0).value;
    var f2 := PortStage(u, f1);
    VlanStageKeeps(u, f0, k);
    PortStageKeeps(u, f1, k);
    KindStageKeeps(u, f2, reg, macs, k);
  }

  /** For every kind but a bridge, stages 1 to 4 leave the address families as stage 1 set them. */
  lemma PreL3Families(u: Unit, reg: Registries, macs: map<string, string>)
    requires reg.Valid() && PreL3(u, reg, macs).out.Ok? && u.kind != OvsBridge
    ensures var f := PreL3(u, reg, macs).out.value;
            && "ipv4" in f && f["ipv4"] == Dict(Ipv4Base(u))
            && "ipv6" in f && f["ipv6"] == Dict(Ipv6Base(u))
  {
    var f0 := BaseFields(u);
    var f1 := VlanStage(u, f0).value;
    var f2 := PortStage(u, f1);
    VlanStageKeeps(u, f0, "ipv4");
    VlanStageKeeps(u, f0, "ipv6");
    PortStageKeeps(u, f1, "ipv4");
    PortStageKeeps(u, f1, "ipv6");
    KindStageKeeps(u, f2, reg, macs, "ipv4");
    KindStageKeeps(u, f2, reg, macs, "ipv6");
  }

  /** The settings of one address family (`"ipv4"` or `"ipv6"`), empty when the fragment has none. */
  function Settings(f: Frag, fam: string): map<string, Json>
  {
    if fam in f then Fields(f[fam]) else map[]
  }

  /**
    The state is up exactly when the unit starts on boot, or is an OVS internal
    interface, a port on an OVS bridge, or a Linux bond; otherwise it is down.
   */
  lemma BuildState(u: Unit, reg: Registries, macs: map<string, string>, reading: Reading)
    requires reg.Valid() && Build(u, reg, macs, reading).out.Ok?
    ensures var f := Build(u, reg, macs, reading).out.value;
            && "state" in f && (f["state"] == Up || f["state"] == Down)
            && (f["state"] == Up <==> u.onboot || u.kind == OvsInterface || u.kind == LinuxBond || OnOvsBridge(u))
  {
    BuildSame(u, reg, macs, reading, "state");
    PreL3Stages(u, reg, macs);
    var f0 := BaseFields(u);
    var f1 := VlanStage(u, f0).value;
    var f2 := PortStage(u, f1);
    VlanStageKeeps(u, f0, "state");
    if u.kind != LinuxBond {
      KindStageKeeps(u, f2, reg, macs, "state");
    }
  }

  /** `mtu` is set exactly when the unit has a (non-zero) MTU, to that value. */
  lemma BuildMtu(u: Unit, reg: Registries, macs: map<string, string>, reading: Reading)
    requires reg.Valid() && Build(u, reg, macs, reading).out.Ok?
    ensures var f := Build(u, reg, macs, reading).out.value;
            && ("mtu" in f <==> u.mtu != 0)
            && ("mtu" in f ==> f["mtu"] == Int(u.mtu))
  {
    BuildOk(u, reg, macs, reading);
    var g := PreL3(u, reg, macs).out.value;
    PreL3NoMtu(u, reg, macs);
    L3StageMtu(u, g, reading);
  }

  lemma PreL3NoMtu(u: Unit, reg: Registries, macs: map<string, string>)
    requires reg.Valid() && PreL3(u, reg, macs).out.Ok?
    ensures "mtu" !in PreL3(u, reg, macs).out.value
  {
    PreL3Keeps(u, reg, macs, "mtu");
  }

  lemma L3StageMtu(u: Unit, f: Frag, reading: Reading)
    requires "mtu" !in f && L3Stage(u, f, reading).Ok?
    ensures var g := L3Stage(u, f, reading).value;
            && ("mtu" in g <==> u.mtu != 0)
            && ("mtu" in g ==> g["mtu"] == Int(u.mtu))
  {
    var f1 := L3Mtu(u, f);
    if !(u.kind == OvsBridge && reading == Intended) {
      L3AddressesKeeps(u, f1, "mtu");
    }
  }

  lemma L3AddressesKeeps(u: Unit, f: Frag, k: string)
    requires L3Addresses(u, f).Ok? && k != "ipv4" && k != "ipv6"
    ensures Same(f, L3Addresses(u, f).value, k)
  {
    var f2 := Merge(f, "ipv4", V4Settings(u)).value;
    var f3 := Merge(f2, "ipv6", V6Settings(u)).value;
    assert Same(f, f2, k) && Same(f2, f3, k);
  }

  lemma MergeFacts(f: Frag, outer: string, upd: map<string, Json>, k: string)
    requires outer in f || |upd| == 0
    ensures Merge(f, outer, upd).Ok?
    ensures Settings(Merge(f, outer, upd).value, outer) == Settings(f, outer) + upd
    ensures k != outer ==> Same(f, Merge(f, outer, upd).value, k)
    ensures outer in f ==> outer in Merge(f, outer, upd).value
  {
    if |upd| == 0 {
      assert Settings(f, outer) + upd == Settings(f, outer);
    }
  }

  /**
    The address stage succeeds on a fragment that has both families; IPv4 ends
    as stage 1 set it, then the addresses, then the gateway flag, and IPv6 as
    stage 1 set it, then the addresses.
   */
  lemma L3Families(u: Unit, f: Frag)
    requires "ipv4" in f && "ipv6" in f
    ensures L3Addresses(u, f).Ok?
    ensures Settings(L3Addresses(u, f).value, "ipv4") == Settings(f, "ipv4") + V4Settings(u) + GatewaySettings(u)
    ensures Settings(L3Addresses(u, f).value, "ipv6") == Settings(f, "ipv6") + V6Settings(u)
  {
    MergeFacts(f, "ipv4", V4Settings(u), "ipv6");
    var f2 := Merge(f, "ipv4", V4Settings(u)).value;
    MergeFacts(f2, "ipv6", V6Settings(u), "ipv4");
    var f3 := Merge(f2, "ipv6", V6Settings(u)).value;
    MergeFacts(f3, "ipv4", GatewaySettings(u), "ipv6");
    assert L3Addresses(u, f) == Merge(f3, "ipv4", GatewaySettings(u));
    assert Settings(f3, "ipv4") == Settings(f, "ipv4") + V4Settings(u);
    assert Settings(f3, "ipv6") == Settings(f, "ipv6") + V6Settings(u);
  }

  /** For every kind but a bridge, the address stage never raises. */
  lemma NonBridgeL3(u: Unit, reg: Registries, macs: map<string, string>, reading: Reading)
    requires reg.Valid() && u.kind != OvsBridge && PreL3(u, reg, macs).out.Ok?
    ensures Build(u, reg, macs, reading).out.Ok?
    ensures Settings(Build(u, reg, macs, reading).out.value, "ipv4") == Ipv4Base(u) + V4Settings(u) + GatewaySettings(u)
    ensures Settings(Build(u, reg, macs, reading).out.value, "ipv6") == Ipv6Base(u) + V6Settings(u)
  {
    PreL3Families(u, reg, macs);
    var f := PreL3(u, reg, macs).out.value;
    BuildFromPreL3(u, reg, macs, reading);
    var f1 := L3Mtu(u, f);
    assert Settings(f1, "ipv4") == Ipv4Base(u) && Settings(f1, "ipv6") == Ipv6Base(u);
    assert L3Stage(u, f, reading) == L3Addresses(u, f1);
    L3Families(u, f1);
  }

  /**
    IPv4 of every kind but a bridge: DHCP as the unit asks; enabled exactly when
    DHCP is on or the unit has an IPv4 address; one entry per IPv4 address, in
    order; DNS from DHCP turned off exactly when DNS servers are given without
    DHCP; the default gateway turned off exactly when the unit is not the
    default route.
   */
  lemma Ipv4Settings(u: Unit, reg: Registries, macs: map<string, string>, reading: Reading)
    requires reg.Valid() && u.kind != OvsBridge && PreL3(u, reg, macs).out.Ok?
    ensures Build(u, reg, macs, reading).out.Ok?
    ensures var v4 := Settings(Build(u, reg, macs, reading).out.value, "ipv4");
            && "dhcp" in v4 && v4["dhcp"] == Bool(u.useDhcp)
            && "enabled" in v4 && v4["enabled"] == Bool(u.useDhcp || exists a | a in u.addresses :: a.family == V4)
            && ("address" in v4 <==> exists a | a in u.addresses :: a.family == V4)
            && ("address" in v4 ==> v4["address"] == List(AddressEntries(AddressesOf(u.addresses, V4))))
            && ("auto-dns" in v4 <==> |u.dnsServers| > 0 && !u.useDhcp)
            && ("auto-dns" in v4 ==> v4["auto-dns"] == Bool(false))
            && ("auto-gateway" in v4 <==> !u.defroute)
            && ("auto-gateway" in v4 ==> v4["auto-gateway"] == Bool(false))
  {
    NonBridgeL3(u, reg, macs, reading);
    Ipv4Map(u, Settings(Build(u, reg, macs, reading).out.value, "ipv4"));
  }

  lemma Ipv4Map(u: Unit, v4: map<string, Json>)
    requires v4 == Ipv4Base(u) + V4Settings(u) + GatewaySettings(u)
    ensures && "dhcp" in v4 && v4["dhcp"] == Bool(u.useDhcp)
            && "enabled" in v4 && v4["enabled"] == Bool(u.useDhcp || exists a | a in u.addresses :: a.family == V4)
            && ("address" in v4 <==> exists a | a in u.addresses :: a.family == V4)
            && ("address" in v4 ==> v4["address"] == List(AddressEntries(AddressesOf(u.addresses, V4))))
            && ("auto-dns" in v4 <==> |u.dnsServers| > 0 && !u.useDhcp)
            && ("auto-dns" in v4 ==> v4["auto-dns"] == Bool(false))
            && ("auto-gateway" in v4 <==> !u.defroute)
            && ("auto-gateway" in v4 ==> v4["auto-gateway"] == Bool(false))
  {
    HasFamily(u.addresses, V4);
    Ipv4Mid(u);
  }

  /** IPv4 before the default-route flag. */
  lemma Ipv4Mid(u: Unit)
    ensures var mid := Ipv4Base(u) + V4Settings(u);
            var has := |AddressesOf(u.addresses, V4)| > 0;
            && "dhcp" in mid && mid["dhcp"] == Bool(u.useDhcp)
            && "enabled" in mid && mid["enabled"] == Bool(u.useDhcp || has)
            && ("address" in mid <==> has)
            && ("address" in mid ==> mid["address"] == List(AddressEntries(AddressesOf(u.addresses, V4))))
            && ("auto-dns" in mid <==> |u.dnsServers| > 0 && !u.useDhcp)
            && ("auto-dns" in mid ==> mid["auto-dns"] == Bool(false))
            && "auto-gateway" !in mid
  {
    if |AddressesOf(u.addresses, V4)| > 0 {
      Ipv4MidAddressed(Ipv4Base(u), u.useDhcp, |u.dnsServers| > 0 && !u.useDhcp, List(AddressEntries(AddressesOf(u.addresses, V4))));
    } else {
      assert V4Settings(u) == map[];
      assert Ipv4Base(u) + V4Settings(u) == Ipv4Base(u);
    }
  }

  /** The base IPv4 settings overlaid with an address list. */
  lemma Ipv4MidAddressed(base: map<string, Json>, dhcp: bool, dns: bool, addrs: Json)
    requires base == if dns then map["enabled" := Bool(dhcp), "dhcp" := Bool(dhcp), "auto-dns" := Bool(false)]
                     else map["enabled" := Bool(dhcp), "dhcp" := Bool(dhcp)]
    ensures var mid := base + map["address" := addrs, "enabled" := Bool(true)];
            && "dhcp" in mid && mid["dhcp"] == Bool(dhcp)
            && "enabled" in mid && mid["enabled"] == Bool(true)
            && "address" in mid && mid["address"] == addrs
            && ("auto-dns" in mid <==> dns)
            && ("auto-dns" in mid ==> mid["auto-dns"] == Bool(false))
            && "auto-gateway" !in mid
  {
  }

  lemma HasFamily(addrs: seq<Address>, f: Family)
    ensures |AddressesOf(addrs, f)| > 0 <==> exists a | a in addrs :: a.family == f
  {
    var r := AddressesOf(addrs, f);
    if |r| > 0 {
      assert r[0] in r;
    }
  }

  /**
    IPv6 of every kind but a bridge: DHCP as the unit asks; enabled exactly when
    DHCPv6 is on or the unit has an IPv6 address; one entry per IPv6 address, in
    order; autoconfiguration turned off exactly when it has one.
   */
  lemma Ipv6Settings(u: Unit, reg: Registries, macs: map<string, string>, reading: Reading)
    requires reg.Valid() && u.kind != OvsBridge && PreL3(u, reg, macs).out.Ok?
    ensures Build(u, reg, macs, reading).out.Ok?
    ensures var v6 := Settings(Build(u, reg, macs, reading).out.value, "ipv6");
            && "dhcp" in v6 && v6["dhcp"] == Bool(u.useDhcpv6)
            && "enabled" in v6 && v6["enabled"] == Bool(u.useDhcpv6 || exists a | a in u.addresses :: a.family == V6)
            && ("address" in v6 <==> exists a | a in u.addresses :: a.family == V6)
            && ("address" in v6 ==> v6["address"] == List(AddressEntries(AddressesOf(u.addresses, V6))))
            && ("autoconf" in v6 <==> exists a | a in u.addresses :: a.family == V6)
            && ("autoconf" in v6 ==> v6["autoconf"] == Bool(false))
  {
    NonBridgeL3(u, reg, macs, reading);
    Ipv6Map(u, Settings(Build(u, reg, macs, reading).out.value, "ipv6"));
  }

  lemma Ipv6Map(u: Unit, v6: map<string, Json>)
    requires v6 == Ipv6Base(u) + V6Settings(u)
    ensures && "dhcp" in v6 && v6["dhcp"] == Bool(u.useDhcpv6)
            && "enabled" in v6 && v6["enabled"] == Bool(u.useDhcpv6 || exists a | a in u.addresses :: a.family == V6)
            && ("address" in v6 <==> exists a | a in u.addresses :: a.family == V6)
            && ("address" in v6 ==> v6["address"] == List(AddressEntries(AddressesOf(u.addresses, V6))))
            && ("autoconf" in v6 <==> exists a | a in u.addresses :: a.family == V6)
            && ("autoconf" in v6 ==> v6["autoconf"] == Bool(false))
  {
    var v6s := AddressesOf(u.addresses, V6);
    if |v6s| > 0 {
      assert v6s[0] in v6s;
    }
  }

  /**
    The interface type the fragment should carry, by precedence: the kind's own
    type for bridges, bonds and teams; the port type on an OVS bridge; `vlan`
    for a VLAN-shaped unit not on OVS; otherwise the plain and OVS internal
    interface types, and no type for anything else.
   */
  function ExpectedType(u: Unit): Option<string>
  {
    match u.kind
    case OvsBridge => Some("ovs-bridge")
    case OvsBond => Some("ovs-bond")
    case LinuxBond => Some("bond")
    case LinuxTeam => Some("team")
    case _ =>
      if OnOvsBridge(u) then Some(if u.kind == Vlan || u.kind == OvsInterface then "ovs-interface" else "ethernet")
      else if VlanShaped(u) && !u.ovsPort then Some("vlan")
      else if u.kind == Interface then Some("ethernet")
      else if u.kind == OvsInterface then Some("ovs-interface")
      else None
  }

  /** Stages 1 to 4 compose. */
  lemma PreL3Stages(u: Unit, reg: Registries, macs: map<string, string>)
    requires reg.Valid() && PreL3(u, reg, macs).out.Ok?
    ensures VlanStage(u, BaseFields(u)).Ok?
    ensures PreL3(u, reg, macs) == KindStage(u, PortStage(u, VlanStage(u, BaseFields(u)).value), reg, macs)
  {
  }

  /** A key the address stage does not write is the same after stages 1 to 4 and after the whole build. */
  lemma BuildSame(u: Unit, reg: Registries, macs: map<string, string>, reading: Reading, k: string)
    requires reg.Valid() && Build(u, reg, macs, reading).out.Ok? && k != "mtu" && k != "ipv4" && k != "ipv6"
    ensures PreL3(u, reg, macs).out.Ok?
    ensures Same(PreL3(u, reg, macs).out.value, Build(u, reg, macs, reading).out.value, k)
  {
    BuildOk(u, reg, macs, reading);
    L3StageKeeps(u, PreL3(u, reg, macs).out.value, reading, k);
  }

  /** A successful build passed stages 1 to 4, and the address stage on their result. */
  lemma BuildOk(u: Unit, reg: Registries, macs: map<string, string>, reading: Reading)
    requires reg.Valid() && Build(u, reg, macs, reading).out.Ok?
    ensures PreL3(u, reg, macs).out.Ok?
    ensures Build(u, reg, macs, reading).out == L3Stage(u, PreL3(u, reg, macs).out.value, reading)
  {
    BuildFromPreL3(u, reg, macs, reading);
  }

  /** The type before the per-kind chain. */
  lemma PortStageType(u: Unit)
    requires VlanStage(u, BaseFields(u)).Ok?
    ensures var f2 := PortStage(u, VlanStage(u, BaseFields(u)).value);
            && ("type" in f2 <==> OnOvsBridge(u) || (VlanShaped(u) && !u.ovsPort) || u.kind == Interface || u.kind == OvsInterface)
            && ("type" in f2 ==>
                  f2["type"] == Str(if OnOvsBridge(u) then (if u.kind == Vlan || u.kind == OvsInterface then "ovs-interface" else "ethernet")
                                    else if VlanShaped(u) && !u.ovsPort then "vlan"
                                    else if u.kind == Interface then "ethernet"
                                    else "ovs-interface"))
  {
  }

  /** The per-kind chain writes the type of bridges, bonds and teams and keeps every other. */
  lemma KindStageType(u: Unit, f: Frag, reg: Registries, macs: map<string, string>)
    requires reg.Valid() && KindStage(u, f, reg, macs).out.Ok?
    ensures var g := KindStage(u, f, reg, macs).out.value;
            && (u.kind == OvsBridge ==> "type" in g && g["type"] == Str("ovs-bridge"))
            && (u.kind == OvsBond ==> "type" in g && g["type"] == Str("ovs-bond"))
            && (u.kind == LinuxBond ==> "type" in g && g["type"] == Str("bond"))
            && (u.kind == LinuxTeam ==> "type" in g && g["type"] == Str("team"))
            && (u.kind !in {OvsBridge, OvsBond, LinuxBond, LinuxTeam} ==> Same(f, g, "type"))
  {
    if u.kind == OvsBridge {
      assert KindStage(u, f, reg, macs) == BridgeStage(u, f, reg, macs);
    }
  }

  /** The built fragment's `type` follows that precedence. */
  lemma BuildType(u: Unit, reg: Registries, macs: map<string, string>, reading: Reading)
    requires reg.Valid() && Build(u, reg, macs, reading).out.Ok?
    ensures var f := Build(u, reg, macs, reading).out.value;
            && ("type" in f <==> ExpectedType(u).Some?)
            && ("type" in f ==> f["type"] == Str(ExpectedType(u).value))
  {
    BuildSame(u, reg, macs, reading, "type");
    PreL3Type(u, reg, macs);
  }

  lemma PreL3Type(u: Unit, reg: Registries, macs: map<string, string>)
    requires reg.Valid() && PreL3(u, reg, macs).out.Ok?
    ensures var f := PreL3(u, reg, macs).out.value;
            && ("type" in f <==> ExpectedType(u).Some?)
            && ("type" in f ==> f["type"] == Str(ExpectedType(u).value))
  {
    PreL3Stages(u, reg, macs);
    PortStageType(u);
    KindStageType(u, PortStage(u, VlanStage(u, BaseFields(u)).value), reg, macs);
  }

  lemma VlanStageVlan(u: Unit)
    requires VlanStage(u, BaseFields(u)).Ok?
    ensures var f1 := VlanStage(u, BaseFields(u)).value;
            && ("vlan" in f1 <==> VlanShaped(u) && !u.ovsPort)
            && ("vlan" in f1 ==> VlanShaped(u) && f1["vlan"] == Dict(VlanSubtree(u)))
  {
  }

  /** The `vlan` subtree is present exactly for VLAN-shaped units not on OVS, whatever their kind. */
  lemma BuildVlanSubtree(u: Unit, reg: Registries, macs: map<string, string>, reading: Reading)
    requires reg.Valid() && Build(u, reg, macs, reading).out.Ok?
    ensures var f := Build(u, reg, macs, reading).out.value;
            && ("vlan" in f <==> VlanShaped(u) && !u.ovsPort)
            && ("vlan" in f ==> VlanShaped(u) && f["vlan"] == Dict(VlanSubtree(u)))
  {
    BuildSame(u, reg, macs, reading, "vlan");
    PreL3Stages(u, reg, macs);
    VlanStageVlan(u);
    var f1 := VlanStage(u, BaseFields(u)).value;
    var f2 := PortStage(u, f1);
    PortStageKeeps(u, f1, "vlan");
    KindStageKeeps(u, f2, reg, macs, "vlan");
  }

  /**
    A unit that is not a VLAN object but is named `<word>.<digits>` gets the
    VLAN id from the digits and the parent from the word.
   */
  lemma VlanFromName(u: Unit, reg: Registries, macs: map<string, string>, reading: Reading, w: string, d: string)
    requires reg.Valid() && Build(u, reg, macs, reading).out.Ok?
    requires u.kind != Vlan && !u.ovsPort && u.name == w + "." + d
    requires |w| > 0 && forall i | 0 <= i < |w| :: IsWordChar(w[i])
    requires |d| > 0 && AllDigits(d)
    ensures var f := Build(u, reg, macs, reading).out.value;
            "vlan" in f && f["vlan"] == Dict(map["id" := Int(DecimalValue(d)), "base-iface" := Str(w)])
  {
    assert DropFinalNewline(d) == d by {
      assert IsDigit(d[|d| - 1]);
    }
    VlanNameFrom(w, d);
    BuildVlanSubtree(u, reg, macs, reading);
  }

  /**
    Unsupported kinds register no fragment and leave the registries alone:
    OVS user bridges, Linux bridges, tunnels, patch ports and DPDK ports and
    bonds always; IVS, NFVSwitch and Infiniband units unless their name is
    VLAN-shaped, which sends them down the VLAN branch instead.
   */
  lemma UnsupportedKinds(u: Unit, reg: Registries, macs: map<string, string>, reading: Reading)
    requires reg.Valid()
    ensures u.kind in {OvsUserBridge, LinuxBridge, OvsTunnel, OvsPatchPort, OvsDpdkPort, OvsDpdkBond} ==>
              Build(u, reg, macs, reading).reg == reg
              && Build(u, reg, macs, reading).out.Err?
              && Build(u, reg, macs, reading).out.error.NotImplemented?
    ensures u.kind in {IvsInterface, NfvswitchInternal, IbInterface} ==>
              && (Build(u, reg, macs, reading).out.Err? <==> !IsVlanName(u.name))
              && (Build(u, reg, macs, reading).out.Err? ==> Build(u, reg, macs, reading).out.error.NotImplemented?)
              && Build(u, reg, macs, reading).reg == reg
  {
    var v := VlanStage(u, BaseFields(u));
    var p := PreL3(u, reg, macs);
    BuildFromPreL3(u, reg, macs, reading);
    if RejectedKind(u.kind) {
      assert v.Ok?;
      assert p == KindStage(u, PortStage(u, v.value), reg, macs);
    } else if u.kind in {IvsInterface, NfvswitchInternal, IbInterface} {
      assert v.Ok? <==> IsVlanName(u.name);
      if v.Ok? {
        assert p == Built(reg, Ok(PortStage(u, v.value)));
        NonBridgeL3(u, reg, macs, reading);
      } else {
        assert p == Built(reg, Err(v.error));
      }
    }
  }

  // ---------------------------------------------------------------------------
  // OVS bridges
  // ---------------------------------------------------------------------------

  lemma {:induction false} BridgePortsEach(ms: seq<string>)
    ensures BridgePorts(ms).Ok? <==> forall i | 0 <= i < |ms| :: BridgePort(ms[i]).Ok?
    ensures BridgePorts(ms).Ok? ==> forall i | 0 <= i < |ms| :: BridgePorts(ms).value[i] == BridgePort(ms[i]).value
    decreases |ms|
  {
    if ms != [] {
      BridgePortsEach(ms[1..]);
      assert forall i | 1 <= i < |ms| :: ms[i] == ms[1..][i - 1];
    }
  }

  /** A port is named after its member, and is an access port exactly when the member's name starts with `vlan`. */
  lemma BridgePortShape(m: string)
    ensures BridgePort(m).Ok? ==>
              var p := Fields(BridgePort(m).value);
              && BridgePort(m).value.Dict?
              && "name" in p && p["name"] == Str(m)
              && ("vlan" in p <==> "vlan" <= m)
    ensures !("vlan" <= m) ==> BridgePort(m) == Ok(Dict(map["name" := Str(m)]))
  {
  }

  lemma {:induction false} LStripVlanPrefix(d: string)
    requires |d| > 0 && IsDigit(d[0])
    ensures LStrip("vlan" + d, VlanLetter) == d
  {
    assert LStrip("vlan" + d, VlanLetter) == LStrip("lan" + d, VlanLetter) by {
      assert ("vlan" + d)[1..] == "lan" + d;
    }
    assert LStrip("lan" + d, VlanLetter) == LStrip("an" + d, VlanLetter) by {
      assert ("lan" + d)[1..] == "an" + d;
    }
    assert LStrip("an" + d, VlanLetter) == LStrip("n" + d, VlanLetter) by {
      assert ("an" + d)[1..] == "n" + d;
    }
    assert LStrip("n" + d, VlanLetter) == LStrip(d, VlanLetter) by {
      assert ("n" + d)[1..] == d;
    }
  }

  lemma RStripDigits(d: string, drop: char -> bool)
    requires |d| > 0 && IsDigit(d[|d| - 1]) && !drop(d[|d| - 1])
    ensures RStrip(d, drop) == d
  {
  }

  lemma LStripDigits(d: string, drop: char -> bool)
    requires |d| > 0 && IsDigit(d[0]) && !drop(d[0])
    ensures LStrip(d, drop) == d
  {
  }

  /** `vlan<digits>` becomes an access port tagged with the value of the digits. */
  lemma VlanMemberTag(d: string)
    requires |d| > 0 && AllDigits(d)
    ensures BridgePort("vlan" + d) ==
              Ok(Dict(map["name" := Str("vlan" + d), "vlan" := Dict(map["mode" := Str("access"), "tag" := Int(DecimalValue(d))])]))
  {
    assert "vlan" <= "vlan" + d;
    StripVlanDigits(d);
    PyIntDigits(d);
  }

  lemma StripVlanDigits(d: string)
    requires |d| > 0 && AllDigits(d)
    ensures Strip("vlan" + d, VlanLetter) == d
  {
    LStripVlanPrefix(d);
    RStripDigits(d, VlanLetter);
  }

  lemma PyIntDigits(d: string)
    requires |d| > 0 && AllDigits(d)
    ensures PyInt(d) == Ok(DecimalValue(d))
  {
    LStripDigits(d, IsSpace);
    RStripDigits(d, IsSpace);
    assert Strip(d, IsSpace) == d;
  }

  /** A `vlan...` member whose stripped remainder is not a number fails the whole bridge. */
  lemma VlanMemberWithoutNumber(m: string)
    requires "vlan" <= m && PyInt(Strip(m, VlanLetter)).Err?
    ensures BridgePort(m) == Err(BadVlanTag(m))
  {
  }

  /** The bridge's ports, given that every member's port could be built. */
  function ExpectedPorts(u: Unit): seq<Json>
    requires BridgePorts(u.members).Ok?
  {
    if |u.members| > 0 then BridgePorts(u.members).value + [Dict(map["name" := Str(InternalPortName(u.name))])] else []
  }

  lemma BridgeStageShape(u: Unit, f: Frag, reg: Registries, macs: map<string, string>)
    requires reg.Valid() && u.kind == OvsBridge && "mac-address" !in f
    ensures var b := BridgeStage(u, f, reg, macs);
            && (b.out.Ok? <==> BridgePorts(u.members).Ok? && (u.primary == "" || u.primary in macs))
            && (b.out.Ok? ==>
                  var g := b.out.value;
                  && "ipv4" !in g && "ipv6" !in g
                  && "bridge" in g
                  && g["bridge"] == Dict(map["options" := Dict(BridgeOptions(u)), "port" := List(ExpectedPorts(u))])
                  && ("mac-address" in g <==> u.primary != "")
                  && (u.primary != "" ==> g["mac-address"] == Str(macs[u.primary])))
  {
  }

  /**
    A bridge fragment has no address families, fixed options (the unit's fail
    mode, snooping, STP and RSTP off), and as ports its members in order
    followed by its internal port `<name>-p`, or no ports when it has no
    members; the MAC of the primary interface when it names one.
   */
  lemma BridgeFragment(u: Unit, reg: Registries, macs: map<string, string>, reading: Reading)
    requires reg.Valid() && u.kind == OvsBridge && Build(u, reg, macs, reading).out.Ok?
    ensures BridgePorts(u.members).Ok?
    ensures var f := Build(u, reg, macs, reading).out.value;
            && "ipv4" !in f && "ipv6" !in f
            && "bridge" in f
            && f["bridge"] == Dict(map["options" := Dict(BridgeOptions(u)), "port" := List(ExpectedPorts(u))])
            && ("mac-address" in f <==> u.primary != "")
            && (u.primary != "" ==> u.primary in macs && f["mac-address"] == Str(macs[u.primary]))
  {
    BuildOk(u, reg, macs, reading);
    BridgePreL3Shape(u, reg, macs);
    L3WithoutFamilies(u, PreL3(u, reg, macs).out.value, reading);
  }

  lemma BridgePreL3Shape(u: Unit, reg: Registries, macs: map<string, string>)
    requires reg.Valid() && u.kind == OvsBridge
    ensures var b := PreL3(u, reg, macs);
            && (b.out.Ok? <==> BridgePorts(u.members).Ok? && (u.primary == "" || u.primary in macs))
            && (b.out.Ok? ==>
                  var g := b.out.value;
                  && "ipv4" !in g && "ipv6" !in g
                  && "bridge" in g
                  && g["bridge"] == Dict(map["options" := Dict(BridgeOptions(u)), "port" := List(ExpectedPorts(u))])
                  && ("mac-address" in g <==> u.primary != "")
                  && (u.primary != "" ==> g["mac-address"] == Str(macs[u.primary])))
  {
    var f1 := VlanStage(u, BaseFields(u)).value;
    var f2 := PortStage(u, f1);
    VlanStageKeeps(u, BaseFields(u), "mac-address");
    PortStageKeeps(u, f1, "mac-address");
    assert PreL3(u, reg, macs) == BridgeStage(u, f2, reg, macs);
    BridgeStageShape(u, f2, reg, macs);
  }

  /**
    On a fragment without address families the address stage either raises or
    only sets the MTU: as written it succeeds exactly when the unit has no
    address and is the default route, and otherwise names the first family it
    writes into.
   */
  lemma L3WithoutFamilies(u: Unit, f: Frag, reading: Reading)
    requires "ipv4" !in f && "ipv6" !in f
    ensures L3Stage(u, f, reading).Ok? ==> L3Stage(u, f, reading).value == L3Mtu(u, f)
    ensures reading == AsWritten ==>
              && (L3Stage(u, f, reading).Ok? <==> |u.addresses| == 0 && u.defroute)
              && (L3Stage(u, f, reading).Err? ==>
                    L3Stage(u, f, reading).error ==
                      MissingKey(if |AddressesOf(u.addresses, V6)| > 0 && |AddressesOf(u.addresses, V4)| == 0 then "ipv6" else "ipv4"))
    ensures u.kind == OvsBridge && reading == Intended ==> L3Stage(u, f, reading).Ok?
  {
    AddressFamilies(u.addresses);
    var f1 := L3Mtu(u, f);
    assert "ipv4" !in f1 && "ipv6" !in f1;
    if !(u.kind == OvsBridge && reading == Intended) {
      assert L3Stage(u, f, reading) == L3Addresses(u, f1);
      AddressesWithoutFamilies(u, f1);
    }
  }

  /** The address stage on a fragment without address families, by which families the unit has. */
  lemma AddressesWithoutFamilies(u: Unit, g: Frag)
    requires "ipv4" !in g && "ipv6" !in g
    ensures |AddressesOf(u.addresses, V4)| > 0 ==> L3Addresses(u, g) == Err(MissingKey("ipv4"))
    ensures |AddressesOf(u.addresses, V4)| == 0 && |AddressesOf(u.addresses, V6)| > 0 ==>
              L3Addresses(u, g) == Err(MissingKey("ipv6"))
    ensures |AddressesOf(u.addresses, V4)| == 0 && |AddressesOf(u.addresses, V6)| == 0 ==>
              L3Addresses(u, g) == Merge(g, "ipv4", GatewaySettings(u))
  {
    if |AddressesOf(u.addresses, V4)| > 0 {
      assert "enabled" in V4Settings(u);
    } else if |AddressesOf(u.addresses, V6)| > 0 {
      assert V4Settings(u) == map[] && "enabled" in V6Settings(u);
    } else {
      assert V4Settings(u) == map[] && V6Settings(u) == map[];
    }
  }

  /** The families a bridge fragment has lost before the address stage. */
  lemma BridgePreL3(u: Unit, reg: Registries, macs: map<string, string>)
    requires reg.Valid() && u.kind == OvsBridge && PreL3(u, reg, macs).out.Ok?
    ensures "ipv4" !in PreL3(u, reg, macs).out.value && "ipv6" !in PreL3(u, reg, macs).out.value
  {
    BridgePreL3Shape(u, reg, macs);
  }

  /**
    As written, a bridge with any address, or that is not the default route,
    fails with a `KeyError`: the address stage writes into the address families
    the bridge branch deleted.  The error names `ipv4` unless the bridge has
    only IPv6 addresses.
   */
  lemma BridgeL3AsWritten(u: Unit, reg: Registries, macs: map<string, string>)
    requires reg.Valid() && u.kind == OvsBridge && PreL3(u, reg, macs).out.Ok?
    ensures Build(u, reg, macs, AsWritten).out.Ok? <==> |u.addresses| == 0 && u.defroute
    ensures Build(u, reg, macs, AsWritten).out.Err? ==>
              Build(u, reg, macs, AsWritten).out.error ==
                MissingKey(if |AddressesOf(u.addresses, V6)| > 0 && |AddressesOf(u.addresses, V4)| == 0 then "ipv6" else "ipv4")
  {
    BridgePreL3(u, reg, macs);
    BuildFromPreL3(u, reg, macs, AsWritten);
    L3WithoutFamilies(u, PreL3(u, reg, macs).out.value, AsWritten);
  }

  /** Read as intended, the address stage leaves a bridge alone, so its build never fails there. */
  lemma BridgeL3Intended(u: Unit, reg: Registries, macs: map<string, string>)
    requires reg.Valid() && u.kind == OvsBridge && PreL3(u, reg, macs).out.Ok?
    ensures Build(u, reg, macs, Intended).out.Ok?
    ensures "ipv4" !in Build(u, reg, macs, Intended).out.value
    ensures "ipv6" !in Build(u, reg, macs, Intended).out.value
  {
    BridgePreL3(u, reg, macs);
    BuildFromPreL3(u, reg, macs, Intended);
    L3WithoutFamilies(u, PreL3(u, reg, macs).out.value, Intended);
  }

  // ---------------------------------------------------------------------------
  // Linux bonds
  // ---------------------------------------------------------------------------

  /** The value the last option with bond key `k` gives, scanning from the end. */
  function LastOption(ts: seq<(string, string)>, k: string): Option<string>
    decreases |ts|
  {
    if ts == [] then None
    else if BondKey(ts[|ts| - 1].0) == k then Some(ts[|ts| - 1].1)
    else LastOption(ts[..|ts| - 1], k)
  }

  lemma {:induction false} ApplyBondTokensSnoc(la: map<string, Json>, ts: seq<(string, string)>, t: (string, string))
    ensures ApplyBondTokens(la, ts + [t]) == ApplyBondTokens(la, ts)[BondKey(t.0) := Str(t.1)]
    decreases |ts|
  {
    if ts == [] {
      assert [t][1..] == [];
    } else {
      assert (ts + [t])[1..] == ts[1..] + [t];
      ApplyBondTokensSnoc(la[BondKey(ts[0].0) := Str(ts[0].1)], ts[1..], t);
    }
  }

  /**
    After the option loop each key holds the value of the last option that
    names it, and keys no option names keep their initial value.
   */
  lemma {:induction false} ApplyBondTokensLast(la: map<string, Json>, ts: seq<(string, string)>, k: string)
    ensures var r := ApplyBondTokens(la, ts);
            && (k in r <==> k in la || LastOption(ts, k).Some?)
            && (LastOption(ts, k).Some? ==> r[k] == Str(LastOption(ts, k).value))
            && (LastOption(ts, k).None? && k in la ==> r[k] == la[k])
    decreases |ts|
  {
    if ts != [] {
      var init, t := ts[..|ts| - 1], ts[|ts| - 1];
      assert ts == init + [t];
      ApplyBondTokensSnoc(la, init, t);
      ApplyBondTokensLast(la, init, k);
    }
  }

  /**
    The `link-aggregation` subtree of a Linux bond: its mode is the last
    `mode`/`MODE` option (`active-backup` when none), its ports are the members
    in order unless an option named `port` overrides them, and every option key
    holds the value of its last occurrence.
   */
  lemma LinuxBondSubtreeSpec(u: Unit)
    ensures var la := LinuxBondSubtree(u);
            var ts := if u.bondingOptions != "" then BondOptionTokens(u.bondingOptions) else [];
            && "mode" in la
            && la["mode"] == Str(if LastOption(ts, "mode").Some? then LastOption(ts, "mode").value else "active-backup")
            && "port" in la
            && (LastOption(ts, "port").None? ==> la["port"] == List(StrList(u.members)))
            && (forall k | LastOption(ts, k).Some? :: k in la && la[k] == Str(LastOption(ts, k).value))
            && "options" in la
            && (LastOption(ts, "options").None? ==> la["options"] == Dict(map[]))
            && (forall k | k in la :: k in {"mode", "port", "options"} || LastOption(ts, k).Some?)
  {
    var la := LinuxBondSubtree(u);
    var ts := if u.bondingOptions != "" then BondOptionTokens(u.bondingOptions) else [];
    var la0 := map["mode" := Str("active-backup"), "port" := List([]), "options" := Dict(map[])];
    var la1 := if |u.members| > 0 then la0["port" := List(StrList(u.members))] else la0;
    assert StrList([]) == [];
    var base := if u.bondingOptions != "" then la1["options" := Dict(map[])] else la1;
    assert la == ApplyBondTokens(base, ts);
    ApplyBondTokensLast(base, ts, "mode");
    ApplyBondTokensLast(base, ts, "port");
    ApplyBondTokensLast(base, ts, "options");
    forall k | LastOption(ts, k).Some?
      ensures k in la && la[k] == Str(LastOption(ts, k).value)
    {
      ApplyBondTokensLast(base, ts, k);
    }
    forall k | k in la
      ensures k in {"mode", "port", "options"} || LastOption(ts, k).Some?
    {
      ApplyBondTokensLast(base, ts, k);
    }
  }

  /** A Linux bond always builds, as an `up` bond carrying its `link-aggregation` subtree. */
  lemma LinuxBondFragment(u: Unit, reg: Registries, macs: map<string, string>, reading: Reading)
    requires reg.Valid() && u.kind == LinuxBond
    ensures Build(u, reg, macs, reading).out.Ok?
    ensures var f := Build(u, reg, macs, reading).out.value;
            && "link-aggregation" in f && f["link-aggregation"] == Dict(LinuxBondSubtree(u))
            && "state" in f && f["state"] == Up
  {
    NonBridgeL3(u, reg, macs, reading);
    BuildSame(u, reg, macs, reading, "link-aggregation");
    BuildSame(u, reg, macs, reading, "state");
    PreL3Stages(u, reg, macs);
  }

  /**
    Options written out as `k1=v1 k2=v2 ...` are read back token by token, so
    the bond mode is the value of the last `mode`/`MODE` option written.
   */
  lemma LinuxBondModeFromOptions(u: Unit, ts: seq<(string, string)>)
    requires AllGood(ts) && u.bondingOptions == Render(ts)
    ensures "mode" in LinuxBondSubtree(u)
    ensures LinuxBondSubtree(u)["mode"] ==
              Str(if LastOption(ts, "mode").Some? then LastOption(ts, "mode").value else "active-backup")
  {
    LinuxBondSubtreeSpec(u);
    BondOptionTokensRoundTrip(ts);
  }
}

=== FILE: omap.dfy ===
/**
  Insertion-ordered mappings, the way Python dictionaries behave: iteration
  follows first insertion, and assigning to an existing key replaces its value
  in place without moving it.
 */
module OrderedMaps {

  datatype OMap<K(==, !new), V> = OMap(keys: seq<K>, vals: map<K, V>)
  {
    /** Every key is listed once, and exactly the listed keys have values. */
    ghost predicate Valid()
    {
      && (forall i, j | 0 <= i < j < |keys| :: keys[i] != keys[j])
      && (forall k :: k in vals <==> k in keys)
    }

    predicate Has(k: K)
    {
      k in vals
    }

    /** `d.get(k, default)`. */
    function Get(k: K, default: V): (v: V)
      ensures k in vals ==> v == vals[k]
      ensures k !in vals ==> v == default
    {
      if k in vals then vals[k] else default
    }

    /** `d[k] = v`. */
    function Put(k: K, v: V): (m: OMap<K, V>)
      requires Valid()
      ensures m.Valid()
      ensures m.vals == vals[k := v]
      ensures k in vals ==> m.keys == keys
      ensures k !in vals ==> m.keys == keys + [k]
    {
      if k in vals then OMap(keys, vals[k := v])
      else OMap(keys + [k], vals[k := v])
    }

    /** `list(d.items())`, in iteration order. */
    function Items(): (r: seq<(K, V)>)
      requires Valid()
      ensures |r| == |keys|
      ensures forall i | 0 <= i < |r| :: r[i] == (keys[i], vals[keys[i]])
    {
      seq(|keys|, i requires 0 <= i < |keys| => (keys[i], vals[keys[i]]))
    }
  }

  function Empty<K(==, !new), V>(): (m: OMap<K, V>)
    ensures m.Valid() && m.keys == [] && m.vals == map[]
  {
    OMap([], map[])
  }

  /** The items are exactly the key-value pairs of the mapping. */
  lemma ItemsHas<K(!new), V>(m: OMap<K, V>, k: K, v: V)
    requires m.Valid()
    ensures (k, v) in m.Items() <==> k in m.vals && m.vals[k] == v
  {
    if k in m.vals && m.vals[k] == v {
      var i :| 0 <= i < |m.keys| && m.keys[i] == k;
      assert m.Items()[i] == (k, v);
    }
  }
}

=== FILE: patterns.dfy ===
/**
  The text handling the desired-state builder relies on: Python's `\s`, `\w`
  and `\d` character classes, `str.strip`, `int()`, the VLAN-name pattern
  `\w+\.\d+$` (with `re.match`) and the bonding-option tokenizer
  `re.findall(r'(.+?)=(.+?)($|\s)', options)`.
 */
module Patterns {
  import opened Wrappers

  /** Python's whitespace: what `\s`, `str.strip()` and `int()` treat as space. */
  predicate IsSpace(c: char)
  {
    || c == ' '
    || ('\t' <= c <= '\r')
    || ('\U{1c}' <= c <= '\U{1f}')
    || c == '\U{85}' || c == '\U{a0}' || c == '\U{1680}'
    || ('\U{2000}' <= c <= '\U{200a}')
    || c == '\U{2028}' || c == '\U{2029}' || c == '\U{202f}' || c == '\U{205f}' || c == '\U{3000}'
  }

  predicate IsDigit(c: char) { '0' <= c <= '9' }

  predicate IsWordChar(c: char)
  {
    ('a' <= c <= 'z') || ('A' <= c <= 'Z') || IsDigit(c) || c == '_'
  }

  predicate AllDigits(s: string) { forall i | 0 <= i < |s| :: IsDigit(s[i]) }

  /** The value of a run of decimal digits. */
  function DecimalValue(s: string): nat
    requires AllDigits(s)
    decreases |s|
  {
    if s == [] then 0
    else DecimalValue(s[..|s| - 1]) * 10 + (s[|s| - 1] as int - '0' as int)
  }

  // ---------------------------------------------------------------------------
  // str.strip and int()
  // ---------------------------------------------------------------------------

  function LStrip(s: string, drop: char -> bool): (r: string)
    ensures r <= s || |r| <= |s|
    decreases |s|
  {
    if |s| > 0 && drop(s[0]) then LStrip(s[1..], drop) else s
  }

  function RStrip(s: string, drop: char -> bool): string
    decreases |s|
  {
    if |s| > 0 && drop(s[|s| - 1]) then RStrip(s[..|s| - 1], drop) else s
  }

  /** `s.strip(chars)` with `drop` the membership test for `chars`. */
  function Strip(s: string, drop: char -> bool): string
  {
    RStrip(LStrip(s, drop), drop)
  }

  /** `int(s)` on a string: optional surrounding space, optional sign, decimal digits. */
  function PyInt(s: string): Result<int, ()>
  {
    var t := Strip(s, IsSpace);
    if |t| > 0 && (t[0] == '+' || t[0] == '-') then
      (if |t| > 1 && AllDigits(t[1..]) then
         var n: int := DecimalValue(t[1..]);
         Ok(if t[0] == '-' then -n else n)
       else Err(()))
    else if |t| > 0 && AllDigits(t) then Ok(DecimalValue(t))
    else Err(())
  }

  /** `s[i:]` for any integer `i`, clamped the way Python slices are. */
  function PySliceFrom(s: string, i: int): string
  {
    if i < 0 then (if |s| + i < 0 then s else s[|s| + i..])
    else if i > |s| then ""
    else s[i..]
  }

  // ---------------------------------------------------------------------------
  // re.match(r'\w+\.\d+$', name)
  // ---------------------------------------------------------------------------

  /** Length of the longest prefix of word characters. */
  function WordPrefixLen(s: string): (n: nat)
    ensures n <= |s|
    ensures forall i | 0 <= i < n :: IsWordChar(s[i])
    ensures n < |s| ==> !IsWordChar(s[n])
    decreases |s|
  {
    if |s| > 0 && IsWordChar(s[0]) then 1 + WordPrefixLen(s[1..]) else 0
  }

  /** `$` without MULTILINE also matches just before one trailing newline. */
  function DropFinalNewline(s: string): string
  {
    if |s| > 0 && s[|s| - 1] == '\n' then s[..|s| - 1] else s
  }

  /** The name is `<word chars>.<digits>`, the whole of it. */
  predicate IsVlanName(name: string)
  {
    var i := WordPrefixLen(name);
    && 0 < i < |name| && name[i] == '.'
    && var d := DropFinalNewline(name[i + 1..]);
       |d| > 0 && AllDigits(d)
  }

  /** `name.split('.')[0]`: the base interface of a VLAN-shaped name. */
  function VlanBase(name: string): string
    requires IsVlanName(name)
  {
    name[..WordPrefixLen(name)]
  }

  /**
    `int(name.split('.')[1])`: the name has a single dot, and `int` ignores the
    trailing newline that `$` admits.
   */
  function VlanId(name: string): nat
    requires IsVlanName(name)
  {
    DecimalValue(DropFinalNewline(name[WordPrefixLen(name) + 1..]))
  }

  lemma {:induction false} WordPrefixOf(w: string, rest: string)
    requires forall i | 0 <= i < |w| :: IsWordChar(w[i])
    requires |rest| > 0 && !IsWordChar(rest[0])
    ensures WordPrefixLen(w + rest) == |w|
    decreases |w|
  {
    if |w| > 0 {
      assert (w + rest)[1..] == w[1..] + rest;
      WordPrefixOf(w[1..], rest);
    } else {
      assert w + rest == rest;
    }
  }

  /**
    A name made of word characters, a dot and digits, the whole of it (or
    followed by the one newline `$` tolerates), is VLAN-shaped; its base is the
    part before the dot and its id the value of the digits.
   */
  lemma VlanNameFrom(w: string, r: string)
    requires |w| > 0 && forall i | 0 <= i < |w| :: IsWordChar(w[i])
    requires |DropFinalNewline(r)| > 0 && AllDigits(DropFinalNewline(r))
    ensures IsVlanName(w + "." + r)
    ensures VlanBase(w + "." + r) == w && VlanId(w + "." + r) == DecimalValue(DropFinalNewline(r))
  {
    var name := w + "." + r;
    assert name == w + ("." + r);
    WordPrefixOf(w, "." + r);
    assert name[|w|] == '.';
    assert name[|w| + 1..] == r;
    assert name[..|w|] == w;
  }

  /** Conversely, every VLAN-shaped name is its base, a dot and its digits. */
  lemma VlanNameParts(name: string)
    requires IsVlanName(name)
    ensures var i := WordPrefixLen(name);
            var d := DropFinalNewline(name[i + 1..]);
            name == VlanBase(name) + "." + d || name == VlanBase(name) + "." + d + "\n"
  {
    var i := WordPrefixLen(name);
    var r := name[i + 1..];
    var b := VlanBase(name);
    assert name == b + "." + r by {
      assert name == name[..i] + [name[i]] + r;
    }
    var d := DropFinalNewline(r);
    DropFinalNewlineParts(r);
    if r != d {
      assert b + "." + (d + "\n") == b + "." + d + "\n";
    }
  }

  lemma DropFinalNewlineParts(r: string)
    ensures r == DropFinalNewline(r) || r == DropFinalNewline(r) + "\n"
  {
    if |r| > 0 && r[|r| - 1] == '\n' {
      assert r == r[..|r| - 1] + [r[|r| - 1]];
    }
  }

  // ---------------------------------------------------------------------------
  // re.findall(r'(.+?)=(.+?)($|\s)', options)
  // ---------------------------------------------------------------------------

  /**
    Group 2 `(.+?)` starting at `q`, tried with the end `j` growing (lazy), then
    `($|\s)`: `$` at the end of the text or before a final newline, otherwise a
    consumed whitespace character.  Yields the group end and the match end.
   */
  function ValueEnd(s: string, q: nat, j: nat): (r: Option<(nat, nat)>)
    requires q < j
    ensures r.Some? ==> q < r.value.0 <= r.value.1 <= |s|
    decreases |s| - j
  {
    if j > |s| then None
    else if s[j - 1] == '\n' then None   // `.` does not match a newline
    else if j == |s| || (j == |s| - 1 && s[j] == '\n') then Some((j, j))
    else if IsSpace(s[j]) then Some((j, j + 1))
    else ValueEnd(s, q, j + 1)
  }

  /**
    Group 1 `(.+?)` starting at `p` and ending at `i` (lazy, growing), then `=`
    and group 2.  Yields the `=` position, the group 2 end and the match end.
   */
  function MatchFrom(s: string, p: nat, i: nat): (r: Option<(nat, nat, nat)>)
    requires p < i
    ensures r.Some? ==> p < r.value.0 && r.value.0 + 1 < r.value.1 <= r.value.2 <= |s|
    ensures r.Some? ==> s[r.value.0] == '='
    decreases |s| - i
  {
    if i >= |s| then None
    else if s[i - 1] == '\n' then None
    else if s[i] == '=' then
      match ValueEnd(s, i + 1, i + 2)
      case Some((j, e)) => Some((i, j, e))
      case None => MatchFrom(s, p, i + 1)
    else MatchFrom(s, p, i + 1)
  }

  /** All non-overlapping matches from position `p` on, as (key, value) pairs. */
  function FindAll(s: string, p: nat): seq<(string, string)>
    decreases |s| - p
  {
    if p >= |s| then []
    else
      match MatchFrom(s, p, p + 1)
      case Some((i, j, e)) => [(s[p..i], s[i + 1..j])] + FindAll(s, e)
      case None => FindAll(s, p + 1)
  }

  /** The `key=value` tokens of a bonding-options string, in order. */
  function BondOptionTokens(options: string): (r: seq<(string, string)>)
    ensures forall t | t in r :: |t.0| > 0 && |t.1| > 0
  {
    FindAllTokensNonEmpty(options, 0);
    FindAll(options, 0)
  }

  lemma {:induction false} FindAllTokensNonEmpty(s: string, p: nat)
    ensures forall t | t in FindAll(s, p) :: |t.0| > 0 && |t.1| > 0
    decreases |s| - p
  {
    if p < |s| {
      match MatchFrom(s, p, p + 1)
      case Some((i, j, e)) => FindAllTokensNonEmpty(s, e);
      case None => FindAllTokensNonEmpty(s, p + 1);
    }
  }

  // ---------------------------------------------------------------------------
  // The tokenizer reads back what a space-separated `key=value` list says
  // ---------------------------------------------------------------------------

  predicate GoodKey(k: string)
  {
    |k| > 0 && forall i | 0 <= i < |k| :: k[i] != '=' && k[i] != '\n'
  }

  predicate GoodValue(v: string)
  {
    |v| > 0 && forall i | 0 <= i < |v| :: !IsSpace(v[i])
  }

  /** Every token has a good key and a good value. */
  predicate AllGood(ts: seq<(string, string)>)
    decreases |ts|
  {
    ts == [] || (GoodKey(ts[0].0) && GoodValue(ts[0].1) && AllGood(ts[1..]))
  }

  /** `k1=v1 k2=v2 ...`, single spaces between tokens. */
  function Render(ts: seq<(string, string)>): string
    decreases |ts|
  {
    if ts == [] then ""
    else if |ts| == 1 then ts[0].0 + "=" + ts[0].1
    else ts[0].0 + "=" + ts[0].1 + " " + Render(ts[1..])
  }

  lemma {:induction false} ValueEndAt(s: string, q: nat, j: nat, n: nat)
    requires q < j <= n <= |s|
    requires forall t | q <= t < n :: !IsSpace(s[t])
    requires n == |s| || s[n] == ' '
    ensures ValueEnd(s, q, j) == Some((n, if n == |s| then n else n + 1))
    decreases n - j
  {
    assert !IsSpace(s[j - 1]);
    if j < n {
      assert !IsSpace(s[j]);
      ValueEndAt(s, q, j + 1, n);
    }
  }

  lemma {:induction false} MatchFromAt(s: string, p: nat, i: nat, m: nat)
    requires p < i <= m < |s|
    requires forall t | p <= t < m :: s[t] != '=' && s[t] != '\n'
    requires s[m] == '='
    requires ValueEnd(s, m + 1, m + 2).Some?
    ensures MatchFrom(s, p, i) == Some((m, ValueEnd(s, m + 1, m + 2).value.0, ValueEnd(s, m + 1, m + 2).value.1))
    decreases m - i
  {
    if i < m {
      MatchFromAt(s, p, i + 1, m);
    }
  }

  /** Where the parts of `k=v<rest>` sit once it is placed at `p`. */
  lemma TokenLayout(s: string, p: nat, k: string, v: string, rest: string)
    requires p <= |s| && s[p..] == k + "=" + v + rest
    ensures p + |k| + 1 + |v| + |rest| == |s|
    ensures s[p + |k|] == '='
    ensures s[p..p + |k|] == k
    ensures s[p + |k| + 1..p + |k| + 1 + |v|] == v
    ensures s[p + |k| + 1 + |v|..] == rest
  {
    var x := s[p..];
    assert forall t | 0 <= t < |x| :: x[t] == s[p + t];
    assert x[|k|] == '=';
  }

  lemma KeyRun(s: string, p: nat, m: nat, k: string)
    requires p <= m <= |s| && s[p..m] == k && GoodKey(k)
    ensures forall t | p <= t < m :: s[t] != '=' && s[t] != '\n'
  {
    forall t | p <= t < m
      ensures s[t] != '=' && s[t] != '\n'
    {
      assert s[t] == s[p..m][t - p];
    }
  }

  lemma ValueRun(s: string, q: nat, n: nat, v: string)
    requires q <= n <= |s| && s[q..n] == v && GoodValue(v)
    ensures forall t | q <= t < n :: !IsSpace(s[t])
  {
    forall t | q <= t < n
      ensures !IsSpace(s[t])
    {
      assert s[t] == s[q..n][t - q];
    }
  }

  /** The match the scan finds at `p` when the token `k=v` is placed there. */
  lemma TokenMatch(s: string, p: nat, k: string, v: string, rest: string)
    requires p <= |s| && s[p..] == k + "=" + v + rest
    requires GoodKey(k) && GoodValue(v)
    requires rest == [] || rest[0] == ' '
    ensures var m := p + |k|;
            var n := m + 1 + |v|;
            && n <= |s|
            && MatchFrom(s, p, p + 1) == Some((m, n, if rest == [] then n else n + 1))
            && s[p..m] == k && s[m + 1..n] == v && s[n..] == rest
  {
    var m := p + |k|;
    var n := m + 1 + |v|;
    TokenLayout(s, p, k, v, rest);
    KeyRun(s, p, m, k);
    ValueRun(s, m + 1, n, v);
    assert n == |s| || s[n] == ' ' by {
      if rest != [] {
        assert s[n] == s[n..][0];
      }
    }
    ValueEndAt(s, m + 1, m + 2, n);
    MatchFromAt(s, p, p + 1, m);
  }

  /** The first match from `p` is the token placed there. */
  lemma FirstToken(s: string, p: nat, k: string, v: string, rest: string)
    requires p <= |s| && s[p..] == k + "=" + v + rest
    requires GoodKey(k) && GoodValue(v)
    requires rest == [] || rest[0] == ' '
    ensures var n := p + |k| + 1 + |v|;
            FindAll(s, p) == [(k, v)] + FindAll(s, if rest == [] then n else n + 1)
    ensures s[p + |k| + 1 + |v|..] == rest
  {
    TokenMatch(s, p, k, v, rest);
    FindAllAt(s, p);
  }

  /** One step of the scan at a position where a match starts. */
  lemma FindAllAt(s: string, p: nat)
    requires p < |s| && MatchFrom(s, p, p + 1).Some?
    ensures var r := MatchFrom(s, p, p + 1).value;
            FindAll(s, p) == [(s[p..r.0], s[r.0 + 1..r.1])] + FindAll(s, r.2)
  {
  }

  lemma RenderCons(ts: seq<(string, string)>)
    requires |ts| > 1
    ensures Render(ts) == ts[0].0 + "=" + ts[0].1 + (" " + Render(ts[1..]))
  {
  }

  /** A token followed by a space and more text: the scan resumes after the space. */
  lemma NextToken(s: string, p: nat, k: string, v: string, r: string, q: nat)
    requires p <= |s| && s[p..] == k + "=" + v + (" " + r)
    requires GoodKey(k) && GoodValue(v)
    requires q == p + |k| + |v| + 2
    ensures q <= |s| && s[q..] == r
    ensures FindAll(s, p) == [(k, v)] + FindAll(s, q)
  {
    var n := p + |k| + 1 + |v|;
    FirstToken(s, p, k, v, " " + r);
    assert s[n + 1..] == s[n..][1..];
  }

  lemma {:induction false} FindAllRender(s: string, p: nat, ts: seq<(string, string)>)
    requires p <= |s| && s[p..] == Render(ts)
    requires AllGood(ts)
    ensures FindAll(s, p) == ts
    decreases |ts|, 1
  {
    if ts == [] {
    } else if |ts| == 1 {
      var k, v := ts[0].0, ts[0].1;
      assert Render(ts) == k + "=" + v + "";
      FirstToken(s, p, k, v, "");
    } else {
      RenderCons(ts);
      FindAllRenderStep(s, p, ts[0].0, ts[0].1, ts[1..]);
      assert ts == [(ts[0].0, ts[0].1)] + ts[1..];
    }
  }

  lemma {:induction false} FindAllRenderStep(s: string, p: nat, k: string, v: string, tail: seq<(string, string)>)
    requires p <= |s| && s[p..] == k + "=" + v + (" " + Render(tail))
    requires GoodKey(k) && GoodValue(v) && AllGood(tail)
    ensures FindAll(s, p) == [(k, v)] + tail
    decreases |tail| + 1, 0
  {
    var q := p + |k| + |v| + 2;
    NextToken(s, p, k, v, Render(tail), q);
    FindAllRender(s, q, tail);
  }

  /**
    Tokenizing a rendered `key=value` list gives the list back: keys without
    `=` or newline, values without whitespace.
   */
  lemma BondOptionTokensRoundTrip(ts: seq<(string, string)>)
    requires AllGood(ts)
    ensures BondOptionTokens(Render(ts)) == ts
  {
    FindAllRender(Render(ts), 0, ts);
  }
}

=== FILE: planner.dfy ===
/**
  `apply`: compare every stored fragment with what the state library reports
  as running, collect what must change, then act: clean up stale interface
  files, hand the changes to the state library, rename interfaces, write the
  route files, stop DHCP clients and set OVS active slaves.

  The world is an `Oracles` value: the running state, the route-file paths
  and whether each file's content differs, the files the cleanup glob finds,
  and which requests the state library refuses.  What `apply` does to the
  world is returned as an ordered trace of `Effect`s.
 */
module Planner {
  import opened Wrappers
  import opened PyJson
  import opened Patterns
  import opened OrderedMaps
  import opened Subset
  import opened Builder
  import opened Provider

  /**
    An item of the list handed to `set_routes`: the interface and bridge loops
    add single route entries, the team, bond and VLAN loops add
    `(name, route file content)` pairs.
   */
  datatype RouteItem = Entry(route: Json) | Keyed(name: string, data: Json)

  datatype Effect =
    | IfDown(iface: string)
    | RemoveConfig(path: string)
    | SetIfaces(state: Json)               // `set_ifaces(...)`: the value placed under `interfaces`
    | SetRoutes(routes: seq<RouteItem>)
    | Rename(oldName: string, newName: string)
    | WriteConfig(path: string, data: Json)
    | StopDhclient(iface: string)
    | SetActiveSlave(bond: string, primary: string)

  datatype Oracles = Oracles(
    ifaceState: string -> seq<Json>,       // `iface_state(name)`: running interfaces of that name
    routeState: string -> seq<Json>,       // `route_state(name)`: running routes through that interface
    routePath: string -> string,           // `root_dir + route_config_path(name)`
    route6Path: string -> string,          // `root_dir + route6_config_path(name)`
    differs: (string, Json) -> bool,       // `utils.diff(path, data)`
    cleanupPattern: string,                // `cleanup_pattern()`
    ifcfgFiles: seq<string>,               // what the cleanup glob finds, in order
    rejectsIfaces: Json -> bool,           // `set_ifaces` raises for this `interfaces` value
    rejectsRoutes: seq<RouteItem> -> bool, // `set_routes` raises for these routes
    priorErrors: bool)                     // `self.errors` is non-empty

  datatype ApplyError =
    | ComparisonRaised(name: string)       // `is_dict_subset` raised on this unit or its routes
    | RoutesUnbound                        // `routes_data` read before any assignment
    | DhcpLookupRaised(name: string)       // `team_data['ipv4']['dhcp']` on a non-mapping
    | VlanRejected(name: string)           // the `ConfigurationError`s of the activation phase
    | IfacesRejected
    | RoutesRejected
    | PriorFailures

  // ---------------------------------------------------------------------------
  // Comparing desired and running state
  // ---------------------------------------------------------------------------

  /**
    The value a fragment is compared with: as written, the whole list
    `iface_state(name)` returns; as intended, the running interface itself
    (`None` when nothing of that name runs).
   */
  function Observed(reading: Reading, running: seq<Json>): Json
  {
    if reading == AsWritten then List(running)
    else if |running| > 0 then running[0] else Null
  }

  function UnitVerdict(o: Oracles, reading: Reading, name: string, f: Frag): Verdict
  {
    IsDictSubset(Observed(reading, o.ifaceState(name)), Dict(f))
  }

  /**
    As written, a route entry is compared with the whole list of running
    routes; as intended, it is satisfied when some running route satisfies it.
   */
  function RouteVerdict(o: Oracles, reading: Reading, name: string, r: Json): Verdict
  {
    var cur := o.routeState(name);
    if reading == AsWritten then IsDictSubset(List(cur), r)
    else if exists i | 0 <= i < |cur| :: IsDictSubset(cur[i], r) == Holds then Holds
    else Fails
  }

  /** `if not is_dict_subset(...)`: enqueue on `False`; an exception ends `apply`. */
  function Enqueued(v: Verdict, name: string): (r: Result<bool, ApplyError>)
    ensures r == Ok(true) <==> v == Fails
    ensures r == Ok(false) <==> v == Holds
  {
    match v
    case Holds => Ok(false)
    case Fails => Ok(true)
    case Raises => Err(ComparisonRaised(name))
  }

  /** `self.route_data.get(name, '')`. */
  function RoutesData(rd: OMap<string, seq<Json>>, name: string): Json
  {
    if name in rd.vals then List(rd.vals[name]) else Str("")
  }

  /** What `for route_data in routes_data` visits (nothing for the `''` default). */
  function RouteEntriesOf(data: Json): seq<Json>
  {
    if data.List? then data.items else []
  }

  /** The route entries of one unit that are not yet satisfied, in order. */
  function PendingRoutes(o: Oracles, reading: Reading, name: string, rs: seq<Json>): Result<seq<RouteItem>, ApplyError>
    decreases |rs|
  {
    if rs == [] then Ok([])
    else
      var enq :- Enqueued(RouteVerdict(o, reading, name, rs[0]), name);
      var rest :- PendingRoutes(o, reading, name, rs[1..]);
      Ok((if enq then [Entry(rs[0])] else []) + rest)
  }

  /**
    Where a loop takes the route entries it compares: each unit's own, or one
    fixed value for every unit (`None`: a variable that was never assigned).
   */
  datatype RouteSource = Own(rd: OMap<string, seq<Json>>) | Fixed(data: Option<Json>)

  function RoutesFor(src: RouteSource, name: string): Option<Json>
  {
    match src
    case Own(rd) => Some(RoutesData(rd, name))
    case Fixed(d) => d
  }

  datatype Compared = Compared(apply: seq<(string, Frag)>, routes: seq<RouteItem>)

  /** The units whose comparison comes out `False`, in their original order. */
  ghost function Failing(o: Oracles, reading: Reading, items: seq<(string, Frag)>): seq<(string, Frag)>
    decreases |items|
  {
    if items == [] then []
    else
      (if UnitVerdict(o, reading, items[0].0, items[0].1) == Fails then [items[0]] else [])
        + Failing(o, reading, items[1..])
  }

  /** The interface loop and the bridge loop: enqueue unsatisfied units and unsatisfied route entries. */
  function CompareLoop(o: Oracles, reading: Reading, src: RouteSource, items: seq<(string, Frag)>): (r: Result<Compared, ApplyError>)
    ensures r.Ok? ==> r.value.apply == Failing(o, reading, items)
    decreases |items|
  {
    if items == [] then Ok(Compared([], []))
    else
      var name := items[0].0;
      var enq :- Enqueued(UnitVerdict(o, reading, name, items[0].1), name);
      var data :- match RoutesFor(src, name) case Some(d) => Ok(d) case None => Err(RoutesUnbound);
      var rs :- PendingRoutes(o, reading, name, RouteEntriesOf(data));
      var rest :- CompareLoop(o, reading, src, items[1..]);
      Ok(Compared((if enq then [items[0]] else []) + rest.apply, rs + rest.routes))
  }

  /**
    `stop_dhclient_interfaces` takes an enqueued unit unless its `ipv4` sets
    `dhcp` to something whose `str` is not `'False'`.
   */
  function StopsDhclient(name: string, f: Frag): Result<bool, ApplyError>
  {
    if "ipv4" !in f then Ok(true)
    else
      match Contains(f["ipv4"], Str("dhcp"))
      case Err(_) => Err(DhcpLookupRaised(name))
      case Ok(found) =>
        if !found then Ok(true)
        else if f["ipv4"].Dict? then Ok(PyStrIsFalse(f["ipv4"].fields["dhcp"]))
        else Err(DhcpLookupRaised(name))
  }

  datatype Kept = Kept(
    apply: seq<(string, Frag)>,
    stops: seq<string>,
    routes: seq<RouteItem>,
    fileNames: seq<string>,
    writes: seq<(string, Json)>)

  /**
    The team, bond and VLAN loops: as the interface loop, and also record both
    route-file paths, queue DHCP-client stops, and queue a route file (and its
    content for `set_routes`) whenever it differs from what is on disk.  The
    IPv6 route content is always `''`: nothing ever fills `route6_data`.
   */
  function KeptLoop(o: Oracles, reading: Reading, rd: OMap<string, seq<Json>>, items: seq<(string, Frag)>): (r: Result<Kept, ApplyError>)
    ensures r.Ok? ==> r.value.apply == Failing(o, reading, items)
    decreases |items|
  {
    if items == [] then Ok(Kept([], [], [], [], []))
    else
      var one :- KeptOne(o, reading, rd, items[0].0, items[0].1);
      var rest :- KeptLoop(o, reading, rd, items[1..]);
      Ok(Kept(one.apply + rest.apply, one.stops + rest.stops, one.routes + rest.routes,
              one.fileNames + rest.fileNames, one.writes + rest.writes))
  }

  /** One pass of the team, bond and VLAN loops. */
  function KeptOne(o: Oracles, reading: Reading, rd: OMap<string, seq<Json>>, name: string, f: Frag): Result<Kept, ApplyError>
  {
    var enq :- Enqueued(UnitVerdict(o, reading, name, f), name);
    var stop :- if enq then StopsDhclient(name, f) else Ok(false);
    var data := RoutesData(rd, name);
    var p4, p6 := o.routePath(name), o.route6Path(name);
    var d4, d6 := o.differs(p4, data), o.differs(p6, Str(""));
    Ok(Kept(
      if enq then [(name, f)] else [],
      if stop then [name] else [],
      (if d4 then [Keyed(name, data)] else []) + (if d6 then [Keyed(name, Str(""))] else []),
      [p4, p6],
      (if d4 then [(p4, data)] else []) + (if d6 then [(p6, Str(""))] else [])))
  }

  /** `update_files[path] = data` for each write, in order. */
  function PutAll(m: OMap<string, Json>, ws: seq<(string, Json)>): (r: OMap<string, Json>)
    requires m.Valid()
    ensures r.Valid()
    decreases |ws|
  {
    if ws == [] then m else PutAll(m.Put(ws[0].0, ws[0].1), ws[1..])
  }

  /** Everything the comparison loops decide, before anything is done. */
  datatype Plan = Plan(
    bridges: seq<(string, Frag)>,
    interfaces: seq<(string, Frag)>,
    vlans: seq<(string, Frag)>,
    bonds: seq<(string, Frag)>,
    teams: seq<(string, Frag)>,
    routes: seq<RouteItem>,
    stops: seq<string>,
    fileNames: seq<string>,
    updateFiles: OMap<string, Json>)

  /**
    The routes the bridge loop iterates: as written, the variable the interface
    loop left behind, which holds the last interface's routes and is unbound
    when there are no interfaces; as intended, each bridge's own.
   */
  function BridgeRouteSource(s: Session, reading: Reading): RouteSource
    requires s.Valid()
  {
    if reading == Intended then Own(s.routeData)
    else if |s.interfaceData.keys| == 0 then Fixed(None)
    else Fixed(Some(RoutesData(s.routeData, s.interfaceData.keys[|s.interfaceData.keys| - 1])))
  }

  /**
    The comparison loops, in source order.  A plan applies, bucket by bucket,
    exactly the stored units whose comparison comes out `False`, in storage
    order.
   */
  function MakePlan(s: Session, o: Oracles, reading: Reading): (r: Result<Plan, ApplyError>)
    requires s.Valid()
    ensures r.Ok? ==> r.value.updateFiles.Valid()
    ensures r.Ok? ==>
              && r.value.interfaces == Failing(o, reading, s.interfaceData.Items())
              && r.value.bridges == Failing(o, reading, s.bridgeData.Items())
              && r.value.vlans == Failing(o, reading, s.vlanData.Items())
              && r.value.bonds == Failing(o, reading, s.linuxbondData.Items())
              && r.value.teams == Failing(o, reading, s.linuxteamData.Items())
  {
    var ifs :- CompareLoop(o, reading, Own(s.routeData), s.interfaceData.Items());
    var brs :- CompareLoop(o, reading, BridgeRouteSource(s, reading), s.bridgeData.Items());
    var teams :- KeptLoop(o, reading, s.routeData, s.linuxteamData.Items());
    var bonds :- KeptLoop(o, reading, s.routeData, s.linuxbondData.Items());
    var vlans :- KeptLoop(o, reading, s.routeData, s.vlanData.Items());
    Ok(Plan(brs.apply, ifs.apply, vlans.apply, bonds.apply, teams.apply,
            ifs.routes + brs.routes + teams.routes + bonds.routes + vlans.routes,
            teams.stops + bonds.stops + vlans.stops,
            teams.fileNames + bonds.fileNames + vlans.fileNames,
            PutAll(Empty(), teams.writes + bonds.writes + vlans.writes)))
  }

  // ---------------------------------------------------------------------------
  // Acting
  // ---------------------------------------------------------------------------

  /** The interface name a cleanup file stands for: the file name past the pattern's wildcard. */
  function CleanupName(o: Oracles, file: string): string
  {
    PySliceFrom(file, |o.cleanupPattern| - 1)
  }

  /** Take down and remove every interface file this run did not record, except loopback's. */
  function CleanupEffects(o: Oracles, keep: seq<string>, files: seq<string>): seq<Effect>
    decreases |files|
  {
    if files == [] then []
    else
      var f := files[0];
      var iname := CleanupName(o, f);
      (if f !in keep && iname != "lo" then [IfDown(iname), RemoveConfig(f)] else [])
        + CleanupEffects(o, keep, files[1..])
  }

  function Frags(xs: seq<(string, Frag)>): (r: seq<Json>)
    ensures |r| == |xs|
  {
    seq(|xs|, i requires 0 <= i < |xs| => Dict(xs[i].1))
  }

  /** The single batch: bridges, interfaces, VLANs, Linux bonds, teams. */
  function Batch(p: Plan): seq<Json>
  {
    Frags(p.bridges) + Frags(p.interfaces) + Frags(p.vlans) + Frags(p.bonds) + Frags(p.teams)
  }

  /**
    The per-VLAN `set_ifaces(vlan[0], vlan[1])` calls, which pass the VLAN's
    name where the state is expected; the first refusal ends the loop.
   */
  function VlanCalls(o: Oracles, vlans: seq<(string, Frag)>): (r: (seq<Effect>, Option<string>))
    decreases |vlans|
  {
    if vlans == [] then ([], None)
    else
      var e := SetIfaces(Str(vlans[0].0));
      if o.rejectsIfaces(Str(vlans[0].0)) then ([e], Some(vlans[0].0))
      else
        var rest := VlanCalls(o, vlans[1..]);
        ([e] + rest.0, rest.1)
  }

  function Renames(items: seq<(string, string)>): (t: seq<Effect>)
    ensures |t| == |items|
  {
    seq(|items|, i requires 0 <= i < |items| => Rename(items[i].0, items[i].1))
  }

  function Writes(items: seq<(string, Json)>): (t: seq<Effect>)
    ensures |t| == |items|
  {
    seq(|items|, i requires 0 <= i < |items| => WriteConfig(items[i].0, items[i].1))
  }

  function Stops(names: seq<string>): (t: seq<Effect>)
    ensures |t| == |names|
  {
    seq(|names|, i requires 0 <= i < |names| => StopDhclient(names[i]))
  }

  function ActiveSlaves(items: seq<(string, string)>): (t: seq<Effect>)
    ensures |t| == |items|
  {
    seq(|items|, i requires 0 <= i < |items| => SetActiveSlave(items[i].0, items[i].1))
  }

  datatype Step = Step(trace: seq<Effect>, err: Option<ApplyError>)

  /** The activation block before the files are written. */
  function Activate(s: Session, o: Oracles, p: Plan, noop: bool): Step
    requires s.Valid()
  {
    if noop then Step(Renames(s.renamed.Items()), None)
    else
      var vc := VlanCalls(o, p.vlans);
      if vc.1.Some? then Step(vc.0, Some(VlanRejected(vc.1.value)))
      else
        var batch := List(Batch(p));
        var t1 := vc.0 + [SetIfaces(batch)];
        if o.rejectsIfaces(batch) then Step(t1, Some(IfacesRejected))
        else
          var t2 := t1 + [SetRoutes(p.routes)];
          if o.rejectsRoutes(p.routes) then Step(t2, Some(RoutesRejected))
          else Step(t2 + Renames(s.renamed.Items()), None)
  }

  /** What `apply` did, and what it returned or raised. */
  datatype Run = Run(trace: seq<Effect>, out: Result<OMap<string, Json>, ApplyError>)

  /**
    Everything `apply` does once the plan stands.  A run that returns, returns
    `update_files`; without activation it always returns; with activation,
    errors recorded earlier always make it raise.
   */
  function Act(s: Session, o: Oracles, p: Plan, cleanup: bool, activate: bool, noop: bool): (r: Run)
    requires s.Valid() && p.updateFiles.Valid()
    ensures r.out.Ok? ==> r.out.value == p.updateFiles
    ensures !activate ==> r.out == Ok(p.updateFiles)
    ensures activate && o.priorErrors ==> r.out.Err?
  {
    var t0 := if cleanup then CleanupEffects(o, p.fileNames, o.ifcfgFiles) else [];
    var a := if activate then Activate(s, o, p, noop) else Step([], None);
    if a.err.Some? then Run(t0 + a.trace, Err(a.err.value))
    else
      var t1 := t0 + a.trace + Writes(p.updateFiles.Items());
      var t2 := if activate && !noop then Stops(p.stops) + ActiveSlaves(s.reg.bondPrimary.Items()) else [];
      if activate && o.priorErrors then Run(t1 + t2, Err(PriorFailures))
      else Run(t1 + t2, Ok(p.updateFiles))
  }

  /**
    `apply(cleanup, activate)` on a provider in `noop` mode or not.  Every
    comparison comes before every effect: a comparison that raises ends the
    run with nothing done.  A run that returns, returns the plan's
    `update_files`, and without activation every completed comparison phase
    returns.
   */
  function Apply(s: Session, o: Oracles, reading: Reading, cleanup: bool, activate: bool, noop: bool): (r: Run)
    requires s.Valid()
    ensures MakePlan(s, o, reading).Err? ==> r.trace == [] && r.out == Err(MakePlan(s, o, reading).error)
    ensures r.out.Ok? ==> MakePlan(s, o, reading).Ok? && r.out.value == MakePlan(s, o, reading).value.updateFiles
    ensures MakePlan(s, o, reading).Ok? && !activate ==> r.out.Ok?
  {
    match MakePlan(s, o, reading)
    case Err(e) => Run([], Err(e))
    case Ok(p) => Act(s, o, p, cleanup, activate, noop)
  }
}

=== FILE: provider.dfy ===
/**
  The provider object between configuration and `apply`: per-kind buckets of
  built fragments, the recorded route entries, the rename table and the
  builder's side registries, filled by the `add_*` calls in the order the
  configuration lists its units; plus `child_members`, the transitive closure
  of the member registry.
 */
module Provider {
  import opened Wrappers
  import opened PyJson
  import opened Patterns
  import opened OrderedMaps
  import opened Units
  import opened Builder
  import opened Routes

  datatype Session = Session(
    interfaceData: OMap<string, Frag>,
    vlanData: OMap<string, Frag>,
    bridgeData: OMap<string, Frag>,
    linuxbondData: OMap<string, Frag>,
    linuxteamData: OMap<string, Frag>,
    routeData: OMap<string, seq<Json>>,
    renamed: OMap<string, string>,   // `renamed_interfaces`: hardware name to configured name
    reg: Registries)
  {
    ghost predicate Valid()
    {
      && interfaceData.Valid() && vlanData.Valid() && bridgeData.Valid()
      && linuxbondData.Valid() && linuxteamData.Valid()
      && routeData.Valid() && renamed.Valid() && reg.Valid()
    }
  }

  /** The state of a newly created provider: everything empty. */
  function Fresh(): (s: Session)
    ensures s.Valid()
    ensures s.interfaceData.keys == [] && s.vlanData.keys == [] && s.bridgeData.keys == []
    ensures s.linuxbondData.keys == [] && s.linuxteamData.keys == []
    ensures s.routeData.keys == [] && s.renamed.keys == []
    ensures s.reg.memberNames.keys == [] && s.reg.bondPrimary.keys == []
    ensures StoresNamed(s)
  {
    Session(Empty(), Empty(), Empty(), Empty(), Empty(), Empty(), Empty(), Registries(Empty(), Empty()))
  }

  /** The bucket an `add_*` call stores its fragment in. */
  datatype Bucket = Interfaces | Vlans | Bridges | LinuxBonds | LinuxTeams

  function BucketOf(s: Session, b: Bucket): OMap<string, Frag>
  {
    match b
    case Interfaces => s.interfaceData
    case Vlans => s.vlanData
    case Bridges => s.bridgeData
    case LinuxBonds => s.linuxbondData
    case LinuxTeams => s.linuxteamData
  }

  /** `self.<bucket>_data[name] = data`. */
  function Store(s: Session, b: Bucket, name: string, f: Frag): (r: Session)
    requires s.Valid()
    ensures r.Valid()
    ensures BucketOf(r, b) == BucketOf(s, b).Put(name, f)
    ensures forall b' | b' != b :: BucketOf(r, b') == BucketOf(s, b')
    ensures r.routeData == s.routeData && r.renamed == s.renamed && r.reg == s.reg
  {
    match b
    case Interfaces => s.(interfaceData := s.interfaceData.Put(name, f))
    case Vlans => s.(vlanData := s.vlanData.Put(name, f))
    case Bridges => s.(bridgeData := s.bridgeData.Put(name, f))
    case LinuxBonds => s.(linuxbondData := s.linuxbondData.Put(name, f))
    case LinuxTeams => s.(linuxteamData := s.linuxteamData.Put(name, f))
  }

  /** `if unit.routes: self._add_routes(unit.name, unit.routes)`. */
  function WithRoutes(s: Session, name: string, routes: seq<Route>): (r: Session)
    requires s.Valid()
    ensures r.Valid()
  {
    if |routes| > 0 then s.(routeData := AddRoutes(s.routeData, name, routes)) else s
  }

  /**
    What an `add_*` call leaves behind: the provider as it stands afterwards,
    and the exception the call raised, if any.  A raising call keeps the
    registry writes the builder made before raising.
   */
  datatype Outcome = Outcome(s: Session, err: Option<BuildError>)

  /**
    `o` is what recording `built` under `name` in bucket `b` leaves behind: the
    registries the build left; on success, the fragment stored under `name` in
    bucket `b` and, when the unit has routes, its route entries replacing any
    recorded before; on failure, the build's error and nothing stored.  No
    other bucket changes.
   */
  ghost predicate Recorded(s: Session, b: Bucket, name: string, routes: seq<Route>, built: Built, o: Outcome)
    requires s.Valid()
  {
    && o.s.reg == built.reg
    && (o.err.None? <==> built.out.Ok?)
    && (built.out.Ok? ==> BucketOf(o.s, b) == BucketOf(s, b).Put(name, built.out.value))
    && (built.out.Err? ==> o.err == Some(built.out.error) && BucketOf(o.s, b) == BucketOf(s, b))
    && (forall b' | b' != b :: BucketOf(o.s, b') == BucketOf(s, b'))
    && (built.out.Ok? && |routes| > 0 ==> o.s.routeData.vals == s.routeData.vals[name := RouteEntries(name, routes)])
    && (built.out.Err? || |routes| == 0 ==> o.s.routeData == s.routeData)
  }

  /** Keep the registries a build left, then store its fragment and routes if it succeeded. */
  function Record(s: Session, b: Bucket, name: string, routes: seq<Route>, built: Built): (o: Outcome)
    requires s.Valid() && built.reg.Valid()
    ensures o.s.Valid()
  {
    var s1 := s.(reg := built.reg);
    match built.out
    case Err(e) => Outcome(s1, Some(e))
    case Ok(f) => Outcome(WithRoutes(Store(s1, b, name, f), name, routes), None)
  }

  /** Build the unit, then store its fragment and its routes. */
  function AddUnit(s: Session, b: Bucket, u: Unit, macs: map<string, string>, reading: Reading): (o: Outcome)
    requires s.Valid()
    ensures o.s.Valid()
    ensures Recorded(s, b, u.name, u.routes, Build(u, s.reg, macs, reading), o)
    ensures o.s.renamed == s.renamed
  {
    var built := Build(u, s.reg, macs, reading);
    RecordStores(s, b, u.name, u.routes, built);
    Record(s, b, u.name, u.routes, built)
  }

  /**
    `add_interface`: the interface's build is recorded in the interface
    bucket, and a rename from its hardware name to its configured name is
    recorded exactly when it is added and renamed.
   */
  function AddInterface(s: Session, u: Unit, macs: map<string, string>, reading: Reading): (o: Outcome)
    requires s.Valid()
    ensures o.s.Valid()
    ensures Recorded(s, Interfaces, u.name, u.routes, Build(u, s.reg, macs, reading), o)
    ensures o.err.None? && u.renamed ==> o.s.renamed.vals == s.renamed.vals[u.hwname := u.name]
    ensures o.err.Some? || !u.renamed ==> o.s.renamed == s.renamed
  {
    var o := AddUnit(s, Interfaces, u, macs, reading);
    if o.err.None? && u.renamed then Outcome(o.s.(renamed := o.s.renamed.Put(u.hwname, u.name)), None) else o
  }

  /** `add_vlan`: the VLAN's build is recorded in the VLAN bucket. */
  function AddVlan(s: Session, u: Unit, macs: map<string, string>, reading: Reading): (o: Outcome)
    requires s.Valid()
    ensures o.s.Valid()
    ensures Recorded(s, Vlans, u.name, u.routes, Build(u, s.reg, macs, reading), o)
    ensures o.s.renamed == s.renamed
  {
    AddUnit(s, Vlans, u, macs, reading)
  }

  /** `add_bond` (an OVS bond): its build is recorded with the plain interfaces. */
  function AddBond(s: Session, u: Unit, macs: map<string, string>, reading: Reading): (o: Outcome)
    requires s.Valid()
    ensures o.s.Valid()
    ensures Recorded(s, Interfaces, u.name, u.routes, Build(u, s.reg, macs, reading), o)
    ensures o.s.renamed == s.renamed
  {
    AddUnit(s, Interfaces, u, macs, reading)
  }

  /** `add_linux_bond`: the bond's build is recorded in the Linux bond bucket. */
  function AddLinuxBond(s: Session, u: Unit, macs: map<string, string>, reading: Reading): (o: Outcome)
    requires s.Valid()
    ensures o.s.Valid()
    ensures Recorded(s, LinuxBonds, u.name, u.routes, Build(u, s.reg, macs, reading), o)
    ensures o.s.renamed == s.renamed
  {
    AddUnit(s, LinuxBonds, u, macs, reading)
  }

  /** `add_linux_team`: the team's build is recorded in the team bucket. */
  function AddLinuxTeam(s: Session, u: Unit, macs: map<string, string>, reading: Reading): (o: Outcome)
    requires s.Valid()
    ensures o.s.Valid()
    ensures Recorded(s, LinuxTeams, u.name, u.routes, Build(u, s.reg, macs, reading), o)
    ensures o.s.renamed == s.renamed
  {
    AddUnit(s, LinuxTeams, u, macs, reading)
  }

  /**
    `add_linux_bridge`: the builder rejects a Linux bridge before anything is
    stored (the bucket it would store into does not exist on the object).
   */
  function AddLinuxBridge(s: Session, u: Unit, macs: map<string, string>, reading: Reading): (o: Outcome)
    requires s.Valid() && u.kind == LinuxBridge
    ensures o.s == s
    ensures o.err == Some(NotImplemented("Linux bridges"))
  {
    UnsupportedKinds(u, s.reg, macs, reading);
    Outcome(s, Some(Build(u, s.reg, macs, reading).out.error))
  }

  /** The `<bridge>-p` internal OVS interface carrying the bridge's own addressing. */
  function InternalPort(u: Unit): (p: Unit)
    ensures p.kind == OvsInterface && p.name == InternalPortName(u.name)
    ensures p.useDhcp == u.useDhcp && p.useDhcpv6 == u.useDhcpv6 && p.addresses == u.addresses
    ensures p.mtu == u.mtu && p.defroute == u.defroute && p.dnsServers == u.dnsServers && p.onboot == u.onboot
  {
    Unit(OvsInterface, InternalPortName(u.name), u.useDhcp, u.useDhcpv6, u.onboot, u.dnsServers,
         u.defroute, u.mtu, u.addresses, false, "", [], "", Null, "", 0, "", "", u.routes, false, "")
  }

  /**
    `add_bridge`: the internal port always builds, leaves the registries as
    they were and is stored first under `<name>-p`; then the bridge is built
    on those registries and recorded in the bridge bucket exactly as any other
    unit is, so `add_bridge` raises exactly when the bridge's own build does,
    with its error, and the bridge's routes are recorded under its name.
   */
  function AddBridge(s: Session, u: Unit, macs: map<string, string>, reading: Reading): (o: Outcome)
    requires s.Valid()
    ensures o.s.Valid()
    ensures var port := Build(InternalPort(u), s.reg, macs, reading);
            && port.out.Ok? && port.reg == s.reg
            && var s1 := s.(bridgeData := s.bridgeData.Put(InternalPortName(u.name), port.out.value));
               s1.Valid() && Recorded(s1, Bridges, u.name, u.routes, Build(u, s.reg, macs, reading), o)
    ensures InternalPortName(u.name) in o.s.bridgeData.vals
    ensures o.err.None? ==> u.name in o.s.bridgeData.vals
    ensures forall b | b != Bridges :: BucketOf(o.s, b) == BucketOf(s, b)
    ensures o.s.renamed == s.renamed
  {
    var port := InternalPort(u);
    var bp := Build(port, s.reg, macs, reading);
    InternalPortFragment(u, s.reg, macs, reading);
    RecordStores(s, Bridges, port.name, [], bp);
    var o1 := Record(s, Bridges, port.name, [], bp);
    if o1.err.Some? then o1
    else
      var bb := Build(u, o1.s.reg, macs, reading);
      RecordStores(o1.s, Bridges, u.name, u.routes, bb);
      assert |InternalPortName(u.name)| == |u.name| + 2;
      Record(o1.s, Bridges, u.name, u.routes, bb)
  }

  // ---------------------------------------------------------------------------
  // Facts about the add_* calls
  // ---------------------------------------------------------------------------

  /**
    Recording a build keeps the registries it left; a successful one stores
    exactly its fragment under the unit's name, in its own bucket, and replaces
    the unit's routes when it has any; a failed one stores nothing.  No other
    bucket changes.
   */
  lemma RecordStores(s: Session, b: Bucket, name: string, routes: seq<Route>, built: Built)
    requires s.Valid() && built.reg.Valid()
    ensures Recorded(s, b, name, routes, built, Record(s, b, name, routes, built))
    ensures Record(s, b, name, routes, built).s.renamed == s.renamed
  {
    var s1 := s.(reg := built.reg);
    KeepsBuckets(s, built.reg);
    match built.out {
      case Err(e) =>
      case Ok(f) =>
        var s2 := Store(s1, b, name, f);
        assert WithRoutes(s2, name, routes).routeData == if |routes| > 0 then AddRoutes(s2.routeData, name, routes) else s2.routeData;
    }
  }

  /** Replacing the registries leaves every bucket as it was. */
  lemma KeepsBuckets(s: Session, reg: Registries)
    ensures forall b :: BucketOf(s.(reg := reg), b) == BucketOf(s, b)
  {
  }

  lemma NotVlanNamedPort(name: string)
    ensures !IsVlanName(InternalPortName(name))
  {
    var n := InternalPortName(name);
    var i := WordPrefixLen(n);
    if 0 < i < |n| && n[i] == '.' {
      var d := DropFinalNewline(n[i + 1..]);
      assert |n[i + 1..]| > 0 && n[i + 1..][|n[i + 1..]| - 1] == 'p';
      assert d == n[i + 1..];
      assert !IsDigit(d[|d| - 1]);
    }
  }

  /**
    The internal port always builds: it is an `up` OVS interface with the
    bridge's name plus `-p`, and carries the bridge's DHCP and address
    settings for both families.
   */
  lemma InternalPortFragment(u: Unit, reg: Registries, macs: map<string, string>, reading: Reading)
    requires reg.Valid()
    ensures var b := Build(InternalPort(u), reg, macs, reading);
            && b.out.Ok? && b.reg == reg
            && "name" in b.out.value && b.out.value["name"] == Str(InternalPortName(u.name))
            && "type" in b.out.value && b.out.value["type"] == Str("ovs-interface")
            && "state" in b.out.value && b.out.value["state"] == Up
  {
    var p := InternalPort(u);
    NotVlanNamedPort(u.name);
    NonBridgeL3(p, reg, macs, reading);
    BuildType(p, reg, macs, reading);
    BuildState(p, reg, macs, reading);
  }

  /**
    The internal port carries the bridge's addressing: its IPv4 has the
    bridge's DHCP flag, one entry per IPv4 address of the bridge in order, and
    the gateway turned off exactly when the bridge is not the default route;
    its IPv6 has the bridge's DHCPv6 flag and IPv6 addresses; its MTU is the
    bridge's.
   */
  lemma InternalPortAddressing(u: Unit, reg: Registries, macs: map<string, string>, reading: Reading)
    requires reg.Valid()
    ensures Build(InternalPort(u), reg, macs, reading).out.Ok?
    ensures var f := Build(InternalPort(u), reg, macs, reading).out.value;
            var v4, v6 := Settings(f, "ipv4"), Settings(f, "ipv6");
            && "dhcp" in v4 && v4["dhcp"] == Bool(u.useDhcp)
            && ("address" in v4 <==> exists a | a in u.addresses :: a.family == V4)
            && ("address" in v4 ==> v4["address"] == List(AddressEntries(AddressesOf(u.addresses, V4))))
            && ("auto-gateway" in v4 <==> !u.defroute)
            && "dhcp" in v6 && v6["dhcp"] == Bool(u.useDhcpv6)
            && ("address" in v6 <==> exists a | a in u.addresses :: a.family == V6)
            && ("address" in v6 ==> v6["address"] == List(AddressEntries(AddressesOf(u.addresses, V6))))
            && ("mtu" in f <==> u.mtu != 0)
            && ("mtu" in f ==> f["mtu"] == Int(u.mtu))
  {
    var p := InternalPort(u);
    InternalPortFragment(u, reg, macs, reading);
    BuildOk(p, reg, macs, reading);
    Ipv4Settings(p, reg, macs, reading);
    Ipv6Settings(p, reg, macs, reading);
    BuildMtu(p, reg, macs, reading);
  }

  /**
    For a bridge new to the bucket, `add_bridge` appends the internal port and
    then, when the bridge builds, the bridge, in that order, so the batch lists
    the port before its bridge; each is stored with its own fragment.  A bridge
    whose build fails leaves only its port stored and raises the build's
    error.  The bridge's routes are recorded under the bridge's name exactly
    when it builds and has any; no other bucket changes.
   */
  lemma AddBridgeOrder(s: Session, u: Unit, macs: map<string, string>, reading: Reading)
    requires s.Valid()
    requires !s.bridgeData.Has(u.name) && !s.bridgeData.Has(InternalPortName(u.name))
    ensures Build(InternalPort(u), s.reg, macs, reading).out.Ok?
    ensures var o := AddBridge(s, u, macs, reading);
            var pn, port := InternalPortName(u.name), Build(InternalPort(u), s.reg, macs, reading).out.value;
            var bb := Build(u, s.reg, macs, reading);
            && (bb.out.Ok? ==> && o.err.None?
                               && o.s.bridgeData.keys == s.bridgeData.keys + [pn, u.name]
                               && o.s.bridgeData.vals == s.bridgeData.vals[pn := port][u.name := bb.out.value])
            && (bb.out.Err? ==> && o.err == Some(bb.out.error)
                                && o.s.bridgeData.keys == s.bridgeData.keys + [pn]
                                && o.s.bridgeData.vals == s.bridgeData.vals[pn := port])
            && (forall b | b != Bridges :: BucketOf(o.s, b) == BucketOf(s, b))
            && (bb.out.Ok? && |u.routes| > 0 ==> o.s.routeData.vals == s.routeData.vals[u.name := RouteEntries(u.name, u.routes)])
            && (bb.out.Err? || |u.routes| == 0 ==> o.s.routeData == s.routeData)
  {
    var port := InternalPort(u);
    InternalPortFragment(u, s.reg, macs, reading);
    var bp := Build(port, s.reg, macs, reading);
    var o1 := Record(s, Bridges, port.name, [], bp);
    assert |InternalPortName(u.name)| == |u.name| + 2;
    RecordPair(s, port.name, u.name, u.routes, bp, Build(u, o1.s.reg, macs, reading));
  }

  /** Two successive bridge records: the first name is appended, then the second when its build succeeds. */
  lemma RecordPair(s: Session, n1: string, n2: string, routes: seq<Route>, b1: Built, b2: Built)
    requires s.Valid() && b1.reg.Valid() && b2.reg.Valid() && b1.out.Ok?
    requires n1 != n2 && !s.bridgeData.Has(n1) && !s.bridgeData.Has(n2)
    ensures var o1 := Record(s, Bridges, n1, [], b1);
            var o := Record(o1.s, Bridges, n2, routes, b2);
            && o1.err.None?
            && (o.err.None? ==> o.s.bridgeData.keys == s.bridgeData.keys + [n1, n2])
            && (o.err.Some? ==> o.s.bridgeData.keys == s.bridgeData.keys + [n1])
            && (o.err.None? && |routes| > 0 ==> o.s.routeData.vals == s.routeData.vals[n2 := RouteEntries(n2, routes)])
            && (o.err.Some? || |routes| == 0 ==> o.s.routeData == s.routeData)
  {
    RecordStores(s, Bridges, n1, [], b1);
    var o1 := Record(s, Bridges, n1, [], b1);
    RecordStores(o1.s, Bridges, n2, routes, b2);
  }

  // ---------------------------------------------------------------------------
  // Every stored fragment names its unit
  // ---------------------------------------------------------------------------

  /** Every fragment in every bucket names its unit. */
  ghost predicate StoresNamed(s: Session)
  {
    forall b, k | k in BucketOf(s, b).vals :: Named(BucketOf(s, b).vals[k])
  }

  /** The items of every bucket of such a provider all name their units. */
  lemma StoredNamed(s: Session)
    requires s.Valid() && StoresNamed(s)
    ensures forall x | x in s.interfaceData.Items() :: Named(x.1)
    ensures forall x | x in s.bridgeData.Items() :: Named(x.1)
    ensures forall x | x in s.vlanData.Items() :: Named(x.1)
    ensures forall x | x in s.linuxbondData.Items() :: Named(x.1)
    ensures forall x | x in s.linuxteamData.Items() :: Named(x.1)
  {
    BucketNamed(s, Interfaces);
    BucketNamed(s, Bridges);
    BucketNamed(s, Vlans);
    BucketNamed(s, LinuxBonds);
    BucketNamed(s, LinuxTeams);
  }

  lemma BucketNamed(s: Session, b: Bucket)
    requires s.Valid() && StoresNamed(s)
    ensures forall x | x in BucketOf(s, b).Items() :: Named(x.1)
  {
    forall x | x in BucketOf(s, b).Items()
      ensures Named(x.1)
    {
      ItemsHas(BucketOf(s, b), x.0, x.1);
    }
  }

  /** Recording a build that names its unit keeps every stored fragment named. */
  lemma RecordedNamed(s: Session, b: Bucket, name: string, routes: seq<Route>, built: Built, o: Outcome)
    requires s.Valid() && StoresNamed(s)
    requires built.out.Ok? ==> Named(built.out.value)
    requires Recorded(s, b, name, routes, built, o)
    ensures StoresNamed(o.s)
  {
    forall b', k | k in BucketOf(o.s, b').vals
      ensures Named(BucketOf(o.s, b').vals[k])
    {
      if b' != b || built.out.Err? || k != name {
        assert k in BucketOf(s, b').vals;
      }
    }
  }

  /**
    Every `add_*` call of a single unit keeps every stored fragment naming its
    unit; with `Fresh` storing nothing, so does every provider a configuration
    fills.
   */
  lemma AddsKeepNamed(s: Session, u: Unit, macs: map<string, string>, reading: Reading)
    requires s.Valid() && StoresNamed(s)
    ensures StoresNamed(AddInterface(s, u, macs, reading).s)
    ensures StoresNamed(AddVlan(s, u, macs, reading).s)
    ensures StoresNamed(AddBond(s, u, macs, reading).s)
    ensures StoresNamed(AddLinuxBond(s, u, macs, reading).s)
    ensures StoresNamed(AddLinuxTeam(s, u, macs, reading).s)
  {
    var built := Build(u, s.reg, macs, reading);
    RecordedNamed(s, Interfaces, u.name, u.routes, built, AddInterface(s, u, macs, reading));
    RecordedNamed(s, Vlans, u.name, u.routes, built, AddVlan(s, u, macs, reading));
    RecordedNamed(s, Interfaces, u.name, u.routes, built, AddBond(s, u, macs, reading));
    RecordedNamed(s, LinuxBonds, u.name, u.routes, built, AddLinuxBond(s, u, macs, reading));
    RecordedNamed(s, LinuxTeams, u.name, u.routes, built, AddLinuxTeam(s, u, macs, reading));
  }

  /** `add_bridge` stores two named fragments, and `add_linux_bridge` none. */
  lemma BridgeAddsKeepNamed(s: Session, u: Unit, macs: map<string, string>, reading: Reading)
    requires s.Valid() && StoresNamed(s)
    ensures StoresNamed(AddBridge(s, u, macs, reading).s)
    ensures u.kind == LinuxBridge ==> StoresNamed(AddLinuxBridge(s, u, macs, reading).s)
  {
    var port := Build(InternalPort(u), s.reg, macs, reading);
    InternalPortFragment(u, s.reg, macs, reading);
    var s1 := s.(bridgeData := s.bridgeData.Put(InternalPortName(u.name), port.out.value));
    var bb := Build(u, s.reg, macs, reading);
    var o := AddBridge(s, u, macs, reading);
    assert s1.Valid() && Recorded(s1, Bridges, u.name, u.routes, bb, o);
    PortNamed(s, s1, InternalPortName(u.name), port.out.value);
    RecordedNamed(s1, Bridges, u.name, u.routes, bb, o);
  }

  lemma PortNamed(s: Session, s1: Session, n: string, f: Frag)
    requires s.Valid() && StoresNamed(s) && Named(f)
    requires s1 == s.(bridgeData := s.bridgeData.Put(n, f))
    ensures StoresNamed(s1)
  {
    forall b, k | k in BucketOf(s1, b).vals
      ensures Named(BucketOf(s1, b).vals[k])
    {
      if b != Bridges || k != n {
        assert k in BucketOf(s, b).vals;
      }
    }
  }

  // ---------------------------------------------------------------------------
  // child_members
  // ---------------------------------------------------------------------------

  /**
    `child_members(name)`, with `fuel` bounding the recursion depth: `None`
    stands for the interpreter's recursion limit, which the code reaches on
    any cycle because it keeps no visited set.  A name with no recorded
    members has no children (the `KeyError` is caught).
   */
  function ChildMembers(m: map<string, seq<string>>, name: string, fuel: nat): (r: Option<set<string>>)
    ensures r.Some? && name in m ==> forall y | y in m[name] :: y in r.value
    decreases fuel, 0
  {
    if name !in m then Some({})
    else if fuel == 0 then None
    else ChildrenOfAll(m, m[name], fuel - 1)
  }

  /** The loop over the members: each member, then its own children. */
  function ChildrenOfAll(m: map<string, seq<string>>, ms: seq<string>, fuel: nat): (r: Option<set<string>>)
    ensures r.Some? ==> forall y | y in ms :: y in r.value
    decreases fuel, 1, |ms|
  {
    if ms == [] then Some({})
    else
      match ChildMembers(m, ms[0], fuel)
      case None => None
      case Some(c0) =>
        match ChildrenOfAll(m, ms[1..], fuel)
        case None => None
        case Some(c1) =>
          assert forall y | y in ms :: y == ms[0] || y in ms[1..];
          Some({ms[0]} + c0 + c1)
  }

  /** `c` holds the members of every name in it. */
  ghost predicate Closed(m: map<string, seq<string>>, c: set<string>)
  {
    forall x, y | x in c && x in m && y in m[x] :: y in c
  }

  lemma {:induction false} ChildMembersClosed(m: map<string, seq<string>>, name: string, fuel: nat)
    requires ChildMembers(m, name, fuel).Some?
    ensures var c := ChildMembers(m, name, fuel).value;
            (name in m ==> forall y | y in m[name] :: y in c) && Closed(m, c)
    decreases fuel, 0
  {
    if name in m {
      ChildrenOfAllClosed(m, m[name], fuel - 1);
    }
  }

  lemma {:induction false} ChildrenOfAllClosed(m: map<string, seq<string>>, ms: seq<string>, fuel: nat)
    requires ChildrenOfAll(m, ms, fuel).Some?
    ensures var c := ChildrenOfAll(m, ms, fuel).value;
            (forall y | y in ms :: y in c) && Closed(m, c)
    decreases fuel, 1, |ms|
  {
    if ms != [] {
      var c0 := ChildMembers(m, ms[0], fuel).value;
      var c1 := ChildrenOfAll(m, ms[1..], fuel).value;
      ChildMembersClosed(m, ms[0], fuel);
      ChildrenOfAllClosed(m, ms[1..], fuel);
      assert forall y | y in ms :: y == ms[0] || y in ms[1..];
    }
  }

  lemma {:induction false} ChildMembersLeast(m: map<string, seq<string>>, name: string, fuel: nat, other: set<string>)
    requires ChildMembers(m, name, fuel).Some?
    requires name in m ==> forall y | y in m[name] :: y in other
    requires Closed(m, other)
    ensures ChildMembers(m, name, fuel).value <= other
    decreases fuel, 0
  {
    if name in m {
      ChildrenOfAllLeast(m, m[name], fuel - 1, other);
    }
  }

  lemma {:induction false} ChildrenOfAllLeast(m: map<string, seq<string>>, ms: seq<string>, fuel: nat, other: set<string>)
    requires ChildrenOfAll(m, ms, fuel).Some?
    requires forall y | y in ms :: y in other
    requires Closed(m, other)
    ensures ChildrenOfAll(m, ms, fuel).value <= other
    decreases fuel, 1, |ms|
  {
    if ms != [] {
      assert ms[0] in ms;
      ChildMembersLeast(m, ms[0], fuel, other);
      ChildrenOfAllLeast(m, ms[1..], fuel, other);
    }
  }

  /**
    When it returns, `child_members(name)` is the transitive closure of the
    member registry below `name`: it holds the direct members, holds the
    members of everything it holds, and is contained in every other set with
    those two properties.
   */
  lemma ChildMembersIsClosure(m: map<string, seq<string>>, name: string, fuel: nat, other: set<string>)
    requires ChildMembers(m, name, fuel).Some?
    ensures var c := ChildMembers(m, name, fuel).value;
            && (name in m ==> forall y | y in m[name] :: y in c)
            && Closed(m, c)
            && ((name in m ==> forall y | y in m[name] :: y in other) && Closed(m, other) ==> c <= other)
  {
    ChildMembersClosed(m, name, fuel);
    if (name in m ==> forall y | y in m[name] :: y in other) && Closed(m, other) {
      ChildMembersLeast(m, name, fuel, other);
    }
  }

  /** The members form no cycle: every member ranks strictly below the name listing it. */
  ghost predicate Ranked(m: map<string, seq<string>>, rank: string -> nat)
  {
    forall x, y | x in m && y in m[x] :: rank(y) < rank(x)
  }

  lemma {:induction false} ChildMembersReturns(m: map<string, seq<string>>, rank: string -> nat, name: string, fuel: nat)
    requires Ranked(m, rank) && fuel > rank(name)
    ensures ChildMembers(m, name, fuel).Some?
    decreases fuel, 0
  {
    if name in m {
      ChildrenOfAllReturns(m, rank, name, m[name], fuel - 1);
    }
  }

  lemma {:induction false} ChildrenOfAllReturns(m: map<string, seq<string>>, rank: string -> nat, parent: string, ms: seq<string>, fuel: nat)
    requires Ranked(m, rank) && parent in m && fuel >= rank(parent)
    requires forall y | y in ms :: y in m[parent]
    ensures ChildrenOfAll(m, ms, fuel).Some?
    decreases fuel, 1, |ms|
  {
    if ms != [] {
      assert ms[0] in ms;
      ChildMembersReturns(m, rank, ms[0], fuel);
      ChildrenOfAllReturns(m, rank, parent, ms[1..], fuel);
    }
  }

  lemma {:induction false} ChildrenOfAllFails(m: map<string, seq<string>>, ms: seq<string>, fuel: nat, x: string)
    requires x in ms && ChildMembers(m, x, fuel).None?
    ensures ChildrenOfAll(m, ms, fuel).None?
    decreases |ms|
  {
    if ms[0] != x {
      assert x in ms[1..];
      ChildrenOfAllFails(m, ms[1..], fuel, x);
    }
  }

  /** A name listed among its own members never returns, however deep the recursion may go. */
  lemma {:induction false} SelfMemberNeverReturns(m: map<string, seq<string>>, name: string, fuel: nat)
    requires name in m && name in m[name]
    ensures ChildMembers(m, name, fuel).None?
    decreases fuel
  {
    if fuel > 0 {
      SelfMemberNeverReturns(m, name, fuel - 1);
      ChildrenOfAllFails(m, m[name], fuel - 1, name);
    }
  }
}

=== FILE: pyjson.dfy ===
/**
  JSON-like values as the reconciliation code sees them: the dictionaries,
  lists and scalars that make up desired-state fragments and the running
  configuration reported by the state library, together with the few pieces of
  Python semantics the comparator depends on (truthiness, hashability, the `in`
  operator and `set(...)`).
 */
module PyJson {
  import opened Wrappers

  datatype Json =
    | Null
    | Bool(b: bool)
    | Int(i: int)
    | Str(s: string)
    | List(items: seq<Json>)
    | Dict(fields: map<string, Json>)
    | Set(elems: set<Json>)

  /** The Python exceptions the modelled code can raise on its own. */
  datatype PyErr =
    | TypeError
    | AttributeError
    | KeyError(key: string)
    | ValueError

  /** Python truthiness: `None`, `False`, `0` and empty containers are falsy. */
  predicate Truthy(v: Json)
  {
    match v
    case Null => false
    case Bool(b) => b
    case Int(i) => i != 0
    case Str(s) => |s| > 0
    case List(l) => |l| > 0
    case Dict(m) => |m| > 0
    case Set(e) => |e| > 0
  }

  /** Only scalars and strings may be set elements or dictionary keys. */
  predicate Hashable(v: Json)
  {
    v.Null? || v.Bool? || v.Int? || v.Str?
  }

  /** `t in s` for two Python strings. */
  predicate IsSubstring(t: string, s: string)
    decreases |s|
  {
    t <= s || (|s| > 0 && IsSubstring(t, s[1..]))
  }

  /** Python's `x in c`; raises for non-containers and unhashable probes. */
  function Contains(c: Json, x: Json): Result<bool, PyErr>
  {
    match c
    case Str(s) => if x.Str? then Ok(IsSubstring(x.s, s)) else Err(TypeError)
    case List(l) => Ok(x in l)
    case Dict(m) => if Hashable(x) then Ok(x.Str? && x.s in m) else Err(TypeError)
    case Set(e) => if Hashable(x) then Ok(x in e) else Err(TypeError)
    case _ => Err(TypeError)
  }

  /** Python's `set(v)`: strings give their characters, dictionaries their keys. */
  function SetOf(v: Json): Result<set<Json>, PyErr>
  {
    match v
    case Str(s) => Ok(set i | 0 <= i < |s| :: Str([s[i]]))
    case List(l) =>
      if forall x | x in l :: Hashable(x) then Ok(set x | x in l) else Err(TypeError)
    case Dict(m) => Ok(set k | k in m :: Str(k))
    case Set(e) => Ok(e)
    case _ => Err(TypeError)
  }

  /** `str(v) == 'False'`. */
  predicate PyStrIsFalse(v: Json)
  {
    v == Bool(false) || v == Str("False")
  }
}

=== FILE: routes.dfy ===
/**
  The route normaliser `_add_routes`: each static route of a unit becomes one
  route entry in the state library's schema, and the unit's list of entries
  replaces whatever was recorded for it before.
 */
module Routes {
  import opened PyJson
  import opened OrderedMaps
  import opened Units

  const V4DefaultDestination := "0.0.0.0/0"
  const V6DefaultDestination := "::/0"

  /** The destination of a default route, chosen by the family the next hop is written in. */
  function DefaultDestination(nextHop: string): (d: string)
    ensures d == V6DefaultDestination <==> ':' in nextHop
    ensures d == V4DefaultDestination <==> ':' !in nextHop
  {
    if ':' in nextHop then V6DefaultDestination else V4DefaultDestination
  }

  /**
    The destination the entry ends up with: the default destination for a
    default route through a next hop (it overrides any `ip_netmask`), the
    route's own netmask otherwise, and `""` for none.
   */
  function Destination(r: Route): string
  {
    if r.nextHop != "" && r.isDefault then DefaultDestination(r.nextHop) else r.ipNetmask
  }

  /** One route entry.  Numbers are set when non-zero, strings when non-empty. */
  function RouteEntry(iface: string, r: Route): (e: map<string, Json>)
    ensures "metric" in e <==> r.metric != 0
    ensures "table-id" in e <==> r.routeTable != 0
    ensures "next-hop-address" in e <==> r.nextHop != ""
    ensures "next-hop-interface" in e <==> r.nextHop != ""
    ensures r.nextHop != "" ==> e["next-hop-interface"] == Str(iface)
    ensures "destination" in e <==> Destination(r) != ""
    ensures forall k | k in e :: k in {"metric", "destination", "next-hop-address", "next-hop-interface", "table-id"}
  {
    var e0: map<string, Json> := map[];
    var e1 := if r.metric != 0 then e0["metric" := Int(r.metric)] else e0;
    var e2 := if r.ipNetmask != "" then e1["destination" := Str(r.ipNetmask)] else e1;
    var e3 :=
      if r.nextHop != "" then
        var h := e2["next-hop-address" := Str(r.nextHop)]["next-hop-interface" := Str(iface)];
        if r.isDefault then h["destination" := Str(DefaultDestination(r.nextHop))] else h
      else e2;
    if r.routeTable != 0 then e3["table-id" := Int(r.routeTable)] else e3
  }

  /** Every value of an entry is a string or an integer. */
  lemma RouteEntryScalars(iface: string, r: Route)
    ensures var e := RouteEntry(iface, r);
            forall k | k in e :: e[k].Str? || e[k].Int?
  {
    var e0: map<string, Json> := map[];
    var e1 := if r.metric != 0 then e0["metric" := Int(r.metric)] else e0;
    var e2 := if r.ipNetmask != "" then e1["destination" := Str(r.ipNetmask)] else e1;
    assert forall k | k in e2 :: e2[k].Str? || e2[k].Int?;
  }

  /** The entries of one unit's routes, in order. */
  function RouteEntries(iface: string, routes: seq<Route>): (es: seq<Json>)
    ensures |es| == |routes|
    ensures forall i | 0 <= i < |routes| :: es[i] == Dict(RouteEntry(iface, routes[i]))
  {
    seq(|routes|, i requires 0 <= i < |routes| => Dict(RouteEntry(iface, routes[i])))
  }

  /** `route_data[name] = [...]`: the unit's entries replace any recorded before. */
  function AddRoutes(routeData: OMap<string, seq<Json>>, iface: string, routes: seq<Route>): (m: OMap<string, seq<Json>>)
    requires routeData.Valid()
    ensures m.Valid()
    ensures m.vals == routeData.vals[iface := RouteEntries(iface, routes)]
    ensures m.keys == if routeData.Has(iface) then routeData.keys else routeData.keys + [iface]
  {
    routeData.Put(iface, RouteEntries(iface, routes))
  }

  // ---------------------------------------------------------------------------
  // Reading an entry back
  // ---------------------------------------------------------------------------

  function StrField(e: map<string, Json>, k: string): string
  {
    if k in e && e[k].Str? then e[k].s else ""
  }

  function IntField(e: map<string, Json>, k: string): int
  {
    if k in e && e[k].Int? then e[k].i else 0
  }

  /** The route an entry describes; the default flag is not recorded as such. */
  function DecodeRoute(e: map<string, Json>): Route
  {
    Route(StrField(e, "next-hop-address"), StrField(e, "destination"), false,
          IntField(e, "metric"), IntField(e, "table-id"))
  }

  /**
    An entry loses nothing but the default flag, which it folds into the
    destination: reading it back gives the route with its effective
    destination.
   */
  lemma RouteEntryRoundTrip(iface: string, r: Route)
    ensures DecodeRoute(RouteEntry(iface, r)) == r.(ipNetmask := Destination(r), isDefault := false)
  {
  }

  /**
    A default route through a next hop gets the IPv6 default destination
    exactly when the next hop contains a colon, and the IPv4 one otherwise,
    whatever netmask it was given.
   */
  lemma DefaultRouteDestination(iface: string, r: Route)
    requires r.nextHop != "" && r.isDefault
    ensures var e := RouteEntry(iface, r);
            && "destination" in e
            && (e["destination"] == Str(V6DefaultDestination) <==> ':' in r.nextHop)
            && (e["destination"] == Str(V4DefaultDestination) <==> ':' !in r.nextHop)
  {
    RouteEntryRoundTrip(iface, r);
  }

  /** Recording routes twice for one unit keeps only the second list, at the first position. */
  lemma AddRoutesTwice(routeData: OMap<string, seq<Json>>, iface: string, rs1: seq<Route>, rs2: seq<Route>)
    requires routeData.Valid()
    ensures AddRoutes(AddRoutes(routeData, iface, rs1), iface, rs2) == AddRoutes(routeData, iface, rs2)
  {
  }
}

=== FILE: subset.dfy ===
/**
  The subset comparator `is_dict_subset(superset, subset)`: does an observed
  value (the superset) already carry every fact a desired mapping (the subset)
  asks for?  The test is asymmetric: keys present only in the observed value are
  ignored, strings match by containment, lists by membership of every desired
  item, sets by inclusion, and anything else by equality.

  Python may raise while comparing ill-matched shapes (`superset[key]` on a
  list, `'x' in 5`, `subset.items()` on a string); such runs end in `Raises`.
 */
module Subset {
  import opened Wrappers
  import opened PyJson

  datatype Verdict = Holds | Fails | Raises

  /**
    `is_dict_subset(sup, sub)`.  A value always satisfies itself; anything
    else can satisfy only a non-empty desired mapping, and only by containing
    every key the desired one names: as a mapping, or else as a list, string
    or set whose desired values are all `[]` (indexing it raises, the
    `TypeError` is caught, and the loop over no items passes).
   */
  function IsDictSubset(sup: Json, sub: Json): (r: Verdict)
    ensures sup == sub ==> r == Holds
    ensures r == Holds && sup != sub ==>
              && sub.Dict? && |sub.fields| > 0
              && forall k | k in sub.fields ::
                   if sup.Dict? then k in sup.fields
                   else Contains(sup, Str(k)) == Ok(true) && sub.fields[k] == List([])
    decreases sub, 1
  {
    if sup == sub then Holds
    else if !(Truthy(sup) && Truthy(sub)) then Fails
    else if !sub.Dict? then Raises   // `subset.items()` on a non-mapping
    else
      var r := ItemsVerdict(sup, sub);
      assert r == Holds ==> forall k | k in sub.fields ::
                              if sup.Dict? then k in sup.fields
                              else Contains(sup, Str(k)) == Ok(true) && sub.fields[k] == List([]) by {
        if r == Holds {
          forall k | k in sub.fields
            ensures if sup.Dict? then k in sup.fields
                    else Contains(sup, Str(k)) == Ok(true) && sub.fields[k] == List([])
          {
            assert KeyVerdict(sup, k, sub.fields[k]) == Holds;
          }
        }
      }
      r
  }

  /**
    The loop over `subset.items()`: every item must hold.  Python stops at the
    first item that fails or raises; a map has no insertion order, so a failing
    item is reported in preference to a raising one.
   */
  function ItemsVerdict(sup: Json, sub: Json): Verdict
    requires sub.Dict?
    decreases sub, 0
  {
    var m := sub.fields;
    if forall k | k in m :: KeyVerdict(sup, k, m[k]) == Holds then Holds
    else if exists k | k in m :: KeyVerdict(sup, k, m[k]) == Fails then Fails
    else Raises
  }

  /**
    One desired item `k: v`: the key must be present, then the value must
    match.  Indexing a list, string or set by the key raises `TypeError`;
    for a desired list that happens inside the `try`, and the fallback loop
    raises again unless the desired list is empty, when the item passes.
   */
  function KeyVerdict(sup: Json, k: string, v: Json): Verdict
    decreases v, 3
  {
    match Contains(sup, Str(k))
    case Err(_) => Raises
    case Ok(found) =>
      if !found then Fails
      else if !sup.Dict? then (if v == List([]) then Holds else Raises)   // `superset[key]` on a non-mapping
      else LeafVerdict(sup.fields[k], v)
  }

  /** The value rules, by the type of the desired value `v`. */
  function LeafVerdict(sv: Json, v: Json): Verdict
    decreases v, 2
  {
    match v
    case Dict(_) => IsDictSubset(sv, v)
    case Str(_) =>
      (match Contains(sv, v)
       case Err(_) => Raises
       case Ok(b) => if b then Holds else Fails)
    case List(items) =>
      (match (SetOf(v), SetOf(sv))
       case (Ok(a), Ok(b)) => if a <= b then Holds else Fails
       case _ => MembersVerdict(sv, items))   // the `except TypeError` fallback
    case Set(e) =>
      if sv.Set? then (if e <= sv.elems then Holds else Fails) else Raises
    case _ => if v == sv then Holds else Fails
  }

  /** `for item in value: if item not in superset[key]: return False`. */
  function MembersVerdict(sv: Json, items: seq<Json>): Verdict
    decreases |items|
  {
    if items == [] then Holds
    else
      match Contains(sv, items[0])
      case Err(_) => Raises
      case Ok(b) => if b then MembersVerdict(sv, items[1..]) else Fails
  }

  // ---------------------------------------------------------------------------
  // A reference reading of "the observed value already satisfies the desired one"
  // ---------------------------------------------------------------------------

  ghost predicate Satisfies(o: Json, d: Json)
    decreases d, 1
  {
    || o == d
    || (&& d.Dict? && |d.fields| > 0 && o.Dict?
        && forall k | k in d.fields :: k in o.fields && LeafSatisfies(o.fields[k], d.fields[k]))
  }

  ghost predicate LeafSatisfies(o: Json, d: Json)
    decreases d, 2
  {
    match d
    case Dict(_) => Satisfies(o, d)
    case Str(t) => o.Str? && IsSubstring(t, o.s)
    case List(l) => o.List? && forall x | x in l :: x in o.items
    case Set(e) => o.Set? && e <= o.elems
    case _ => o == d
  }

  /** Observed leaves have the type of the desired leaves they are compared with. */
  ghost predicate ShapesAgree(o: Json, d: Json)
    decreases d
  {
    match d
    case Dict(m) =>
      o.Dict? && forall k | k in m && k in o.fields :: ShapesAgree(o.fields[k], m[k])
    case Str(_) => o.Str?
    case List(_) => o.List?
    case Set(_) => o.Set?
    case _ => true
  }

  // ---------------------------------------------------------------------------
  // Lemmas
  // ---------------------------------------------------------------------------

  lemma {:induction false} MembersOfList(o: seq<Json>, l: seq<Json>)
    ensures MembersVerdict(List(o), l) == (if forall x | x in l :: x in o then Holds else Fails)
    decreases |l|
  {
    if l != [] {
      MembersOfList(o, l[1..]);
      assert forall x | x in l :: x == l[0] || x in l[1..];
    }
  }

  /**
    A desired list is satisfied by an observed list exactly when every desired
    item occurs in it, whatever the order, the duplicates, or whether the items
    are hashable (set inclusion and the per-item fallback agree), and the
    comparison never raises.
   */
  lemma ListLeaf(o: seq<Json>, l: seq<Json>)
    ensures LeafVerdict(List(o), List(l)) == Holds <==> forall x | x in l :: x in o
    ensures LeafVerdict(List(o), List(l)) != Raises
  {
    match (SetOf(List(l)), SetOf(List(o)))
    case (Ok(a), Ok(b)) =>
      assert a == set x | x in l;
      assert b == set x | x in o;
      if forall x | x in l :: x in o {
        assert a <= b;
      } else {
        var y :| y in l && y !in o;
        assert y in a && y !in b;
      }
    case _ =>
      MembersOfList(o, l);
  }

  /** Every value satisfies itself, as a whole and as a leaf. */
  lemma SelfHolds(x: Json)
    ensures IsDictSubset(x, x) == Holds
    ensures LeafVerdict(x, x) == Holds
  {
    match x
    case Str(s) => assert s <= s;
    case List(l) => ListLeaf(l, l);
    case _ =>
  }

  /** For a non-empty desired mapping and an observed mapping, only the items decide. */
  lemma DictByItems(sup: Json, m: map<string, Json>)
    requires sup.Dict? && |m| > 0
    ensures IsDictSubset(sup, Dict(m)) == ItemsVerdict(sup, Dict(m))
  {
    if sup == Dict(m) {
      forall k | k in m
        ensures KeyVerdict(sup, k, m[k]) == Holds
      {
        SelfHolds(m[k]);
      }
    } else if !Truthy(sup) {
      var k :| k in m;
      assert KeyVerdict(sup, k, m[k]) == Fails;
    }
  }

  /**
    Keys the observed mapping has but the desired one does not mention never
    change the verdict (for a non-empty desired mapping).
   */
  lemma ExtraObservedKeysIgnored(sm: map<string, Json>, extra: map<string, Json>, m: map<string, Json>)
    requires |m| > 0
    requires extra.Keys !! m.Keys
    ensures IsDictSubset(Dict(sm + extra), Dict(m)) == IsDictSubset(Dict(sm), Dict(m))
  {
    var s1, s2 := Dict(sm), Dict(sm + extra);
    DictByItems(s1, m);
    DictByItems(s2, m);
    forall k | k in m
      ensures KeyVerdict(s1, k, m[k]) == KeyVerdict(s2, k, m[k])
    {
      KeyOfMapping(sm, k, m[k]);
      KeyOfMapping(sm + extra, k, m[k]);
      assert k in sm <==> k in sm + extra;
      if k in sm {
        assert (sm + extra)[k] == sm[k];
      }
    }
  }

  /** Against an observed mapping, a desired item is looked up by its key. */
  lemma KeyOfMapping(sm: map<string, Json>, k: string, v: Json)
    ensures KeyVerdict(Dict(sm), k, v) == if k in sm then LeafVerdict(sm[k], v) else Fails
  {
  }

  /**
    The comparator rejects: when either side is falsy and the two differ (so an
    empty desired mapping only matches an empty observed one), and when the
    desired mapping names a key the observed mapping lacks.
   */
  lemma Rejections(sup: Json, sub: Json)
    ensures !Truthy(sup) || !Truthy(sub) ==> (IsDictSubset(sup, sub) == Holds <==> sup == sub)
    ensures !Truthy(sup) || !Truthy(sub) ==> IsDictSubset(sup, sub) != Raises
    ensures sub == Dict(map[]) ==> (IsDictSubset(sup, sub) == Holds <==> sup == Dict(map[]))
    ensures sup.Dict? && sub.Dict? && (exists k | k in sub.fields :: k !in sup.fields) ==>
              IsDictSubset(sup, sub) == Fails
  {
    if sup.Dict? && sub.Dict? && exists k | k in sub.fields :: k !in sup.fields {
      var k :| k in sub.fields && k !in sup.fields;
      DictByItems(sup, sub.fields);
      assert KeyVerdict(sup, k, sub.fields[k]) == Fails;
    }
  }

  lemma {:induction false} SatisfiesSound(o: Json, d: Json)
    requires Satisfies(o, d)
    ensures IsDictSubset(o, d) == Holds
    decreases d, 1
  {
    if o != d {
      var m := d.fields;
      DictByItems(o, m);
      forall k | k in m
        ensures KeyVerdict(o, k, m[k]) == Holds
      {
        LeafSatisfiesSound(o.fields[k], m[k]);
      }
    }
  }

  lemma {:induction false} LeafSatisfiesSound(o: Json, d: Json)
    requires LeafSatisfies(o, d)
    ensures LeafVerdict(o, d) == Holds
    decreases d, 2
  {
    match d
    case Dict(_) => SatisfiesSound(o, d);
    case List(l) => ListLeaf(o.items, l);
    case _ =>
  }

  lemma {:induction false} SatisfiesComplete(o: Json, d: Json)
    requires IsDictSubset(o, d) == Holds && ShapesAgree(o, d)
    ensures Satisfies(o, d)
    decreases d, 1
  {
    if o != d {
      assert d.Dict? && Truthy(d) && ItemsVerdict(o, d) == Holds;
      var m := d.fields;
      var k0 :| k0 in m;
      assert KeyVerdict(o, k0, m[k0]) == Holds;
      assert o.Dict?;
      forall k | k in m
        ensures k in o.fields && LeafSatisfies(o.fields[k], m[k])
      {
        assert KeyVerdict(o, k, m[k]) == Holds;
        LeafSatisfiesComplete(o.fields[k], m[k]);
      }
    }
  }

  lemma {:induction false} LeafSatisfiesComplete(o: Json, d: Json)
    requires LeafVerdict(o, d) == Holds && ShapesAgree(o, d)
    ensures LeafSatisfies(o, d)
    decreases d, 2
  {
    match d
    case Dict(_) => SatisfiesComplete(o, d);
    case List(l) => ListLeaf(o.items, l);
    case _ =>
  }

  /**
    The comparator agrees with the reference reading whenever observed leaves
    have the types of the desired ones: nested mappings recurse, strings match
    by substring, lists by membership, sets by inclusion, scalars by equality.
   */
  lemma SubsetMatchesReference(o: Json, d: Json)
    requires ShapesAgree(o, d)
    ensures IsDictSubset(o, d) == Holds <==> Satisfies(o, d)
  {
    if IsDictSubset(o, d) == Holds {
      SatisfiesComplete(o, d);
    }
    if Satisfies(o, d) {
      SatisfiesSound(o, d);
    }
  }

  /** A non-empty desired mapping whose every value is `[]`. */
  predicate OnlyEmptyLists(m: map<string, Json>)
  {
    |m| > 0 && forall k | k in m :: m[k] == List([])
  }

  /**
    A list of observed entries satisfies a desired mapping only when every
    desired value is `[]` and every desired key is itself an entry: for any
    other key the entry is missing (`False`), or indexing the list by it
    raises and the fallback loop has an item to look up, which raises again.
   */
  lemma ListSatisfiesDict(l: seq<Json>, m: map<string, Json>)
    ensures IsDictSubset(List(l), Dict(m)) == Holds <==> OnlyEmptyLists(m) && forall k | k in m :: Str(k) in l
    ensures !OnlyEmptyLists(m) ==> IsDictSubset(List(l), Dict(m)) != Holds
  {
    if OnlyEmptyLists(m) && forall k | k in m :: Str(k) in l {
      var k :| k in m;
      assert Str(k) in l;
      assert forall k | k in m :: KeyVerdict(List(l), k, m[k]) == Holds;
    } else if Truthy(List(l)) && |m| > 0 {
      var k :| k in m && (m[k] != List([]) || Str(k) !in l);
      assert KeyVerdict(List(l), k, m[k]) != Holds;
    }
  }
}

=== FILE: units.dfy ===
/**
  The configuration units the reconciler is handed: one record per interface,
  VLAN, bridge, bond or team, carrying the attributes the desired-state
  builder reads.  Python's `None` and empty values are both falsy and are
  treated alike by every test the builder makes, so an absent string is `""`,
  an absent number is `0` and an absent list is `[]`.
 */
module Units {
  import opened PyJson

  /** The object classes the builder distinguishes with `isinstance`. */
  datatype Kind =
    | Interface
    | OvsInterface
    | Vlan
    | IvsInterface
    | NfvswitchInternal
    | IbInterface
    | OvsBridge
    | OvsUserBridge
    | OvsBond
    | LinuxBridge
    | LinuxBond
    | LinuxTeam
    | OvsTunnel
    | OvsPatchPort
    | OvsDpdkPort
    | OvsDpdkBond

  datatype Family = V4 | V6

  /** A static address with its netmask already reduced to a prefix length. */
  datatype Address = Address(ip: string, prefixLength: nat, family: Family)

  /** A static route; `metric` and `routeTable` are 0 when unset. */
  datatype Route = Route(
    nextHop: string,
    ipNetmask: string,
    isDefault: bool,
    metric: int,
    routeTable: int)

  datatype Unit = Unit(
    kind: Kind,
    name: string,
    useDhcp: bool,
    useDhcpv6: bool,
    onboot: bool,
    dnsServers: seq<string>,
    defroute: bool,
    mtu: int,
    addresses: seq<Address>,
    ovsPort: bool,
    bridgeName: string,
    members: seq<string>,
    primary: string,
    failMode: Json,
    bondingOptions: string,
    vlanId: int,
    device: string,
    linuxBondName: string,
    routes: seq<Route>,
    renamed: bool,
    hwname: string)

  /**
    `v4_addresses()` and `v6_addresses()`: the unit's addresses of one family,
    each as often as the unit lists it (the order is kept too, see
    `AddressesOfAppend`).
   */
  function AddressesOf(addrs: seq<Address>, f: Family): (r: seq<Address>)
    ensures forall a | a in r :: a in addrs && a.family == f
    ensures forall a | a in addrs && a.family == f :: a in r
    ensures forall a :: multiset(r)[a] == if a.family == f then multiset(addrs)[a] else 0
    ensures |r| <= |addrs|
    decreases |addrs|
  {
    if addrs == [] then []
    else
      var rest := AddressesOf(addrs[1..], f);
      assert multiset(addrs) == multiset{addrs[0]} + multiset(addrs[1..]) by {
        assert addrs == [addrs[0]] + addrs[1..];
      }
      if addrs[0].family == f then [addrs[0]] + rest else rest
  }

  /**
    Selecting one family keeps the order: the addresses selected from a
    concatenation are those selected from its first part followed by those
    selected from its second.
   */
  lemma {:induction false} AddressesOfAppend(a: seq<Address>, b: seq<Address>, f: Family)
    ensures AddressesOf(a + b, f) == AddressesOf(a, f) + AddressesOf(b, f)
    decreases |a|
  {
    if a == [] {
      assert a + b == b;
    } else {
      var ab := a + b;
      assert ab[0] == a[0] && ab[1..] == a[1..] + b;
      AddressesOfAppend(a[1..], b, f);
      AddressesOfHead(a, f);
      AddressesOfHead(ab, f);
      var h: seq<Address> := if a[0].family == f then [a[0]] else [];
      var ra, rb := AddressesOf(a[1..], f), AddressesOf(b, f);
      assert AddressesOf(ab, f) == h + (ra + rb);
      assert AddressesOf(a, f) == h + ra;
      ConcatAssoc(h, ra, rb);
    }
  }

  lemma ConcatAssoc(x: seq<Address>, y: seq<Address>, z: seq<Address>)
    ensures x + (y + z) == (x + y) + z
  {
  }

  lemma AddressesOfHead(s: seq<Address>, f: Family)
    requires s != []
    ensures AddressesOf(s, f) == (if s[0].family == f then [s[0]] else []) + AddressesOf(s[1..], f)
  {
  }

  /** The two families split the addresses: every address is in exactly one of them, as often as listed. */
  lemma AddressesSplit(addrs: seq<Address>)
    ensures multiset(AddressesOf(addrs, V4)) + multiset(AddressesOf(addrs, V6)) == multiset(addrs)
  {
    var m4, m6 := multiset(AddressesOf(addrs, V4)), multiset(AddressesOf(addrs, V6));
    forall a
      ensures (m4 + m6)[a] == multiset(addrs)[a]
    {
    }
  }

  /** The kinds `_add_common` rejects outright with `NotImplemented`. */
  predicate Unsupported(k: Kind)
  {
    k in {IvsInterface, NfvswitchInternal, IbInterface, OvsUserBridge, LinuxBridge,
          OvsTunnel, OvsPatchPort, OvsDpdkPort, OvsDpdkBond}
  }

  /** Every address is of one of the two families. */
  lemma AddressFamilies(addrs: seq<Address>)
    ensures |addrs| > 0 <==> |AddressesOf(addrs, V4)| > 0 || |AddressesOf(addrs, V6)| > 0
  {
    if |addrs| > 0 {
      assert addrs[0] in addrs;
    }
  }
}

=== FILE: wrappers.dfy ===
/** Failure-compatible wrappers shared by every module of the model. */
module Wrappers {

  datatype Option<+T> = None | Some(value: T)

  /** The outcome of a Python call that either returns a value or raises. */
  datatype Result<+T, +E> = Ok(value: T) | Err(error: E) {
    predicate IsFailure() { Err? }

    function PropagateFailure<U>(): Result<U, E>
      requires Err?
    {
      Err(error)
    }

    function Extract(): T
      requires Ok?
    {
      value
    }
  }
}
